=== FILE: README.md ===
# pretty-please, modelled in Dafny

pretty-please is a TypeScript library built around `Task`, a lazy computation
with two callback channels, `reject` and `resolve`. Nothing runs until a task
is forked. Around it the library has:

- a combinator algebra: transformations, the parallel `all`, `race`,
  `firstSuccess` and `ap`, the sequential `sequence`, `loop` and `reduce`,
  the single-execution cache `onlyOnce`, retry with backoff, and the
  externally settled `ExternalTask`;
- an older variadic version of the `Task` API;
- a lazy sequence class `Seq` over `[key, value]` entries;
- the small data types `Result` and `RemoteData`;
- array helpers;
- a `Subscription` broadcaster.

This project models that core and proves what the code promises.

**Forking** (`fork.dfy`). A task is its computation, described as the trace of
callback calls it makes, plus the instance's `isCanceled` flag. Forking runs
the computation unless the flag is set. The handle's `cancel()` only stops
later calls from being delivered.

**Outcomes** (`outcome.dfy`). A well-behaved fork either never settles or
settles once, on one channel. That is an `Outcome`. Its time is either `Sync`,
a call made during the fork itself, or `At(t)`, a call made by a timer `t` ms
after the fork. JavaScript runs every synchronous call before any timer
callback, even a 0 ms one, so times are ordered by rank: `Sync` first, then
the timers by delay.

**Single-task combinators** (`transform.dfy`, `sequential.dfy`, `retry.dfy`).
These are functions on outcomes that add up delays.

**Parallel combinators** (`parallel.dfy`, `applicative.dfy`). These are
modelled as the callback handlers they are: step functions over shared state
(`isDone`, `runningTasks`, `results`, `errors`). The handlers are driven by a
schedule of child callback calls. `schedule.dfy` builds the schedule of
well-behaved children, ordered by time rank and then by input position:

- synchronous children call back during the fork loop, in input order, before
  any timer fires;
- timers fire by delay, and timers with equal delays fire in the order they
  were set, which is input order.

Each handler is proved equal to an independent reference definition. Where a
property holds for every schedule, including children that call back more than
once, it is stated for every schedule.

**State machines.** `onlyOnce` (`only_once.dfy`) and `ExternalTask`
(`external.dfy`) are explicit state machines over a sequence of inputs: forks,
and callback or method calls. The older API of `src/Task.ts` is in
`legacy_task.dfy`; its single-task combinators (`chain`, `map`, `mapError`,
`mapBoth`, `fold`, `swap`, `orElse`) are written as in the new file, so the
`Transform` functions model both.

**The rest of the library:**

- `Seq` (`lazy_seq.dfy`) works on finite sequences of entries. Laziness is
  stated as pull counts where it is observable.
- `result.dfy`, `remote_data.dfy`, `util.dfy` and `subscription.dfy` model the
  remaining files.

Some behaviours of the code are easy to misread:

- **`succeedIf`** short-circuits only when the check returns a truthy value.
  Its doc comment (`src/Task/Task.ts:142-143`) says the task runs when the
  check returns `undefined`. The code tests truthiness, so a defined but
  falsy value (`0`, `""`, `false`) also runs the wrapped task.
- **`retryWithExponentialBackoff(ms, times)`** nests `retryIn` layers. Its doc
  comment (`src/Task/Task.ts:712`) says it retries a failing task a number of
  times. Each layer re-runs the layers inside it, so a task that always fails
  is forked `2^times` times. In the test, four failures and then a success
  settle at 80 ms.
- **`fork` discards the handles that a computation returns.** Canceling the
  outer fork only silences its own callbacks; the children a combinator
  forked keep running and keep calling back.
- **`fork` delivers every call a computation makes.** `all` and
  `firstSuccess` can therefore settle twice: `all` when a child rejects after
  `all` resolved, `firstSuccess` when a child resolves after it rejected.
  `race` settles at most once, and a child of `all` that resolves twice does
  not make it settle twice. `ExternalTask` calls a stored fork for every
  `reject` and `resolve`.

## Model

| member | source | states |
|---|---|---|
| TaskFork.Fork | src/Task/Task.ts:762-794 | a canceled task does not run and calls nothing; otherwise the computation runs and the delivered calls are a prefix of the calls made: all of them without `cancel()`, the first `k` when `cancel()` comes after `k` calls |
| TaskFork.CanceledTaskNeverRuns | src/Task/Task.ts:762-798 | after `task.cancel()`, every fork is inert: the computation does not run and no callback is called |
| TaskFork.CancelOnlySuppressesDelivery | src/Task/Task.ts:766-794 | calling `cancel()` on a fork's handle leaves the computation's calls unchanged and delivers exactly those made before it |
| TaskFork.ForkEach | src/Task/Task.ts:766-794 | every fork of a task is its own run of the computation with its own handle |
| TaskFork.EveryForkReruns | src/Task/Task.ts:766-794 | n forks of an uncanceled task run the computation n times; of a canceled task, never |
| TaskFork.ForkDeliversBothCallbacks | src/Task/Task.ts:776-787 | `fork` does not enforce single delivery: a computation calling `reject` then `resolve` has both delivered |
| TaskFork.ForkDeliversOutcome | src/Task/Task.ts:766-794 | forking a well-behaved task without canceling delivers exactly its outcome |
| Outcomes.SucceedBy | src/Task/Task.ts:60-67 | `succeedBy` settles synchronously, resolving with what the thunk returned or rejecting with what it threw |
| Outcomes.SucceedByCalls | src/Task/Task.ts:51-67 | the first call of `succeedBy` is what the thunk did; when the `resolve` callback itself throws, the `catch` makes a second call, `reject` with the thrown error, and otherwise there is no other call |
| Outcomes.FirstOfTraceOf | src/Task/Task.ts:51-102 | the trace of a well-behaved leaf, seen by a caller listening to its first call, is the leaf's outcome |
| Outcomes.ShiftAdds | src/Task/Task.ts:698-706 | delaying a fork by `a` and then by `b` is delaying it by `a + b` |
| Transform.Map | src/Task/Task.ts:509-515 | `map` keeps the channel and time; it applies `fn` to a success and passes a failure through |
| Transform.MapError | src/Task/Task.ts:582-588 | `mapError` keeps the channel and time; it applies `fn` to a failure and passes a success through |
| Transform.MapBothCommutes | src/Task/Task.ts:598-608 | `mapBoth` is `mapError` then `map`, in either order |
| Transform.Fold | src/Task/Task.ts:610-625 | `fold` always resolves, at the same time, with the value of the handler for the channel it settled on |
| Transform.Swap | src/Task/Task.ts:494-507 | `swap` keeps the time and exchanges the channels |
| Transform.Chain | src/Task/Task.ts:121-129 | `chain` forks `fn(s)` when the first task succeeds and passes its failure through without calling `fn` |
| Transform.OrElse | src/Task/Task.ts:627-642 | `orElse` forks `fn(e)` only on failure and passes a success through |
| Transform.SucceedIf | src/Task/Task.ts:146-164 | `succeedIf` succeeds at once with a truthy check result and otherwise runs the wrapped task, also for a falsy but defined result |
| Transform.SucceedIfFalsyRunsTask | src/Task/Task.ts:153-155 | a check returning `0` does not short-circuit |
| Transform.TapIsIdentity | src/Task/Task.ts:553-567 | `tap` never changes an outcome |
| Transform.SuccessOnlyCombinators | src/Task/Task.ts:837-869 | `forward`, `append` and `prepend` keep the channel, time and error, and replace only a success's value |
| Transform.MapComposes | src/Task/Task.ts:509-515 | mapping `f` then `g` is mapping their composition |
| Transform.SwapInvolution | src/Task/Task.ts:494-507 | swapping twice is the identity |
| Transform.SwapExchangesMaps | src/Task/Task.ts:494-515 | `swap` turns `map` into `mapError` |
| Transform.OrElseIsSwappedChain | src/Task/Task.ts:627-642 | `orElse` is `chain` on the swapped channels |
| Transform.FoldIsMapThenRecover | src/Task/Task.ts:610-625 | `fold` is `map` followed by recovery into a success |
| Transform.ChainLeftIdentity | src/Task/Task.ts:121-129 | chaining onto `succeed(x)` is `fn(x)` |
| Transform.ChainRightIdentity | src/Task/Task.ts:121-129 | chaining `succeed` changes nothing |
| Transform.ChainShift | src/Task/Task.ts:121-129 | delaying the first task delays the whole chain |
| Transform.ChainAssociative | src/Task/Task.ts:121-129 | nested `chain`s associate |
| Transform.MapIsChain | src/Task/Task.ts:509-515 | `map` is `chain` into an immediate success |
| Transform.FlattenMapIsChain | src/Task/Task.ts:728-733 | `flatten(map(fn, task))` is `chain(fn, task)` |
| Transform.TapChainForwardsOriginal | src/Task/Task.ts:569-580 | `tapChain` forwards the original value after the side task, and takes the side task's failure |
| Transform.WaitDelays | src/Task/Task.ts:698-706 | `wait(ms)` delays settlement by exactly `ms` on a timer, so even `wait(0)` settles after every synchronous call, and changes nothing else |
| Schedule.Build | src/Task/Task.ts:407-444 | the schedule of the children's calls is ordered by time rank and then by input position: synchronous calls in the fork loop in input order, then timers by delay, equal delays in input order |
| Schedule.SyncBeforeTimers | src/Task/Task.ts:407-444 | in the schedule, no synchronous call comes after a timer's call |
| Schedule.BuildFacts | src/Task/Task.ts:407-444 | the schedule has one event per settling child, for no other child, carrying that child's time and signal |
| Schedule.ScheduledOnce | src/Task/Task.ts:407-444 | each settling child's event appears at exactly one place in the schedule |
| Schedule.Earliest | src/Task/Task.ts:260-286 | the reference "first child to settle with a given kind of signal" is the least such child in (time rank, position) order, so a synchronous one comes before any timer, even a 0 ms one |
| Parallel.AllRunShape | src/Task/Task.ts:407-444 | for any schedule, `all` resolves when its running count reaches zero before the first rejection, and the first rejection is always passed on |
| Parallel.AllDeliversAtMostOnce | src/Task/Task.ts:407-444 | with children that call back at most once, `all` settles at most once |
| Parallel.AllMisbehavingChildSettlesTwice | src/Task/Task.ts:428-440 | a child that resolves and then rejects makes `all` resolve and then reject |
| Parallel.AllChildResolvingTwiceSettlesOnce | src/Task/Task.ts:426-436 | a single child that resolves twice makes `all` resolve once: only the running count reaching zero resolves |
| Parallel.AllResultsDense | src/Task/Task.ts:433-436 | when every child succeeds, `results[i]` is child i's value, whatever the completion order |
| Parallel.AllMatchesReference | src/Task/Task.ts:407-444 | `all([])` resolves `[]` at once; otherwise the earliest rejection by time rank wins, the leftmost on a tie, or the results in input order arrive when the last child settles |
| Parallel.AllSyncFailureFirst | src/Task/Task.ts:407-444 | `all([failIn(0, a), fail(b)])` rejects with `b`, synchronously: a synchronous failure beats a 0 ms timer placed before it |
| Parallel.RaceRunShape | src/Task/Task.ts:260-286 | for any schedule, `race` passes on exactly the first callback call |
| Parallel.RaceMatchesReference | src/Task/Task.ts:260-286 | `race` settles like the child that settles first by time rank, the leftmost on a tie, and never when there is none |
| Parallel.RaceSyncBeatsZeroTimer | src/Task/Task.ts:260-286 | `race([succeedIn(0, a), succeed(b)])` resolves with `b`, synchronously |
| Parallel.RaceOfNothingNeverSettles | src/Task/Task.ts:260-286 | `race([])` never settles |
| Parallel.FirstSuccessRunShape | src/Task/Task.ts:363-400 | for any schedule, `firstSuccess` rejects with the errors in arrival order when every child failed before any success, and passes on the first success |
| Parallel.FirstSuccessDeliversAtMostOnce | src/Task/Task.ts:363-400 | with children that call back at most once, `firstSuccess` settles at most once |
| Parallel.FirstSuccessMatchesReference | src/Task/Task.ts:363-400 | `firstSuccess([])` rejects with `[]`; otherwise the earliest success by time rank wins, the leftmost on a tie, or, when all fail, the errors arrive when the last child settles |
| Parallel.ErrorsInSettlementOrder | src/Task/Task.ts:384-394 | when every child fails, the error list holds each child's error once, in settlement order, synchronous failures before timer failures |
| Applicative.ApMatchesReference | src/Task/Task.ts:644-691 | `ap` resolves with `f(x)` once both branches succeed; the earlier rejection by time rank, the function branch on a tie, is the only one delivered |
| Applicative.FirstRejectionIsEarliest | src/Task/Task.ts:644-691 | the first rejection among several outcomes is the earliest by time rank, the leftmost on a tie; there is none iff none rejects |
| Applicative.ApRejection | src/Task/Task.ts:644-691 | `ap` rejects with the earlier of its branches' rejections, the function branch on a tie; it resolves iff both branches resolve, at the later time |
| Applicative.ApOfSucceedIsMap | src/Task/Task.ts:644-691 | applying an immediately successful function task is `map` |
| Applicative.Map2Spec | src/Task/Task.ts:517-522 | `map2` gives `fn(a)(b)` at the later time when both succeed; otherwise it rejects with the first rejection, the earliest by time rank and `a` on a tie, at its time |
| Applicative.Map3Spec | src/Task/Task.ts:524-533 | `map3` applies `fn` to the three results in order at the latest time once all succeed; it fails iff one of them fails, with the first rejection, the earliest by time rank and the leftmost on a tie, at its time |
| Applicative.Map4Spec | src/Task/Task.ts:535-551 | `map4` applies `fn` to the four results in order at the latest time once all succeed; it fails iff one of them fails, with the first rejection, the earliest by time rank and the leftmost on a tie, at its time |
| Applicative.ZipPairs | src/Task/Task.ts:452-464 | `zip` succeeds iff both succeed, with the pair in argument order at the later time; it fails iff one fails, with the first rejection, the earliest by time rank and `a` on a tie, at its time |
| Applicative.ZipWithIsMapOfZip | src/Task/Task.ts:466-474 | `zipWith(fn)` is `zip` followed by `map` of `fn` |
| Sequential.SequenceFoldMatchesReference | src/Task/Task.ts:476-488 | the left fold of `chain`s runs the tasks one after another and collects their results in order |
| Sequential.SequenceMatchesReference | src/Task/Task.ts:476-488 | `sequence` equals the one-after-another reference, and `sequence([])` resolves `[]` |
| Sequential.SequenceStopsAtFailure | src/Task/Task.ts:476-488 | the tasks after the first failure are never forked: they cannot change the outcome |
| Sequential.SequenceAllSucceed | src/Task/Task.ts:476-488 | when all succeed, `sequence` resolves with every result in input order after the sum of the delays |
| Sequential.LoopFuelMonotone | src/Task/Task.ts:302-334 | once the loop settles, running it longer does not change the outcome |
| Sequential.LoopBreakEnds | src/Task/Task.ts:314-321 | a step resolving with `LoopBreak(v)` ends the loop with `v` |
| Sequential.ReduceMatchesReference | src/Task/Task.ts:336-357 | `reduce` is a left fold that passes each item its own index, and it finishes within one step per item |
| Sequential.ReduceOfNothing | src/Task/Task.ts:336-357 | reducing no items resolves at once with the initial value |
| Retry.RetryInOnce | src/Task/Task.ts:708-709 | `retryIn(ms)` keeps a success, and after a failure at `t` forks the wrapped task once more at `t + ms` |
| Retry.ForkCountBounded | src/Task/Task.ts:708-726 | a task wrapped in `d` `retryIn` layers is forked between 1 and `2^d` times |
| Retry.NoRetryAfterFirstSuccess | src/Task/Task.ts:708-726 | when the first fork does not fail, no retry happens |
| Retry.Backoff | src/Task/Task.ts:717-726 | `retryWithExponentialBackoff(ms, times)` wraps the base task in `times` layers |
| Retry.BackoffAlwaysFailing | src/Task/Task.ts:717-726 | a task that always fails is forked `2^times` times, and fails at time `T` with `2T = times * ms * 2^times` |
| Retry.BackoffExample | src/__tests__/retryWithExponentialBackoff.spec.ts:17-54 | with `ms = 10` and `times = 4`, four failures and then a success resolve at 80 ms, on the fifth fork |
| OnlyOnce.Register | src/Task/Task.ts:176-180 | `notify` stores the caller under the next id and changes nothing else |
| OnlyOnce.RunAppend | src/Task/Task.ts:166-224 | running two input sequences one after the other is running their concatenation |
| OnlyOnce.StepKeepsInv | src/Task/Task.ts:166-224 | every input keeps the invariant: at most one underlying fork, and increasing registry ids below `callbackId` |
| OnlyOnce.UnderlyingForkedAtMostOnce | src/Task/Task.ts:202-220 | whatever the forks and callback calls, the underlying task is forked at most once |
| OnlyOnce.ForksWhilePending | src/Task/Task.ts:207-211 | forks while pending are stored in fork order under fresh increasing ids, and nobody is called |
| OnlyOnce.ForksAfterSettling | src/Task/Task.ts:202-206 | forks after settling are answered at once from the cache, in fork order |
| OnlyOnce.SettleOnce | src/Task/Task.ts:182-200 | settling caches the value, calls every stored caller in registry order, and empties the registry |
| OnlyOnce.SingleExecutionCache | src/Task/Task.ts:166-224 | one underlying fork; every fork, before or after settling, is answered exactly once with the outcome, in fork order; the registry ends empty |
| OnlyOnce.SecondSettlingCallsNobody | src/Task/Task.ts:182-200 | a second callback of the underlying task overwrites the cache but calls nobody |
| External.FallThroughResolvesWithUndefined | src/Task/Task.ts:943-953 | after `reject(e)`, a fork is rejected with `e` and then resolved with `undefined` |
| External.FallThroughResolvesWithStaleResult | src/Task/Task.ts:943-953 | after `resolve(s)` and `reject(e)`, a fork is rejected with `e` and then resolved with the stale `s` |
| External.Step | src/Task/Task.ts:935-975 | corrected: a fork is told the latest state on its channel only, or nothing while pending, and is stored; `reject` and `resolve` record the state and call the stored caller |
| External.CorrectedForkAfterReject | src/Task/Task.ts:943-953 | corrected: a fork after `reject(e)` is told `e` and nothing else |
| External.StreamDelivers | src/Task/Task.ts:958-974 | once a caller is stored, every later `reject` and `resolve` reaches it, once each and in order |
| External.LatestForkOnly | src/Task/Task.ts:950-953 | a fork replaces the stored callbacks, so only the latest fork hears later calls |
| External.VersionsAgreeExceptForkAfterError | src/Task/Task.ts:935-975 | the written and corrected classes make the same calls on every input except a fork in the "error" state, where the written one makes two calls |
| External.EmitOp | src/Task/Task.ts:28-49 | an emission whose `resolve` callback does not throw is one `resolve` with what `fn` returned, or one `reject` with what it threw |
| External.EmitDelivers | src/Task/Task.ts:28-49 | emitting tells the stored caller what `fn` did and records it; when the caller's `resolve` callback throws, the `catch` also rejects it with the thrown error, and that error is the recorded state |
| External.EmitterStream | src/Task/Task.ts:28-49 | a caller that forked the emitter's task hears every later emission, in order |
| LegacyTask.OldForkIsUncanceledFork | src/Task.ts:13-17 | the old `fork` runs the stored computation and delivers every call, as an uncanceled new fork does |
| LegacyTask.OldRaceMatchesReference | src/Task.ts:108-134 | the old `race` settles like the child that settles first by time rank, the leftmost on a tie, and `race()` never settles |
| LegacyTask.OldAllMatchesReference | src/Task.ts:185-224 | the old `all` equals the new one on non-empty input, and `all()` never settles |
| LegacyTask.OldFirstSuccessMatchesReference | src/Task.ts:140-179 | the old `firstSuccess` equals the new one on non-empty input, and `firstSuccess()` never settles |
| LegacyTask.OldSequenceMatchesReference | src/Task.ts:230-236 | the old `sequence` runs the tasks one after another, equals the new one, and resolves `[]` for no tasks |
| LegacyTask.OldApplyMatchesReference | src/Task.ts:328-382 | the old `apply` resolves with `f(x)` once both succeed and delivers only the first rejection by time rank, the function on a tie |
| LazySeq.FromArrayRoundTrip | src/Seq/Seq.ts:4-6 | `fromArray` keys each element by its position, and `toArray` gives the array back |
| LazySeq.RangeSpec | src/Seq/Seq.ts:27-41 | `range` yields every integer from `start` to `end`, both included, ascending iff `start < end`, keyed 0, 1, 2, ... |
| LazySeq.Map | src/Seq/Seq.ts:102-112 | `map` keeps the length and the keys, and each value becomes `fn(value, key)` |
| LazySeq.TapIsIdentity | src/Seq/Seq.ts:114-120 | `tap` leaves every entry unchanged |
| LazySeq.MapComposes | src/Seq/Seq.ts:102-112 | mapping twice is mapping the composition |
| LazySeq.FilterMembership | src/Seq/Seq.ts:149-161 | an entry is kept iff it is in the source and satisfies the predicate |
| LazySeq.FilterAppend | src/Seq/Seq.ts:149-161 | filtering distributes over concatenation, so the source order is kept |
| LazySeq.FilterSplits | src/Seq/Seq.ts:149-161 | the entries kept by a predicate and by its negation add up to the source |
| LazySeq.FilterPullsExactly | src/Seq/Seq.ts:149-161 | `filter` pulls just enough source entries to yield the `k` asked for, and the whole source when there are fewer |
| LazySeq.FlatMapSpec | src/Seq/Seq.ts:128-147 | `flatMap` yields the arrays `fn` returns, concatenated in source order and re-keyed 0, 1, 2, ... |
| LazySeq.TakeSkip | src/Seq/Seq.ts:290-357 | `take(n)` is the first `min(n, length)` entries, none for `n <= 0`, `skip(n)` is the rest, and together they are the source |
| LazySeq.TakeIgnoresRest | src/Seq/Seq.ts:290-306 | `take(n)` depends only on the first `n` source entries, so it pulls no more |
| LazySeq.TakeWhileIsLongestPrefix | src/Seq/Seq.ts:267-288 | `takeWhile` is the longest prefix whose entries satisfy the predicate |
| LazySeq.TakeWhilePullsOneExtra | src/Seq/Seq.ts:267-288 | drained, `takeWhile` pulls its result plus the one failing entry when there is one |
| LazySeq.SkipWhileWrittenIsFilter | src/Seq/Seq.ts:308-329 | `skipWhile` as written equals `filter` with the negated predicate |
| LazySeq.SkipWhileWrittenDropsLaterMatches | src/Seq/Seq.ts:308-329 | on the values `[0, 5, 1]` with `v < 4`, the code yields `[5]` while the intended result is `[5, 1]` |
| LazySeq.TakeWhileSkipWhile | src/Seq/Seq.ts:308-329 | the corrected `skipWhile` is what `takeWhile` leaves, and starts with a failing entry |
| LazySeq.SomeEntry | src/Seq/Seq.ts:247-255 | `some` holds iff an entry satisfies the predicate, and it stops at the first such entry |
| LazySeq.EveryEntry | src/Seq/Seq.ts:257-265 | `every` holds iff all entries satisfy the predicate, and it stops at the first failing entry |
| LazySeq.Index | src/Seq/Seq.ts:359-361 | `index(i)` is the value at position `i`, or `undefined` outside the sequence |
| LazySeq.First | src/Seq/Seq.ts:363-365 | `first()` is the first value, or `undefined` for an empty sequence |
| LazySeq.FindIsFirstMatch | src/Seq/Seq.ts:232-234 | `find` returns the value of the first entry satisfying the predicate, and `undefined` iff there is none |
| LazySeq.ReduceAppend | src/Seq/Seq.ts:236-241 | reducing a concatenation continues from the sum of the first part: a left fold |
| LazySeq.ZipWithSpec | src/Seq/Seq.ts:52-85 | `zipWith` yields as many entries as the longer source; entry `i` is `fn([a, b], i)`, with `undefined` for an exhausted side |
| LazySeq.ZipPairs | src/Seq/Seq.ts:87-96 | `zip` pairs the values position by position, keyed by position |
| LazySeq.ToMapLastWins | src/Seq/Seq.ts:383-385 | `toMap` has the keys of the entries, and each key maps to the value of its last entry |
| LazySeq.PartitionRunKeepsInv | src/Seq/Seq.ts:163-230 | under any interleaving of pulls, each side's output plus its queue is the source entries pulled so far that belong to it, in order |
| LazySeq.PartitionRoutes | src/Seq/Seq.ts:163-230 | every pulled entry goes to exactly one side, each side yields its entries in source order, and a side reports done exactly when it has yielded all of its entries, so drained it is exactly `filter(fn)` or the entries `fn` rejects |
| LazySeq.PullTrueDoneIffDrained | src/Seq/Seq.ts:172-199 | the first side's `next()` reports done iff its output so far is every entry `fn` accepts |
| LazySeq.PullFalseDoneIffDrained | src/Seq/Seq.ts:201-228 | the second side's `next()` reports done iff its output so far is every entry `fn` rejects |
| LazySeq.PullTrueNoneWhenDrained | src/Seq/Seq.ts:172-199 | with nothing queued and no accepted entry left in the source, the first side reports done |
| LazySeq.PullFalseNoneWhenDrained | src/Seq/Seq.ts:201-228 | with nothing queued and no rejected entry left in the source, the second side reports done |
| Results.ExactlyOneTag | src/Result.ts:45-51 | exactly one of `isOk` and `isErr` holds |
| Results.Map | src/Result.ts:53-58 | `map` applies `fn` to an `Ok` and returns an `Err` unchanged |
| Results.MapError | src/Result.ts:60-65 | `mapError` applies `fn` to an `Err` and returns an `Ok` unchanged |
| Results.AndThen | src/Result.ts:67-72 | `andThen` gives `fn(x)` for `Ok(x)` and the same `Err` otherwise |
| Results.WithDefault | src/Result.ts:74-76 | `withDefault` gives an `Ok`'s result, or the default for an `Err` |
| Results.Fold | src/Result.ts:78-88 | `fold` returns the value of exactly the handler that matches the tag |
| Results.MapsAreFolds | src/Result.ts:53-65 | `map` and `mapError` are folds that rebuild the result |
| Results.WithDefaultIsFold | src/Result.ts:74-88 | `withDefault` is the fold whose error handler returns the default |
| Results.MapLaws | src/Result.ts:53-58 | `map` keeps identity and composition |
| Results.AndThenLaws | src/Result.ts:67-72 | `andThen` keeps the monad laws, with `Ok` as the unit |
| Results.MapIsAndThen | src/Result.ts:53-72 | `map` is `andThen` with a function that always succeeds |
| RemoteData.FoldCall | src/RemoteData/RemoteData.ts:37-57 | `fold` invokes the handler for the value's tag and no other |
| RemoteData.FoldOfConstructors | src/RemoteData/RemoteData.ts:21-56 | `fold` on `initialize()`, `pending()`, `fail(e)` and `succeed(s)` calls only the matching handler, with the payload |
| RemoteData.FoldWithConstructorsIsIdentity | src/RemoteData/RemoteData.ts:21-57 | folding with the constructors rebuilds the value |
| RemoteData.OldSucceed | src/RemoteData.ts:21-26 | the old `succeed(r)` is a Success carrying `r` |
| RemoteData.ExactlyOnePredicate | src/RemoteData.ts:28-48 | exactly one of the four predicates holds, each exactly on its own tag |
| RemoteData.FormsCorrespond | src/RemoteData.ts:9-26 | the two forms carry the same information, and the old Failure keeps its error in `result` |
| Util.Range | src/util.ts:1-4 | `range(end, start)` has `end - start` elements, element `i` being `start + i`, and throws for `end < start` |
| Util.RangeSplits | src/util.ts:1-4 | a range split at any point is two ranges |
| Util.ReduceToWraps | src/util.ts:6-17 | as a reducer with an initial value, `to(fn)` passes the sum through and yields `fn(all)` at the last index |
| Util.ReduceToWithoutInitial | src/util.ts:6-17 | without an initial value, `to(fn)` yields `fn(all)` for two or more elements, and the element itself for one |
| Util.MapToIndexedObjectSpec | src/util.ts:26-39 | `mapToIndexedObject` keeps the initial keys and maps every produced key to the value of the last item producing it |
| Util.PairsToIndexedObject | src/util.ts:41-44 | `pairsToIndexedObject` stores the pair and keeps every other key |
| Util.PairsAreIndexed | src/util.ts:26-44 | reducing pairs with `pairsToIndexedObject` is `mapToIndexedObject` with the pair as producer |
| Util.SuccessfulValidation | src/util.ts:63-66 | `successfulValidation(v)` is a success holding `v` |
| Util.FailedValidation | src/util.ts:68-71 | `failedValidation(e)` is a failure holding `e` |
| Util.Take | src/util.ts:73-74 | `take` copies the array for a non-finite count, and otherwise slices to the count, negative counts counting from the end |
| Util.Drop | src/util.ts:76-77 | `drop` returns `[]` and leaves the array for a non-finite count; otherwise it returns the elements from the count on and truncates the array to those before |
| Util.TakeDropSplit | src/util.ts:73-77 | `take` followed by `drop` is the array, and a finite `drop` leaves what `take` returns |
| Subscriptions.CheckStatus | src/Subscription/Subscription.ts:47-57 | `checkStatus_` stores the status the subscribers call for, and tells every listener only when it changed |
| Subscriptions.StepSpec | src/Subscription/Subscription.ts:24-57 | after every operation the status is "active" iff there is a subscriber; listeners hear each change once, in order; registering a listener calls nobody |
| Subscriptions.StatusTracksSubscribers | src/Subscription/Subscription.ts:24-57 | from a new subscription, after any operations, the status is "active" iff there is a subscriber |
| Subscriptions.SubscribeIsASet | src/Subscription/Subscription.ts:24-33 | subscribing twice keeps one copy, and the unsubscriber removes that subscriber and only it |
| Subscriptions.FirstSubscriberNotifies | src/Subscription/__tests__/Subscription.spec.ts:50-68 | the first subscriber makes listeners hear "active", and its unsubscriber makes them hear "inactive" |
| Subscriptions.Emit | src/Subscription/Subscription.ts:18-22 | `emit` calls exactly the current subscribers, in insertion order and each once; its outcome is that of the reference `all` over what they returned, with `empty()` for a non-task, and with no subscribers it resolves with nothing at once |
| Subscriptions.EmitOfPlainSubscribers | src/Subscription/Subscription.ts:18-22 | when no subscriber returns a task, `emit` resolves synchronously with `undefined` under every subscriber's index and no other key |
| Subscriptions.ClearSilencesEmit | src/Subscription/Subscription.ts:35-39 | after `clear()`, `emit` calls nobody and resolves with nothing |

## Left out

- Timers and promises are left out. Delays are abstract millisecond counts, and `fromPromise`, `fromLazyPromise`, `toPromise` and `then` are not modelled.
- Nested timers at the same deadline are not ordered as in JavaScript. Timers due at the same millisecond are ordered by input position; a timer set inside another timer's callback for the same deadline actually fires after every timer set before it, which the model does not track.
- Cancellation propagation is not modelled, because the code does not implement it. A canceled fork's computation keeps running, and so do its children.
- Several Task helpers are left out: `allSuccesses`, `validate`, `failIf`, `trySequence`, `fromPromises` and `wrapPromiseCreator`. Their implementations are not part of this model.
- The HTTP wrappers, the React hook, `src/extend.ts`, `src/index.ts` and `Array.prototype.chain_` are left out. They are I/O, UI glue or prototype patching.
- Some `Seq` members are left out: `Seq.infinite`, `Seq.log`, `fromSet`, `fromMap`, `toSet`, `fromIterator`, `fromGenerator` and `forEach`. The model covers finite sequences, without console output or JavaScript `Set`/`Map` identity or iteration order: `toMap` gives a dictionary whose keys carry no insertion order.
- Sequential.Loop: runs on a fuel bound, and `None` stands for "still continuing". A loop that never breaks is therefore not modelled as never settling. A step resolving with something other than `LoopBreak` or `LoopContinue` is also not modelled.
- Transform.Map: user callbacks are total here. A callback that throws inside a fork callback leaves the task unsettled, and that is not modelled; the same holds for the callbacks of every combinator (`mapError`, `chain`, `fold`, `tap`, `tapChain`, `orElse`, the `loop` and `reduce` steps) and of every `Seq` method. Only `succeedBy` and the emitter catch a throw, and those are modelled.
- Retry.Run: the base task's behaviour on its k-th fork is a parameter. The model does not describe how a real computation changes between forks.
- Transform.SuccessOnlyCombinators: `append` and `prepend` take items of the wrapped task's own value type. The source builds tuples of mixed types.
- LazySeq.SomeEntry: predicates return a `bool`. JavaScript truthiness of arbitrary return values is folded into that `bool`. The same holds for every `Seq` predicate.
- LazySeq.FilterPullsExactly: pull counts count the entries pulled. They do not count the final `next()` call that discovers the source is done.
- LazySeq.RangeSpec: non-integer bounds are not modelled. `range(0.5, 3)` counts from `0.5` in steps of one; here `start` and `end` are integers.
- LazySeq.TakeSkip: non-integer counts are not modelled. `take(2.5)` yields three entries, because the loop compares its counter with `2.5`; here counts are integers.
- LazySeq.Index: non-integer positions are not modelled. `index(1.5)` compares positions with `1.5` and yields `undefined`; here positions are integers.
- Util.ReduceToWithoutInitial: an empty array reduced without an initial value throws a TypeError in JavaScript; that case is not modelled.
- Util.Range: fractional arguments are not modelled. `Array(n)` with a non-integer `n` throws, and only the negative-length error is modelled.
- Util.Take: non-integer counts are not modelled. `slice` truncates them toward zero; here counts are integers.
- OnlyOnce.Step: a caller callback that throws is not modelled. The code notifies the stored callers one by one, so a throw stops the remaining callers from being called and may leave the registry uncleared; here every stored caller is called.
- Util.MapToIndexedObjectSpec: `initial` is mutated in place and returned. The model returns the new dictionary and does not track aliasing.
- Subscriptions.Emit: subscriber identities stand for the functions. A subscriber's return value is given as a parameter, and any falsy non-task return is treated as "nothing".
- RemoteData.OldSucceed: the old form keeps both the Failure and the Success payload in a field named `result`. Dafny does not allow one destructor name with two types, so the Success payload is named `value`.

## Findings

| source | as written | input that shows it | evidently intended | confidence | as-written member | corrected member |
|---|---|---|---|---|---|---|
| src/Seq/Seq.ts:308-329 | `skipWhile` `continue`s past every entry satisfying the predicate, wherever it is, so it equals `filter` of the negation | values `[0, 5, 1]` with `v => v < 4`: yields `[5]` | skip only the leading run: `[5, 1]` | not executed | LazySeq.SkipWhileWrittenDropsLaterMatches | LazySeq.TakeWhileSkipWhile |
| src/Task/Task.ts:943-953 | the `switch` in the constructor has no `break`s, so a fork in the "error" state calls `reject`, then `resolve` with `alreadyResult_`, then registers | `reject(e)` then a fork: the fork is rejected with `e` and then resolved with `undefined` | a fork is told only the latest state, then registered | not executed | External.FallThroughResolvesWithUndefined | External.CorrectedForkAfterReject |

=== FILE: applicative.dfy ===
/**
  `ap` of src/Task/Task.ts and the combinators built on it: `map2`, `map3`,
  `map4`, `zip`, `zipWith`.

  `ap(fnTask, argTask)` forks the function task first (input position 0) and
  the argument task second (position 1). Both callbacks check one shared
  `isRejected` flag; a success records its value and resolves once both the
  function and the argument are present.
 */
module Applicative {
  import opened Options
  import opened Outcomes
  import opened Schedule
  import Transform

  /** A success of one of the two children of `ap`. */
  datatype ApValue<!A, B> = Fn(f: A -> B) | Arg(a: A)

  /** `applierFunction`, `targetResult` (with `hasResultLoaded`) and `isRejected`. */
  datatype ApState<!A, B> = ApState(applier: Option<A -> B>, target: Option<A>, isRejected: bool)

  /** `handleReject` and `handleResolve` applied to one child callback call. */
  function ApStep<E, A, B>(st: ApState<A, B>, ev: ChildEvent<E, ApValue<A, B>>): (ApState<A, B>, Trace<E, B>) {
    if st.isRejected then (st, [])
    else
      match ev.sig
      case Rej(e) => (st.(isRejected := true), [Event(ev.time, Rej(e))])
      case Res(v) =>
        var next := match v
          case Fn(f) => st.(applier := Some(f))
          case Arg(a) => st.(target := Some(a));
        (next, if next.applier.Some? && next.target.Some?
               then [Event(ev.time, Res(next.applier.value(next.target.value)))]
               else [])
  }

  function ApRun<E, A, B>(st: ApState<A, B>, sched: seq<ChildEvent<E, ApValue<A, B>>>): Trace<E, B>
    decreases |sched|
  {
    if sched == [] then []
    else
      var (next, out) := ApStep(st, sched[0]);
      out + ApRun(next, sched[1..])
  }

  /** The two children as seen by the handler, in fork order. */
  function ApChildren<E, A, B>(fo: Outcome<E, A -> B>, ao: Outcome<E, A>): seq<Outcome<E, ApValue<A, B>>> {
    [Transform.Map((f: A -> B) => Fn(f), fo), Transform.Map((a: A) => Arg(a), ao)]
  }

  /** `ap(fnTask, argTask)`. */
  function Ap<E, A, B>(fo: Outcome<E, A -> B>, ao: Outcome<E, A>): Outcome<E, B> {
    FirstOf(ApRun(ApState(None, None, false), Build(ApChildren(fo, ao))))
  }

  /** The later of two times; `b` when they are the same. */
  function Max(a: Time, b: Time): (m: Time)
    ensures m == a || m == b
    ensures Rank(a) <= Rank(m) && Rank(b) <= Rank(m)
  {
    if Rank(a) <= Rank(b) then b else a
  }

  /**
    Reference for `ap`: the earlier failure wins, the function task on a tie;
    when both succeed the function is applied once the later one settles; a
    task that never settles with no failure anywhere leaves `ap` unsettled.
   */
  function ApRef<E, A, B>(fo: Outcome<E, A -> B>, ao: Outcome<E, A>): Outcome<E, B> {
    match (fo, ao)
    case (Done(t1, Rej(e1)), Done(t2, Rej(e2))) => if Rank(t1) <= Rank(t2) then Done(t1, Rej(e1)) else Done(t2, Rej(e2))
    case (Done(t1, Rej(e1)), _) => Done(t1, Rej(e1))
    case (_, Done(t2, Rej(e2))) => Done(t2, Rej(e2))
    case (Done(t1, Res(f)), Done(t2, Res(a))) => Done(Max(t1, t2), Res(f(a)))
    case _ => Never
  }

  // ---------------------------------------------------------------- which failure

  /** The time and error of `o`'s rejection, if it rejects. */
  function RejectionOf<E, S>(o: Outcome<E, S>): Option<(Time, E)> {
    if o.Rejected() then Some((o.time, o.sig.error)) else None
  }

  /** Of two possible rejections, the one delivered first: the earlier, `x` on a tie. */
  function FirstOfTwo<E>(x: Option<(Time, E)>, y: Option<(Time, E)>): Option<(Time, E)> {
    if x.None? then y
    else if y.None? then x
    else if Rank(x.value.0) <= Rank(y.value.0) then x
    else y
  }

  /** Of a list of possible rejections, the first delivered, read from the left. */
  function FirstRejection<E>(rs: seq<Option<(Time, E)>>): (r: Option<(Time, E)>)
    ensures r.None? <==> forall i :: 0 <= i < |rs| ==> rs[i].None?
    ensures r.Some? ==> r in rs
    decreases |rs|
  {
    if rs == [] then None else FirstOfTwo(rs[0], FirstRejection(rs[1..]))
  }

  /**
    The first rejection is the earliest one, and among rejections at that time
    the leftmost: no rejection before position `i` comes as early, none after
    it comes earlier.
   */
  lemma {:induction false} FirstRejectionIsEarliest<E>(rs: seq<Option<(Time, E)>>) returns (i: nat)
    requires FirstRejection(rs).Some?
    ensures i < |rs| && rs[i] == FirstRejection(rs)
    ensures forall k :: 0 <= k < i && rs[k].Some? ==> Rank(rs[i].value.0) < Rank(rs[k].value.0)
    ensures forall k :: i < k < |rs| && rs[k].Some? ==> Rank(rs[i].value.0) <= Rank(rs[k].value.0)
    decreases |rs|
  {
    var rest := FirstRejection(rs[1..]);
    if rest.None? {
      i := 0;
      assert forall k :: 1 <= k < |rs| ==> rs[k] == rs[1..][k - 1];
    } else {
      var j := FirstRejectionIsEarliest(rs[1..]);
      assert forall k :: 1 <= k < |rs| ==> rs[k] == rs[1..][k - 1];
      if rs[0].Some? && Rank(rs[0].value.0) <= Rank(rest.value.0) {
        i := 0;
        forall k | 0 < k < |rs| && rs[k].Some? ensures Rank(rs[0].value.0) <= Rank(rs[k].value.0) {
          if k - 1 != j {
            assert rs[1..][k - 1] == rs[k];
          }
        }
      } else {
        i := j + 1;
      }
    }
  }

  /** Taking the first of two is associative, so the first of a list does not depend on grouping. */
  lemma FirstOfTwoAssociative<E>(x: Option<(Time, E)>, y: Option<(Time, E)>, z: Option<(Time, E)>)
    ensures FirstOfTwo(FirstOfTwo(x, y), z) == FirstOfTwo(x, FirstOfTwo(y, z))
  {
  }

  /** The schedule of two well-behaved children. */
  lemma BuildPair<E, S>(x: Outcome<E, S>, y: Outcome<E, S>)
    ensures Build([x, y]) ==
      match (x, y)
      case (Never, Never) => []
      case (Done(t0, s0), Never) => [ChildEvent(t0, 0, s0)]
      case (Never, Done(t1, s1)) => [ChildEvent(t1, 1, s1)]
      case (Done(t0, s0), Done(t1, s1)) =>
        if Rank(t1) < Rank(t0) then [ChildEvent(t1, 1, s1), ChildEvent(t0, 0, s0)]
        else [ChildEvent(t0, 0, s0), ChildEvent(t1, 1, s1)]
  {
    var cs := [x, y];
    assert cs[..1] == [x];
    assert [x][..0] == [];
    var b1 := Build([x]);
    var none: seq<Outcome<E, S>> := [];
    assert [x][..0] == none;
    assert Build(none) == [];
    match x
    case Never => assert b1 == Build(none);
    case Done(t, sg) => assert b1 == Insert(ChildEvent(t, 0, sg), Build(none));
    assert Build(cs) == if y.Done? then Insert(ChildEvent(y.time, 1, y.sig), b1) else b1;
    if x.Done? && y.Done? {
      var e0 := ChildEvent(x.time, 0, x.sig);
      var e1 := ChildEvent(y.time, 1, y.sig);
      assert Before(e1, e0) <==> Rank(y.time) < Rank(x.time);
      assert [e0][1..] == [];
      if !(Rank(y.time) < Rank(x.time)) {
        assert Insert(e1, [e0]) == [e0] + Insert(e1, []);
      }
    }
  }

  lemma ApMatchesReference<E, A, B>(fo: Outcome<E, A -> B>, ao: Outcome<E, A>)
    ensures Ap(fo, ao) == ApRef(fo, ao)
  {
    var cs := ApChildren(fo, ao);
    BuildPair(cs[0], cs[1]);
    var st: ApState<A, B> := ApState(None, None, false);
    var sched := Build(cs);
    if |sched| == 2 {
      var (st1, out1) := ApStep(st, sched[0]);
      var (st2, out2) := ApStep(st1, sched[1]);
      var rest := sched[1..];
      assert rest[0] == sched[1] && rest[1..] == [];
      assert ApRun(st2, rest[1..]) == [];
      assert ApRun(st1, rest) == out2 + ApRun(st2, rest[1..]);
      assert ApRun(st, sched) == out1 + ApRun(st1, rest);
    } else if |sched| == 1 {
      var (st1, out1) := ApStep(st, sched[0]);
      assert sched[1..] == [];
      assert ApRun(st1, sched[1..]) == [];
      assert ApRun(st, sched) == out1;
    }
  }

  /**
    `ap` rejects with the first rejection of its two children, the function
    task on a tie, and resolves only when both resolve, once the later one has.
   */
  lemma ApRejection<E, A, B>(fo: Outcome<E, A -> B>, ao: Outcome<E, A>)
    ensures RejectionOf(Ap(fo, ao)) == FirstOfTwo(RejectionOf(fo), RejectionOf(ao))
    ensures Ap(fo, ao).Resolved() <==> fo.Resolved() && ao.Resolved()
    ensures Ap(fo, ao).Resolved() ==> Ap(fo, ao).time == Max(fo.time, ao.time)
  {
    ApMatchesReference(fo, ao);
  }

  /** `map2(fn, a, b)` is `of(fn).ap(a).ap(b)`. */
  function Map2<E, A, B, C>(f: A -> B -> C, a: Outcome<E, A>, b: Outcome<E, B>): Outcome<E, C> {
    Ap(Ap(Succeed(f), a), b)
  }

  /** `map3(fn, a, b, c)` is `of(fn).ap(a).ap(b).ap(c)`. */
  function Map3<E, A, B, C, D>(f: A -> B -> C -> D, a: Outcome<E, A>, b: Outcome<E, B>, c: Outcome<E, C>): Outcome<E, D> {
    Ap(Ap(Ap(Succeed(f), a), b), c)
  }

  /** `map4(fn, a, b, c, d)` is `of(fn).ap(a).ap(b).ap(c).ap(d)`. */
  function Map4<E, A, B, C, D, R>(f: A -> B -> C -> D -> R, a: Outcome<E, A>, b: Outcome<E, B>,
                                  c: Outcome<E, C>, d: Outcome<E, D>): Outcome<E, R> {
    Ap(Ap(Ap(Ap(Succeed(f), a), b), c), d)
  }

  /** `zip(a, b)` is `map2(a => b => [a, b], a, b)`. */
  function Zip<E, A, B>(a: Outcome<E, A>, b: Outcome<E, B>): Outcome<E, (A, B)> {
    Map2((x: A) => (y: B) => (x, y), a, b)
  }

  /** `zipWith(fn, a, b)` is `map2(a => b => fn(a, b), a, b)`. */
  function ZipWith<E, A, B, C>(f: (A, B) -> C, a: Outcome<E, A>, b: Outcome<E, B>): Outcome<E, C> {
    Map2((x: A) => (y: B) => f(x, y), a, b)
  }

  /** Applying a function task that succeeds at once is `map`. */
  lemma ApOfSucceedIsMap<E, A, B>(f: A -> B, ao: Outcome<E, A>)
    ensures Ap(Succeed(f), ao) == Transform.Map(f, ao)
  {
    ApMatchesReference(Succeed(f), ao);
  }

  /**
    `map2`: the result is `fn(a)(b)` when both succeed, at the later time; the
    earlier failure when either fails (the first task on a tie); never otherwise.
   */
  lemma Map2Spec<E, A, B, C>(f: A -> B -> C, a: Outcome<E, A>, b: Outcome<E, B>)
    ensures a.Resolved() && b.Resolved() ==> Map2(f, a, b) == Done(Max(a.time, b.time), Res(f(a.sig.value)(b.sig.value)))
    ensures a.Rejected() && (b.Rejected() ==> Rank(a.time) <= Rank(b.time)) ==> Map2(f, a, b) == Done(a.time, Rej(a.sig.error))
    ensures b.Rejected() && (a.Rejected() ==> Rank(b.time) < Rank(a.time)) ==> Map2(f, a, b) == Done(b.time, Rej(b.sig.error))
    ensures !a.Rejected() && !b.Rejected() && (a.Never? || b.Never?) ==> Map2(f, a, b).Never?
    ensures RejectionOf(Map2(f, a, b)) == FirstRejection([RejectionOf(a), RejectionOf(b)])
  {
    ApOfSucceedIsMap(f, a);
    ApMatchesReference(Transform.Map(f, a), b);
    assert [RejectionOf(a), RejectionOf(b)][1..] == [RejectionOf(b)];
  }

  /** `zip` pairs the two results, in argument order. */
  lemma ZipPairs<E, A, B>(a: Outcome<E, A>, b: Outcome<E, B>)
    ensures Zip(a, b).Resolved() <==> a.Resolved() && b.Resolved()
    ensures Zip(a, b).Resolved() ==> Zip(a, b).sig.value == (a.sig.value, b.sig.value)
    ensures Zip(a, b).Rejected() <==> a.Rejected() || b.Rejected()
    ensures Zip(a, b).Resolved() ==> Zip(a, b).time == Max(a.time, b.time)
    ensures RejectionOf(Zip(a, b)) == FirstRejection([RejectionOf(a), RejectionOf(b)])
  {
    Map2Spec((x: A) => (y: B) => (x, y), a, b);
  }

  /** `zipWith(fn, a, b)` is `zip(a, b)` followed by `map` of the uncurried `fn`. */
  lemma ZipWithIsMapOfZip<E, A, B, C>(f: (A, B) -> C, a: Outcome<E, A>, b: Outcome<E, B>)
    ensures ZipWith(f, a, b) == Transform.Map((p: (A, B)) => f(p.0, p.1), Zip(a, b))
  {
    Map2Spec((x: A) => (y: B) => f(x, y), a, b);
    Map2Spec((x: A) => (y: B) => (x, y), a, b);
  }

  /**
    `map3` applies `fn` to the three results once all succeed, at the latest
    time; it rejects with the first rejection among its inputs.
   */
  lemma Map3Spec<E, A, B, C, D>(f: A -> B -> C -> D, a: Outcome<E, A>, b: Outcome<E, B>, c: Outcome<E, C>)
    ensures a.Resolved() && b.Resolved() && c.Resolved() ==>
      Map3(f, a, b, c) == Done(Max(Max(a.time, b.time), c.time), Res(f(a.sig.value)(b.sig.value)(c.sig.value)))
    ensures Map3(f, a, b, c).Resolved() ==> a.Resolved() && b.Resolved() && c.Resolved()
    ensures Map3(f, a, b, c).Rejected() <==> a.Rejected() || b.Rejected() || c.Rejected()
    ensures RejectionOf(Map3(f, a, b, c)) == FirstRejection([RejectionOf(a), RejectionOf(b), RejectionOf(c)])
  {
    Map2Spec(f, a, b);
    ApMatchesReference(Map2(f, a, b), c);
    ApRejection(Map2(f, a, b), c);
    var ra, rb, rc := RejectionOf(a), RejectionOf(b), RejectionOf(c);
    assert Map3(f, a, b, c) == Ap(Map2(f, a, b), c);
    assert FirstRejection([ra, rb]) == FirstOfTwo(ra, rb) by {
      assert [ra, rb][1..] == [rb] && [rb][1..] == [];
    }
    assert FirstRejection([ra, rb, rc]) == FirstOfTwo(ra, FirstOfTwo(rb, rc)) by {
      assert [ra, rb, rc][1..] == [rb, rc] && [rb, rc][1..] == [rc] && [rc][1..] == [];
      assert FirstRejection([rc]) == rc;
      assert FirstRejection([rb, rc]) == FirstOfTwo(rb, rc);
    }
    FirstOfTwoAssociative(ra, rb, rc);
  }

  /**
    `map4` applies `fn` to the four results once all succeed, at the latest
    time; it rejects with the first rejection among its inputs.
   */
  lemma Map4Spec<E, A, B, C, D, R>(f: A -> B -> C -> D -> R, a: Outcome<E, A>, b: Outcome<E, B>,
                                   c: Outcome<E, C>, d: Outcome<E, D>)
    ensures a.Resolved() && b.Resolved() && c.Resolved() && d.Resolved() ==>
      Map4(f, a, b, c, d) == Done(Max(Max(Max(a.time, b.time), c.time), d.time),
                                  Res(f(a.sig.value)(b.sig.value)(c.sig.value)(d.sig.value)))
    ensures Map4(f, a, b, c, d).Resolved() ==> a.Resolved() && b.Resolved() && c.Resolved() && d.Resolved()
    ensures Map4(f, a, b, c, d).Rejected() <==> a.Rejected() || b.Rejected() || c.Rejected() || d.Rejected()
    ensures RejectionOf(Map4(f, a, b, c, d))
      == FirstRejection([RejectionOf(a), RejectionOf(b), RejectionOf(c), RejectionOf(d)])
  {
    Map3Spec(f, a, b, c);
    ApMatchesReference(Map3(f, a, b, c), d);
    ApRejection(Map3(f, a, b, c), d);
    var ra, rb, rc, rd := RejectionOf(a), RejectionOf(b), RejectionOf(c), RejectionOf(d);
    assert Map4(f, a, b, c, d) == Ap(Map3(f, a, b, c), d);
    assert FirstRejection([ra, rb, rc]) == FirstOfTwo(ra, FirstOfTwo(rb, rc)) by {
      assert [ra, rb, rc][1..] == [rb, rc] && [rb, rc][1..] == [rc] && [rc][1..] == [];
      assert FirstRejection([rc]) == rc;
      assert FirstRejection([rb, rc]) == FirstOfTwo(rb, rc);
    }
    assert FirstRejection([ra, rb, rc, rd]) == FirstOfTwo(ra, FirstOfTwo(rb, FirstOfTwo(rc, rd))) by {
      assert [ra, rb, rc, rd][1..] == [rb, rc, rd];
      assert [rb, rc, rd][1..] == [rc, rd] && [rc, rd][1..] == [rd] && [rd][1..] == [];
      assert FirstRejection([rd]) == rd;
      assert FirstRejection([rc, rd]) == FirstOfTwo(rc, rd);
      assert FirstRejection([rb, rc, rd]) == FirstOfTwo(rb, FirstOfTwo(rc, rd));
    }
    FirstOfTwoAssociative(rb, rc, rd);
    FirstOfTwoAssociative(ra, FirstOfTwo(rb, rc), rd);
    FirstOfTwoAssociative(ra, rb, rc);
  }
}

=== FILE: external.dfy ===
/**
  `ExternalTask` and `emitter` of src/Task/Task.ts: a task settled from
  outside by calling its `reject`/`resolve` methods.

  It is a stream, not a one-shot future. Each fork stores the caller's
  callbacks, replacing the ones stored before; each `reject`/`resolve`
  records the latest state and calls the stored callback, every time. A fork
  after a `reject` or `resolve` is first told the latest state.

  Two versions are modelled. `WrittenStep` is the constructor's `switch` as
  written: its cases have no `break`, so a fork in the "error" state calls
  `reject` and then also `resolve`, with whatever result was recorded last,
  or `undefined`. `Step` is the version with a `break` after each replay,
  which the rest of the model (and `emitter`) uses.
 */
module External {
  import opened Options
  import opened Outcomes

  /** A fork by `caller`, or a call of its `reject`/`resolve` method. */
  datatype ExternalOp<C, E, S> = ForkBy(caller: C) | Reject(error: E) | Resolve(result: S)

  /** A call of `caller`'s callback on the channel and with the value of `sig`. */
  datatype Call<C, E, S> = Call(caller: C, sig: Signal<E, S>)

  // ---------------------------------------------------------------- as written

  /** `lastState_`. */
  datatype LastState = PendingState | ErrorState | SuccessState

  /**
    The fields of the class as written: the stored caller (`computationReject_`
    and `computationResolve_` are always stored together), `alreadyError_`,
    `alreadyResult_` (`None` is `undefined`) and `lastState_`.
   */
  datatype WrittenState<C, E, S> = WrittenState(stored: Option<C>, alreadyError: Option<E>,
                                                alreadyResult: Option<S>, last: LastState)

  function WrittenInitial<C, E, S>(): WrittenState<C, E, S> {
    WrittenState(None, None, None, PendingState)
  }

  /** A call of the stored caller's callback, if a caller is stored. */
  function NotifyStored<C, E, S>(stored: Option<C>, sig: Signal<E, S>): (calls: seq<Call<C, E, S>>)
    ensures stored.None? ==> calls == []
    ensures stored.Some? ==> calls == [Call(stored.value, sig)]
  {
    match stored
    case None => []
    case Some(c) => [Call(c, sig)]
  }

  /**
    One input to the class as written. The values passed to callbacks are
    `Option`s because the fall-through passes `alreadyResult_` even when no
    result was ever recorded.
   */
  function WrittenStep<C, E, S>(st: WrittenState<C, E, S>, op: ExternalOp<C, E, S>)
    : (WrittenState<C, E, S>, seq<Call<C, Option<E>, Option<S>>>)
  {
    match op
    case ForkBy(c) =>
      var replayError := if st.last == ErrorState then [Call(c, Rej(st.alreadyError))] else [];
      var replayResult := if st.last != PendingState then [Call(c, Res(st.alreadyResult))] else [];
      (st.(stored := Some(c)), replayError + replayResult)
    case Reject(e) =>
      (st.(alreadyError := Some(e), last := ErrorState), NotifyStored(st.stored, Rej(Some(e))))
    case Resolve(s) =>
      (st.(alreadyResult := Some(s), last := SuccessState), NotifyStored(st.stored, Res(Some(s))))
  }

  function WrittenRun<C, E, S>(st: WrittenState<C, E, S>, ops: seq<ExternalOp<C, E, S>>)
    : (WrittenState<C, E, S>, seq<Call<C, Option<E>, Option<S>>>)
    decreases |ops|
  {
    if ops == [] then (st, [])
    else
      var (s1, c1) := WrittenStep(st, ops[0]);
      var (s2, c2) := WrittenRun(s1, ops[1..]);
      (s2, c1 + c2)
  }

  /**
    The fall-through: after `reject(e)`, a fork is told the error and is then
    also resolved, with `undefined` when nothing was ever resolved.
   */
  lemma FallThroughResolvesWithUndefined<C, E, S>(e: E, c: C)
    ensures WrittenRun(WrittenInitial<C, E, S>(), [Reject(e), ForkBy(c)]).1
      == [Call(c, Rej(Some(e))), Call(c, Res(None))]
  {
    var s1 := WrittenStep(WrittenInitial<C, E, S>(), Reject(e)).0;
    var s2 := WrittenStep(s1, ForkBy(c)).0;
    var ops: seq<ExternalOp<C, E, S>> := [Reject(e), ForkBy(c)];
    assert ops[1..] == [ForkBy(c)] && ops[1..][1..] == [];
    assert WrittenRun(s2, []) == (s2, []);
  }

  /** After `resolve(s)` and then `reject(e)`, a fork is told the error and then resolved with the stale `s`. */
  lemma FallThroughResolvesWithStaleResult<C, E, S>(s: S, e: E, c: C)
    ensures WrittenRun(WrittenInitial<C, E, S>(), [Resolve(s), Reject(e), ForkBy(c)]).1
      == [Call(c, Rej(Some(e))), Call(c, Res(Some(s)))]
  {
    var s1 := WrittenStep(WrittenInitial<C, E, S>(), Resolve(s)).0;
    var s2 := WrittenStep(s1, Reject(e)).0;
    var s3 := WrittenStep(s2, ForkBy(c)).0;
    var ops: seq<ExternalOp<C, E, S>> := [Resolve(s), Reject(e), ForkBy(c)];
    assert ops[1..] == [Reject(e), ForkBy(c)] && ops[1..][1..] == [ForkBy(c)] && ops[1..][1..][1..] == [];
    var one: seq<ExternalOp<C, E, S>> := [ForkBy(c)];
    assert one[1..] == [] && one[0] == ForkBy(c);
    assert WrittenRun(s3, one[1..]) == (s3, []);
    assert WrittenRun(s2, one).1 == WrittenStep(s2, ForkBy(c)).1 + [];
    assert WrittenRun(s1, ops[1..]).1 == [] + WrittenRun(s2, one).1;
  }

  // ---------------------------------------------------------------- corrected

  /** The latest state, with its value. */
  datatype Last<+E, +S> = NothingYet | LastError(error: E) | LastResult(result: S)

  datatype ExternalState<C, E, S> = ExternalState(stored: Option<C>, last: Last<E, S>)

  function Initial<C, E, S>(): ExternalState<C, E, S> {
    ExternalState(None, NothingYet)
  }

  /** The call that tells `c` the latest state: none while nothing happened. */
  function Replay<C, E, S>(c: C, last: Last<E, S>): seq<Call<C, E, S>> {
    match last
    case NothingYet => []
    case LastError(e) => [Call(c, Rej(e))]
    case LastResult(s) => [Call(c, Res(s))]
  }

  /**
    One input, with a `break` after each replayed state: a fork is told the
    latest state on its channel only, then stored; `reject`/`resolve`
    records the state and calls the stored caller.
   */
  function Step<C, E, S>(st: ExternalState<C, E, S>, op: ExternalOp<C, E, S>)
    : (r: (ExternalState<C, E, S>, seq<Call<C, E, S>>))
    ensures op.ForkBy? ==> r.0.stored == Some(op.caller) && r.0.last == st.last && |r.1| <= 1
    ensures op.ForkBy? && r.1 != [] ==> r.1 == [Call(op.caller, r.1[0].sig)]
    ensures op.ForkBy? ==> (r.1 == [] <==> st.last.NothingYet?)
    ensures op.ForkBy? && st.last.LastError? ==> r.1[0].sig == Rej(st.last.error)
    ensures op.ForkBy? && st.last.LastResult? ==> r.1[0].sig == Res(st.last.result)
    ensures op.Reject? ==> r.0 == st.(last := LastError(op.error)) && r.1 == NotifyStored(st.stored, Rej(op.error))
    ensures op.Resolve? ==> r.0 == st.(last := LastResult(op.result)) && r.1 == NotifyStored(st.stored, Res(op.result))
  {
    match op
    case ForkBy(c) => (st.(stored := Some(c)), Replay(c, st.last))
    case Reject(e) => (st.(last := LastError(e)), NotifyStored(st.stored, Rej(e)))
    case Resolve(s) => (st.(last := LastResult(s)), NotifyStored(st.stored, Res(s)))
  }

  function Run<C, E, S>(st: ExternalState<C, E, S>, ops: seq<ExternalOp<C, E, S>>)
    : (ExternalState<C, E, S>, seq<Call<C, E, S>>)
    decreases |ops|
  {
    if ops == [] then (st, [])
    else
      var (s1, c1) := Step(st, ops[0]);
      var (s2, c2) := Run(s1, ops[1..]);
      (s2, c1 + c2)
  }

  /** The same inputs, corrected: a fork after `reject(e)` is told `e` and nothing else. */
  lemma CorrectedForkAfterReject<C, E, S>(s: S, e: E, c: C)
    ensures Run(Initial<C, E, S>(), [Resolve(s), Reject(e), ForkBy(c)]).1 == [Call(c, Rej(e))]
    ensures Run(Initial<C, E, S>(), [Reject(e), ForkBy(c)]).1 == [Call(c, Rej(e))]
  {
    var s1 := Step(Initial<C, E, S>(), Resolve(s)).0;
    var s2 := Step(s1, Reject(e)).0;
    var s3 := Step(s2, ForkBy(c)).0;
    var ops: seq<ExternalOp<C, E, S>> := [Resolve(s), Reject(e), ForkBy(c)];
    assert ops[1..] == [Reject(e), ForkBy(c)] && ops[1..][1..] == [ForkBy(c)] && ops[1..][1..][1..] == [];
    var one: seq<ExternalOp<C, E, S>> := [ForkBy(c)];
    assert one[1..] == [] && one[0] == ForkBy(c);
    assert Run(s3, one[1..]) == (s3, []);
    assert Run(s2, one).1 == Step(s2, ForkBy(c)).1 + [];
    assert Run(s1, ops[1..]).1 == [] + Run(s2, one).1;
    var t1 := Step(Initial<C, E, S>(), Reject(e)).0;
    var t2 := Step(t1, ForkBy(c)).0;
    assert Run(t2, []) == (t2, []);
  }

  /** Every input is a call of `reject` or `resolve`. */
  predicate OnlySettles<C, E, S>(ops: seq<ExternalOp<C, E, S>>) {
    forall i :: 0 <= i < |ops| ==> !ops[i].ForkBy?
  }

  /** The signal of a `reject`/`resolve` input. */
  function SignalOf<C, E, S>(op: ExternalOp<C, E, S>): Signal<E, S>
    requires !op.ForkBy?
  {
    match op
    case Reject(e) => Rej(e)
    case Resolve(s) => Res(s)
  }

  /**
    The stream: once `c` is stored, every later `reject`/`resolve` calls `c`,
    once each and in order, whatever state it was in.
   */
  lemma {:induction false} StreamDelivers<C, E, S>(st: ExternalState<C, E, S>, c: C, ops: seq<ExternalOp<C, E, S>>)
    requires st.stored == Some(c) && OnlySettles(ops)
    ensures |Run(st, ops).1| == |ops|
    ensures forall i :: 0 <= i < |ops| ==> Run(st, ops).1[i] == Call(c, SignalOf(ops[i]))
    ensures Run(st, ops).0.stored == Some(c)
    decreases |ops|
  {
    if ops != [] {
      var (s1, c1) := Step(st, ops[0]);
      StreamDelivers(s1, c, ops[1..]);
      var rest := Run(s1, ops[1..]);
      assert Run(st, ops) == (rest.0, c1 + rest.1);
      forall i | 1 <= i < |ops|
        ensures Run(st, ops).1[i] == Call(c, SignalOf(ops[i]))
      {
        assert ops[1..][i - 1] == ops[i];
      }
    }
  }

  /** A fork replaces the stored caller: a later `reject`/`resolve` reaches only the latest fork. */
  lemma LatestForkOnly<C, E, S>(st: ExternalState<C, E, S>, c1: C, c2: C, op: ExternalOp<C, E, S>)
    requires !op.ForkBy?
    ensures var s1 := Step(Step(Step(st, ForkBy(c1)).0, ForkBy(c2)).0, op);
      s1.1 == [Call(c2, SignalOf(op))]
  {
  }

  // ---------------------------------------------------------------- the two versions

  /** What the class as written always has: a recorded value for the state it is in. */
  predicate WrittenInv<C, E, S>(w: WrittenState<C, E, S>) {
    && (w.last == ErrorState ==> w.alreadyError.Some?)
    && (w.last == SuccessState ==> w.alreadyResult.Some?)
  }

  /** The corrected state a written state stands for. */
  function Abstract<C, E, S>(w: WrittenState<C, E, S>): ExternalState<C, E, S>
    requires WrittenInv(w)
  {
    ExternalState(w.stored,
      match w.last
      case PendingState => NothingYet
      case ErrorState => LastError(w.alreadyError.value)
      case SuccessState => LastResult(w.alreadyResult.value))
  }

  /** A corrected call as the class as written would pass it. */
  function Lift<C, E, S>(call: Call<C, E, S>): Call<C, Option<E>, Option<S>> {
    match call.sig
    case Rej(e) => Call(call.caller, Rej(Some(e)))
    case Res(s) => Call(call.caller, Res(Some(s)))
  }

  function LiftAll<C, E, S>(calls: seq<Call<C, E, S>>): (r: seq<Call<C, Option<E>, Option<S>>>)
    ensures |r| == |calls|
    ensures forall i :: 0 <= i < |r| ==> r[i] == Lift(calls[i])
  {
    if calls == [] then [] else [Lift(calls[0])] + LiftAll(calls[1..])
  }

  /**
    The two versions agree on every input except a fork in the "error" state:
    the same calls, values wrapped, and corresponding states. A fork in the
    "error" state makes the written version call two callbacks where the
    corrected one calls one.
   */
  lemma VersionsAgreeExceptForkAfterError<C, E, S>(w: WrittenState<C, E, S>, op: ExternalOp<C, E, S>)
    requires WrittenInv(w)
    ensures WrittenInv(WrittenStep(w, op).0)
    ensures Abstract(WrittenStep(w, op).0) == Step(Abstract(w), op).0
    ensures !(op.ForkBy? && w.last == ErrorState) ==> WrittenStep(w, op).1 == LiftAll(Step(Abstract(w), op).1)
    ensures op.ForkBy? && w.last == ErrorState ==>
      |WrittenStep(w, op).1| == 2 && |Step(Abstract(w), op).1| == 1 &&
      WrittenStep(w, op).1[0] == Lift(Step(Abstract(w), op).1[0])
  {
    var calls := Step(Abstract(w), op).1;
    if calls != [] {
      assert LiftAll(calls) == [Lift(calls[0])] + LiftAll(calls[1..]);
    }
  }

  // ---------------------------------------------------------------- emitter

  /*
    The emitter is driven through the corrected `Step`. Its own inputs are
    `reject` and `resolve` calls, on which the two versions agree
    (`VersionsAgreeExceptForkAfterError`); only a fork in the "error" state
    tells them apart.
   */

  /**
    `emitter(fn)` returns an external task and `emit(...args)`. `call` is what
    `fn(...args)` did: `Res(v)` when it returned `v` (then `resolve(v)`),
    `Rej(e)` when it threw `e` (then `reject(e)`). This is one emission whose
    `resolve` callback does not throw.
   */
  function EmitOp<C, E, S>(call: Signal<E, S>): (op: ExternalOp<C, E, S>)
    ensures !op.ForkBy? && SignalOf(op) == call
  {
    match call
    case Rej(e) => Reject(e)
    case Res(v) => Resolve(v)
  }

  /**
    The inputs one `emit(...args)` makes. `task.resolve(fn(...args))` sits
    inside the `try`, so a throw from the stored caller's `resolve` callback
    (`thrown`; a callback is only called when a caller is stored) lands in the
    `catch` too, and `task.reject` is called with it after the resolve.
   */
  function EmitOps<C, E, S>(st: ExternalState<C, E, S>, call: Signal<E, S>, thrown: Option<E>): seq<ExternalOp<C, E, S>> {
    match call
    case Rej(e) => [Reject(e)]
    case Res(v) => [Resolve(v)] + (if st.stored.Some? && thrown.Some? then [Reject(thrown.value)] else [])
  }

  function Emit<C, E, S>(st: ExternalState<C, E, S>, call: Signal<E, S>, thrown: Option<E>)
    : (ExternalState<C, E, S>, seq<Call<C, E, S>>)
  {
    Run(st, EmitOps(st, call, thrown))
  }

  /**
    Emitting tells the stored caller what `fn` did, on the matching channel,
    and records it. When the caller's `resolve` callback throws, the caller is
    then also rejected with what it threw, and the task is left in the "error"
    state.
   */
  lemma EmitDelivers<C, E, S>(st: ExternalState<C, E, S>, call: Signal<E, S>, thrown: Option<E>)
    ensures thrown.None? ==> EmitOps(st, call, thrown) == [EmitOp(call)]
    ensures Emit(st, call, thrown).0.stored == st.stored
    ensures call.Rej? || st.stored.None? || thrown.None? ==>
      && Emit(st, call, thrown).1 == NotifyStored(st.stored, call)
      && (call.Rej? <==> Emit(st, call, thrown).0.last.LastError?)
      && (call.Rej? ==> Emit(st, call, thrown).0.last == LastError(call.error))
      && (call.Res? ==> Emit(st, call, thrown).0.last == LastResult(call.value))
    ensures call.Res? && st.stored.Some? && thrown.Some? ==>
      && Emit(st, call, thrown).1 == [Call(st.stored.value, call), Call(st.stored.value, Rej(thrown.value))]
      && Emit(st, call, thrown).0.last == LastError(thrown.value)
  {
    var ops := EmitOps(st, call, thrown);
    var (s1, c1) := Step(st, ops[0]);
    if |ops| == 1 {
      assert ops[1..] == [];
      assert Run(s1, ops[1..]) == (s1, []);
      assert Emit(st, call, thrown).0 == s1;
      assert Emit(st, call, thrown).1 == c1 + [];
    } else {
      var (s2, c2) := Step(s1, ops[1]);
      assert ops[1..][0] == ops[1] && ops[1..][1..] == [];
      assert Run(s2, ops[1..][1..]) == (s2, []);
      assert Run(s1, ops[1..]).0 == s2;
      assert Run(s1, ops[1..]).1 == c2 + [];
      assert Emit(st, call, thrown).0 == s2;
      assert Emit(st, call, thrown).1 == c1 + c2;
    }
  }

  /** A caller that forked the emitter's task sees every emission, in order: a stream. */
  lemma EmitterStream<C, E, S>(c: C, calls: seq<Signal<E, S>>)
    ensures var ops := [ForkBy(c)] + seq(|calls|, i requires 0 <= i < |calls| => EmitOp(calls[i]));
      Run(Initial<C, E, S>(), ops).1 == seq(|calls|, i requires 0 <= i < |calls| => Call(c, calls[i]))
  {
    var emits: seq<ExternalOp<C, E, S>> := seq(|calls|, i requires 0 <= i < |calls| => EmitOp(calls[i]));
    var ops := [ForkBy(c)] + emits;
    var s1 := Step(Initial<C, E, S>(), ForkBy(c)).0;
    assert ops[1..] == emits;
    StreamDelivers(s1, c, emits);
    assert Run(Initial<C, E, S>(), ops).1 == [] + Run(s1, emits).1;
  }
}

=== FILE: fork.dfy ===
/**
  The fork contract of the `Task` class (src/Task/Task.ts): a task wraps a
  computation and an `isCanceled` flag; `fork` runs the computation with
  callbacks guarded by a per-fork `localCancel` flag and returns a handle whose
  `cancel()` sets that flag.

  A computation is described by the callback calls it makes when run (a
  `Trace`); nothing stops it from calling both callbacks or calling one twice.
 */
module TaskFork {
  import opened Options
  import opened Outcomes

  /** `new Task(computation)`, together with the instance's `isCanceled` flag. */
  datatype Task<E, S> = Task(computation: Trace<E, S>, isCanceled: bool)

  /**
    The effect of one `fork`: whether the computation ran, the callback calls it
    made, and the calls that reached the caller's `reject`/`resolve`.
   */
  datatype ForkRun<E, S> = ForkRun(ran: bool, invoked: Trace<E, S>, delivered: Trace<E, S>)

  /** `new Task(computation)`: fresh tasks are not canceled. */
  function NewTask<E, S>(computation: Trace<E, S>): Task<E, S> {
    Task(computation, false)
  }

  /** `task.cancel()`: sets the instance flag; it affects later forks only. */
  function CancelTask<E, S>(t: Task<E, S>): Task<E, S> {
    t.(isCanceled := true)
  }

  function Min(a: nat, b: nat): nat {
    if a <= b then a else b
  }

  /**
    `task.fork(reject, resolve)`. `cancelAfter == Some(k)` says that the
    returned handle's `cancel()` was called after the computation had made `k`
    callback calls; `None` that it was never called. The handle is returned
    only once the computation has returned, so in the program `cancel()`
    cannot come before the calls the computation makes synchronously; the
    model accepts every `k`, including values no run of the program produces.
   */
  function Fork<E, S>(t: Task<E, S>, cancelAfter: Option<nat>): (r: ForkRun<E, S>)
    ensures t.isCanceled ==> !r.ran && r.invoked == [] && r.delivered == []
    ensures !t.isCanceled ==> r.ran && r.invoked == t.computation
    ensures r.delivered <= r.invoked
    ensures cancelAfter.None? ==> r.delivered == r.invoked
    ensures cancelAfter.Some? ==> |r.delivered| == Min(cancelAfter.value, |r.invoked|)
  {
    if t.isCanceled then
      ForkRun(false, [], [])
    else
      match cancelAfter
      case None => ForkRun(true, t.computation, t.computation)
      case Some(k) => ForkRun(true, t.computation, t.computation[..Min(k, |t.computation|)])
  }

  /** A task whose `isCanceled` flag is set never runs its computation. */
  lemma CanceledTaskNeverRuns<E, S>(t: Task<E, S>, cancelAfter: Option<nat>)
    ensures Fork(CancelTask(t), cancelAfter) == ForkRun(false, [], [])
  {
  }

  /**
    Calling `cancel()` on a fork's handle only silences that fork: the
    computation makes the same calls as without cancellation, every call made
    before `cancel()` was delivered and every later one is dropped. In
    particular nothing reaches the children a combinator forked.
   */
  lemma CancelOnlySuppressesDelivery<E, S>(t: Task<E, S>, k: nat)
    requires !t.isCanceled
    ensures Fork(t, Some(k)).invoked == Fork(t, None).invoked
    ensures Fork(t, Some(k)).delivered == t.computation[..Min(k, |t.computation|)]
  {
  }

  /** Each fork of a plain task re-runs its computation. */
  function ForkEach<E, S>(t: Task<E, S>, handles: seq<Option<nat>>): (runs: seq<ForkRun<E, S>>)
    ensures |runs| == |handles|
    ensures forall i :: 0 <= i < |runs| ==> runs[i] == Fork(t, handles[i])
  {
    if handles == [] then [] else [Fork(t, handles[0])] + ForkEach(t, handles[1..])
  }

  /** How many of the runs executed the computation. */
  function RunCount<E, S>(runs: seq<ForkRun<E, S>>): nat {
    if runs == [] then 0 else (if runs[0].ran then 1 else 0) + RunCount(runs[1..])
  }

  lemma {:induction false} EveryForkReruns<E, S>(t: Task<E, S>, handles: seq<Option<nat>>)
    ensures RunCount(ForkEach(t, handles)) == if t.isCanceled then 0 else |handles|
  {
    if handles != [] {
      EveryForkReruns(t, handles[1..]);
    }
  }

  /**
    `fork` does not enforce single delivery: a computation that calls `reject`
    and then `resolve` has both calls delivered.
   */
  lemma ForkDeliversBothCallbacks<E, S>(e: E, s: S)
    ensures var both: Trace<E, S> := [Event(Sync, Rej(e)), Event(Sync, Res(s))];
            Fork(NewTask(both), None).delivered == both
  {
  }

  /** A well-behaved task forked without cancellation delivers exactly its outcome. */
  lemma ForkDeliversOutcome<E, S>(o: Outcome<E, S>)
    ensures FirstOf(Fork(NewTask(TraceOf(o)), None).delivered) == o
  {
  }
}

=== FILE: lazy_seq.dfy ===
/**
  The lazy sequence class `Seq` of src/Seq/Seq.ts, over finite sources.

  A `Seq<K, T>` wraps a function that creates a fresh iterator of `[key,
  value]` entries; every operation returns a new `Seq` whose generator pulls
  from a fresh iterator of its source. What a finite `Seq` yields is a finite
  sequence of entries, so each operation is a function on `Entries`. Where
  laziness is observable (how many source entries a consumer causes to be
  pulled), it is stated separately as a pull count. Predicates passed to the
  operations receive `(value, key)`; their JavaScript truthiness is the
  `bool` they return here.
 */
module LazySeq {
  import opened Options

  type Entries<K, T> = seq<(K, T)>

  function Min(a: int, b: int): int {
    if a <= b then a else b
  }

  function Max(a: int, b: int): int {
    if a <= b then b else a
  }

  // ---------------------------------------------------------------- sources

  /** `Seq.fromArray(data)`: `data.entries()`, keyed by position. */
  function FromArray<T>(data: seq<T>): (s: Entries<nat, T>)
    decreases |data|
  {
    if data == [] then [] else FromArray(data[..|data| - 1]) + [(|data| - 1, data[|data| - 1])]
  }

  /** `toEntries()`: the entries, in order. */
  function ToEntries<K, T>(s: Entries<K, T>): Entries<K, T> {
    s
  }

  /** `toArray()`: the values, in order. */
  function ToArray<K, T>(s: Entries<K, T>): (vs: seq<T>)
    decreases |s|
  {
    if s == [] then [] else [s[0].1] + ToArray(s[1..])
  }

  /** The values of a sequence, by position. */
  lemma {:induction false} ToArrayAt<K, T>(s: Entries<K, T>)
    ensures |ToArray(s)| == |s|
    ensures forall i :: 0 <= i < |s| ==> ToArray(s)[i] == s[i].1
    decreases |s|
  {
    if s != [] {
      ToArrayAt(s[1..]);
    }
  }

  /** `fromArray` keys every element by its position, and `toArray` gives the array back. */
  lemma {:induction false} FromArrayRoundTrip<T>(data: seq<T>)
    ensures |FromArray(data)| == |data|
    ensures forall i :: 0 <= i < |data| ==> FromArray(data)[i] == (i, data[i])
    ensures ToArray(FromArray(data)) == data
    decreases |data|
  {
    if data != [] {
      FromArrayRoundTrip(data[..|data| - 1]);
    }
    ToArrayAt(FromArray(data));
  }

  /** The ascending loop of `Seq.range`: `for (i = 0; start + i <= end; i++) yield [i, start + i]`, from `i`. */
  function RangeUp(start: int, end: int, i: nat): (s: Entries<nat, int>)
    decreases end - start - i + 1
  {
    if start + i > end then [] else [(i, start + i)] + RangeUp(start, end, i + 1)
  }

  /** The descending loop: `for (i = 0; start - i >= end; i++) yield [i, start - i]`, from `i`. */
  function RangeDown(start: int, end: int, i: nat): (s: Entries<nat, int>)
    decreases start - i - end + 1
  {
    if start - i < end then [] else [(i, start - i)] + RangeDown(start, end, i + 1)
  }

  lemma {:induction false} RangeUpShape(start: int, end: int, i: nat)
    ensures |RangeUp(start, end, i)| == Max(end - start - i + 1, 0)
    ensures forall j :: 0 <= j < |RangeUp(start, end, i)| ==> RangeUp(start, end, i)[j] == (i + j, start + i + j)
    decreases end - start - i + 1
  {
    if start + i <= end {
      RangeUpShape(start, end, i + 1);
      var tail := RangeUp(start, end, i + 1);
      assert RangeUp(start, end, i) == [(i, start + i)] + tail;
      forall j | 0 < j < |tail| + 1
        ensures RangeUp(start, end, i)[j] == (i + j, start + i + j)
      {
        assert RangeUp(start, end, i)[j] == tail[j - 1];
      }
    }
  }

  lemma {:induction false} RangeDownShape(start: int, end: int, i: nat)
    ensures |RangeDown(start, end, i)| == Max(start - i - end + 1, 0)
    ensures forall j :: 0 <= j < |RangeDown(start, end, i)| ==> RangeDown(start, end, i)[j] == (i + j, start - i - j)
    decreases start - i - end + 1
  {
    if start - i >= end {
      RangeDownShape(start, end, i + 1);
      var tail := RangeDown(start, end, i + 1);
      assert RangeDown(start, end, i) == [(i, start - i)] + tail;
      forall j | 0 < j < |tail| + 1
        ensures RangeDown(start, end, i)[j] == (i + j, start - i - j)
      {
        assert RangeDown(start, end, i)[j] == tail[j - 1];
      }
    }
  }

  /** `Seq.range(start, end)`: forwards when `start < end`, backwards otherwise, both ends included. */
  function Range(start: int, end: int): (s: Entries<nat, int>) {
    if start < end then RangeUp(start, end, 0) else RangeDown(start, end, 0)
  }

  /**
    `range` yields every integer from `start` to `end`, both included,
    ascending when `start < end` and descending otherwise, keyed 0, 1, 2, ...
   */
  lemma RangeSpec(start: int, end: int)
    ensures start < end ==> |Range(start, end)| == end - start + 1
    ensures end <= start ==> |Range(start, end)| == start - end + 1
    ensures forall i :: 0 <= i < |Range(start, end)| ==>
      Range(start, end)[i] == (i, if start < end then start + i else start - i)
  {
    if start < end {
      RangeUpShape(start, end, 0);
    } else {
      RangeDownShape(start, end, 0);
    }
  }

  // ---------------------------------------------------------------- map, tap, filter, flatMap

  /** `map(fn)`: every entry keeps its key and its value becomes `fn(value, key)`. */
  function Map<K, T, U>(f: (T, K) -> U, s: Entries<K, T>): (r: Entries<K, U>)
    ensures |r| == |s|
    ensures forall i :: 0 <= i < |s| ==> r[i].0 == s[i].0 && r[i].1 == f(s[i].1, s[i].0)
    decreases |s|
  {
    if s == [] then [] else [(s[0].0, f(s[0].1, s[0].0))] + Map(f, s[1..])
  }

  /** `tap(fn)`: `map` with a function that calls `fn` for its effect and returns the value. */
  function Tap<K, T>(s: Entries<K, T>): Entries<K, T> {
    Map((v: T, k: K) => v, s)
  }

  /** `tap` leaves every entry unchanged. */
  lemma TapIsIdentity<K, T>(s: Entries<K, T>)
    ensures Tap(s) == s
  {
  }

  /** `map` of a composition is the composition of `map`s. */
  lemma MapComposes<K, T, U, W>(f: (T, K) -> U, g: (U, K) -> W, s: Entries<K, T>)
    ensures Map(g, Map(f, s)) == Map((v: T, k: K) => g(f(v, k), k), s)
  {
  }

  /** `filter(fn)`: the entries on which `fn` is truthy, in order. */
  function Filter<K, T>(p: (T, K) -> bool, s: Entries<K, T>): (r: Entries<K, T>)
    ensures |r| <= |s|
    decreases |s|
  {
    if s == [] then []
    else (if p(s[0].1, s[0].0) then [s[0]] else []) + Filter(p, s[1..])
  }

  /** Filtering distributes over concatenation, so it keeps the source order. */
  lemma {:induction false} FilterAppend<K, T>(p: (T, K) -> bool, a: Entries<K, T>, b: Entries<K, T>)
    ensures Filter(p, a + b) == Filter(p, a) + Filter(p, b)
    decreases |a|
  {
    if a != [] {
      assert (a + b)[0] == a[0];
      assert (a + b)[1..] == a[1..] + b;
      FilterAppend(p, a[1..], b);
    } else {
      assert a + b == b;
    }
  }

  /** An entry is kept exactly when it is in the source and satisfies the predicate. */
  lemma {:induction false} FilterMembership<K, T>(p: (T, K) -> bool, s: Entries<K, T>)
    ensures forall e :: e in Filter(p, s) <==> e in s && p(e.1, e.0)
    decreases |s|
  {
    if s != [] {
      FilterMembership(p, s[1..]);
      assert forall e :: e in s <==> e == s[0] || e in s[1..];
    }
  }

  /** The negation of a predicate, as `skipWhile` and `partition` use it. */
  function Not<K, T>(p: (T, K) -> bool): (T, K) -> bool {
    (v: T, k: K) => !p(v, k)
  }

  /** Filtering with a predicate and with its negation splits the source: the sizes add up. */
  lemma {:induction false} FilterSplits<K, T>(p: (T, K) -> bool, s: Entries<K, T>)
    ensures |Filter(p, s)| + |Filter(Not(p), s)| == |s|
    decreases |s|
  {
    if s != [] {
      FilterSplits(p, s[1..]);
    }
  }

  /** The values a `flatMap` callback produced, concatenated in source order. */
  function Concat<K, T, U>(f: (T, K) -> seq<U>, s: Entries<K, T>): seq<U>
    decreases |s|
  {
    if s == [] then [] else f(s[0].1, s[0].0) + Concat(f, s[1..])
  }

  /** The inner loop of `flatMap`: yield `result[i]` under key `counter++`. */
  function Number<U>(xs: seq<U>, counter: nat): Entries<nat, U>
    decreases |xs|
  {
    if xs == [] then [] else [(counter, xs[0])] + Number(xs[1..], counter + 1)
  }

  /** The outer loop of `flatMap`, with the counter it has reached. */
  function FlatMapFrom<K, T, U>(f: (T, K) -> seq<U>, s: Entries<K, T>, counter: nat): Entries<nat, U>
    decreases |s|
  {
    if s == [] then []
    else
      var result := f(s[0].1, s[0].0);
      Number(result, counter) + FlatMapFrom(f, s[1..], counter + |result|)
  }

  /** `flatMap(fn)`. */
  function FlatMap<K, T, U>(f: (T, K) -> seq<U>, s: Entries<K, T>): Entries<nat, U> {
    FlatMapFrom(f, s, 0)
  }

  lemma {:induction false} NumberShape<U>(xs: seq<U>, counter: nat)
    ensures |Number(xs, counter)| == |xs|
    ensures forall i :: 0 <= i < |xs| ==> Number(xs, counter)[i] == (counter + i, xs[i])
    decreases |xs|
  {
    if xs != [] {
      NumberShape(xs[1..], counter + 1);
    }
  }

  lemma {:induction false} FlatMapFromShape<K, T, U>(f: (T, K) -> seq<U>, s: Entries<K, T>, counter: nat)
    ensures FlatMapFrom(f, s, counter) == Number(Concat(f, s), counter)
    decreases |s|
  {
    if s != [] {
      var result := f(s[0].1, s[0].0);
      FlatMapFromShape(f, s[1..], counter + |result|);
      NumberShape(result, counter);
      NumberShape(Concat(f, s[1..]), counter + |result|);
      NumberShape(Concat(f, s), counter);
      var lhs := FlatMapFrom(f, s, counter);
      var rhs := Number(Concat(f, s), counter);
      assert |lhs| == |rhs|;
      forall i | 0 <= i < |lhs|
        ensures lhs[i] == rhs[i]
      {
        if i >= |result| {
          assert lhs[i] == Number(Concat(f, s[1..]), counter + |result|)[i - |result|];
        }
      }
    }
  }

  /**
    `flatMap` yields the arrays returned by `fn`, concatenated in source order,
    re-keyed 0, 1, 2, ...
   */
  lemma FlatMapSpec<K, T, U>(f: (T, K) -> seq<U>, s: Entries<K, T>)
    ensures |FlatMap(f, s)| == |Concat(f, s)|
    ensures forall i :: 0 <= i < |FlatMap(f, s)| ==> FlatMap(f, s)[i] == (i, Concat(f, s)[i])
  {
    FlatMapFromShape(f, s, 0);
    NumberShape(Concat(f, s), 0);
  }

  // ---------------------------------------------------------------- take, skip, takeWhile, skipWhile

  /** `take(num)`: `for (i = 0; i < num; i++)` pull one entry, stop when the source is done. */
  function Take<K, T>(n: int, s: Entries<K, T>): (r: Entries<K, T>)
    decreases |s|
  {
    if n <= 0 || s == [] then [] else [s[0]] + Take(n - 1, s[1..])
  }

  /** `skip(num)`: pull and drop up to `num` entries, then yield the rest. */
  function Skip<K, T>(n: int, s: Entries<K, T>): (r: Entries<K, T>)
    decreases |s|
  {
    if n <= 0 || s == [] then s else Skip(n - 1, s[1..])
  }

  /**
    `take(n)` is the first `min(n, length)` entries (none for `n <= 0`) and
    `skip(n)` the rest, so together they give the sequence back.
   */
  lemma {:induction false} TakeSkip<K, T>(n: int, s: Entries<K, T>)
    ensures Take(n, s) == s[..Min(Max(n, 0), |s|)]
    ensures Skip(n, s) == s[Min(Max(n, 0), |s|)..]
    ensures Take(n, s) + Skip(n, s) == s
    decreases |s|
  {
    if n > 0 && s != [] {
      TakeSkip(n - 1, s[1..]);
      assert s == [s[0]] + s[1..];
    }
  }

  /** `take(n)` never needs more than `n` source entries: whatever follows them cannot change it. */
  lemma {:induction false} TakeIgnoresRest<K, T>(n: int, s: Entries<K, T>, rest: Entries<K, T>)
    requires |s| >= n
    ensures Take(n, s + rest) == Take(n, s)
    decreases |s|
  {
    if n > 0 {
      assert (s + rest)[0] == s[0];
      assert (s + rest)[1..] == s[1..] + rest;
      TakeIgnoresRest(n - 1, s[1..], rest);
    }
  }

  /** `takeWhile(fn)`: yield entries until `fn` fails on one, or the source ends. */
  function TakeWhile<K, T>(p: (T, K) -> bool, s: Entries<K, T>): (r: Entries<K, T>)
    ensures |r| <= |s|
    decreases |s|
  {
    if s == [] || !p(s[0].1, s[0].0) then [] else [s[0]] + TakeWhile(p, s[1..])
  }

  /** `takeWhile` is the longest prefix on which the predicate holds. */
  lemma {:induction false} TakeWhileIsLongestPrefix<K, T>(p: (T, K) -> bool, s: Entries<K, T>)
    ensures TakeWhile(p, s) == s[..|TakeWhile(p, s)|]
    ensures forall i :: 0 <= i < |TakeWhile(p, s)| ==> p(s[i].1, s[i].0)
    ensures |TakeWhile(p, s)| < |s| ==> !p(s[|TakeWhile(p, s)|].1, s[|TakeWhile(p, s)|].0)
    decreases |s|
  {
    if s != [] && p(s[0].1, s[0].0) {
      TakeWhileIsLongestPrefix(p, s[1..]);
      forall i | 1 <= i < |TakeWhile(p, s)|
        ensures p(s[i].1, s[i].0)
      {
        assert s[i] == s[1..][i - 1];
      }
    }
  }

  /**
    `skipWhile(fn)` as written: the loop `continue`s past every entry on which
    `fn` holds, wherever it is, and yields the others.
   */
  function SkipWhileWritten<K, T>(p: (T, K) -> bool, s: Entries<K, T>): (r: Entries<K, T>)
    decreases |s|
  {
    if s == [] then []
    else if p(s[0].1, s[0].0) then SkipWhileWritten(p, s[1..])
    else [s[0]] + SkipWhileWritten(p, s[1..])
  }

  /** As written, `skipWhile(fn)` is `filter` with the negated predicate. */
  lemma {:induction false} SkipWhileWrittenIsFilter<K, T>(p: (T, K) -> bool, s: Entries<K, T>)
    ensures SkipWhileWritten(p, s) == Filter(Not(p), s)
    decreases |s|
  {
    if s != [] {
      SkipWhileWrittenIsFilter(p, s[1..]);
    }
  }

  /**
    The difference on a concrete source: with `fn = v => v < 4` over the
    values `[0, 5, 1]`, the code drops the `1` that follows the `5`, while
    skipping a leading run keeps it.
   */
  lemma SkipWhileWrittenDropsLaterMatches()
    ensures SkipWhileWritten((v: int, k: nat) => v < 4, FromArray([0, 5, 1])) == [(1, 5)]
    ensures SkipWhile((v: int, k: nat) => v < 4, FromArray([0, 5, 1])) == [(1, 5), (2, 1)]
  {
    var data: seq<int> := [0, 5, 1];
    var s := FromArray(data);
    FromArrayRoundTrip(data);
    assert s == [(0, 0), (1, 5), (2, 1)];
    assert s[1..] == [(1, 5), (2, 1)];
    assert s[1..][1..] == [(2, 1)];
    var none: Entries<nat, int> := s[1..][1..][1..];
    assert none == [];
  }

  /** `skipWhile(fn)` corrected: drop the leading entries on which `fn` holds, keep everything after. */
  function SkipWhile<K, T>(p: (T, K) -> bool, s: Entries<K, T>): (r: Entries<K, T>)
    decreases |s|
  {
    if s == [] || !p(s[0].1, s[0].0) then s else SkipWhile(p, s[1..])
  }

  /** The corrected `skipWhile` yields what `takeWhile` leaves: the two split the sequence. */
  lemma {:induction false} TakeWhileSkipWhile<K, T>(p: (T, K) -> bool, s: Entries<K, T>)
    ensures TakeWhile(p, s) + SkipWhile(p, s) == s
    ensures SkipWhile(p, s) == [] || !p(SkipWhile(p, s)[0].1, SkipWhile(p, s)[0].0)
    decreases |s|
  {
    if s != [] && p(s[0].1, s[0].0) {
      TakeWhileSkipWhile(p, s[1..]);
      assert s == [s[0]] + s[1..];
    }
  }

  // ---------------------------------------------------------------- pulls

  /**
    How many source entries `filter(fn)` pulls while its consumer takes `k`
    entries: the generator is suspended at the yield of the `k`-th.
   */
  function FilterPulls<K, T>(p: (T, K) -> bool, s: Entries<K, T>, k: nat): (m: nat)
    ensures m <= |s|
    decreases |s|
  {
    if k == 0 || s == [] then 0
    else if p(s[0].1, s[0].0) then 1 + FilterPulls(p, s[1..], k - 1)
    else 1 + FilterPulls(p, s[1..], k)
  }

  /**
    `filter` pulls exactly as far as it must: the entries it pulled contain
    the `k` entries asked for, and one entry fewer would not; when there are
    fewer than `k`, the whole source is pulled.
   */
  lemma FilterPullsExactly<K, T>(p: (T, K) -> bool, s: Entries<K, T>, k: nat)
    ensures |Filter(p, s[..FilterPulls(p, s, k)])| == Min(k, |Filter(p, s)|)
    ensures |Filter(p, s)| < k ==> FilterPulls(p, s, k) == |s|
    ensures k <= |Filter(p, s)| && FilterPulls(p, s, k) > 0 ==> |Filter(p, s[..FilterPulls(p, s, k) - 1])| < k
  {
    FilterPullsEnough(p, s, k);
    FilterPullsWhole(p, s, k);
    FilterPullsNoMore(p, s, k);
  }

  /** The pulled entries hold the `k` asked for, or all there are. */
  lemma {:induction false} FilterPullsEnough<K, T>(p: (T, K) -> bool, s: Entries<K, T>, k: nat)
    ensures |Filter(p, s[..FilterPulls(p, s, k)])| == Min(k, |Filter(p, s)|)
    decreases |s|
  {
    if k > 0 && s != [] {
      var kept := if p(s[0].1, s[0].0) then 1 else 0;
      FilterPullsEnough(p, s[1..], k - kept);
      var m := FilterPulls(p, s[1..], k - kept);
      assert |Filter(p, s)| == kept + |Filter(p, s[1..])|;
      assert s[..m + 1][1..] == s[1..][..m];
      assert |Filter(p, s[..m + 1])| == kept + |Filter(p, s[1..][..m])|;
    }
  }

  /** With fewer than `k` matches, the whole source is pulled. */
  lemma {:induction false} FilterPullsWhole<K, T>(p: (T, K) -> bool, s: Entries<K, T>, k: nat)
    ensures |Filter(p, s)| < k ==> FilterPulls(p, s, k) == |s|
    decreases |s|
  {
    if k > 0 && s != [] {
      var kept := if p(s[0].1, s[0].0) then 1 else 0;
      FilterPullsWhole(p, s[1..], k - kept);
      assert |Filter(p, s)| == kept + |Filter(p, s[1..])|;
    }
  }

  /** With `k` matches available, the last entry pulled is the `k`-th match. */
  lemma {:induction false} FilterPullsNoMore<K, T>(p: (T, K) -> bool, s: Entries<K, T>, k: nat)
    ensures k <= |Filter(p, s)| && FilterPulls(p, s, k) > 0 ==> |Filter(p, s[..FilterPulls(p, s, k) - 1])| < k
    decreases |s|
  {
    if k > 0 && s != [] {
      var kept := if p(s[0].1, s[0].0) then 1 else 0;
      FilterPullsNoMore(p, s[1..], k - kept);
      var m := FilterPulls(p, s[1..], k - kept);
      assert |Filter(p, s)| == kept + |Filter(p, s[1..])|;
      if m > 0 {
        assert s[..m][1..] == s[1..][..m - 1];
        assert |Filter(p, s[..m])| == kept + |Filter(p, s[1..][..m - 1])|;
      } else {
        assert s[..0] == [];
      }
    }
  }

  /** How many source entries `takeWhile(fn)` pulls while its consumer takes `k` entries. */
  function TakeWhilePulls<K, T>(p: (T, K) -> bool, s: Entries<K, T>, k: nat): (m: nat)
    ensures m <= |s|
    decreases |s|
  {
    if k == 0 || s == [] then 0
    else if p(s[0].1, s[0].0) then 1 + TakeWhilePulls(p, s[1..], k - 1)
    else 1
  }

  /**
    Drained by a consumer that keeps asking (`toArray`), `takeWhile` pulls
    its whole result plus the one entry that ends it, when there is one.
   */
  lemma {:induction false} TakeWhilePullsOneExtra<K, T>(p: (T, K) -> bool, s: Entries<K, T>, k: nat)
    requires k > |s|
    ensures TakeWhilePulls(p, s, k) == |TakeWhile(p, s)| + (if |TakeWhile(p, s)| < |s| then 1 else 0)
    decreases |s|
  {
    if s != [] && p(s[0].1, s[0].0) {
      TakeWhilePullsOneExtra(p, s[1..], k - 1);
    }
  }

  /**
    `some(fn)`: a `for ... of` loop over the entries that returns `true` at the
    first entry satisfying `fn`. Also returns how many entries it pulled.
   */
  method SomeEntry<K, T>(p: (T, K) -> bool, s: Entries<K, T>) returns (found: bool, pulled: nat)
    ensures found <==> exists i :: 0 <= i < |s| && p(s[i].1, s[i].0)
    ensures found ==> 1 <= pulled <= |s| && p(s[pulled - 1].1, s[pulled - 1].0)
    ensures found ==> forall i :: 0 <= i < pulled - 1 ==> !p(s[i].1, s[i].0)
    ensures !found ==> pulled == |s|
  {
    pulled := 0;
    while pulled < |s|
      invariant 0 <= pulled <= |s|
      invariant forall i :: 0 <= i < pulled ==> !p(s[i].1, s[i].0)
    {
      var (k, v) := s[pulled];
      pulled := pulled + 1;
      if p(v, k) {
        return true, pulled;
      }
    }
    return false, pulled;
  }

  /**
    `every(fn)`: returns `false` at the first entry failing `fn`, `true` when
    none does. Also returns how many entries it pulled.
   */
  method EveryEntry<K, T>(p: (T, K) -> bool, s: Entries<K, T>) returns (all: bool, pulled: nat)
    ensures all <==> forall i :: 0 <= i < |s| ==> p(s[i].1, s[i].0)
    ensures !all ==> 1 <= pulled <= |s| && !p(s[pulled - 1].1, s[pulled - 1].0)
    ensures !all ==> forall i :: 0 <= i < pulled - 1 ==> p(s[i].1, s[i].0)
    ensures all ==> pulled == |s|
  {
    pulled := 0;
    while pulled < |s|
      invariant 0 <= pulled <= |s|
      invariant forall i :: 0 <= i < pulled ==> p(s[i].1, s[i].0)
    {
      var (k, v) := s[pulled];
      pulled := pulled + 1;
      if !p(v, k) {
        return false, pulled;
      }
    }
    return true, pulled;
  }

  // ---------------------------------------------------------------- index, first, find, reduce

  /** `index(i)`: `take(i + 1).toArray()[i]`; `None` is `undefined`. */
  function Index<K, T>(s: Entries<K, T>, i: int): (r: Option<T>)
    ensures 0 <= i < |s| ==> r == Some(s[i].1)
    ensures !(0 <= i < |s|) ==> r == None
  {
    var arr := ToArray(Take(i + 1, s));
    TakeSkip(i + 1, s);
    ToArrayAt(Take(i + 1, s));
    if 0 <= i < |arr| then Some(arr[i]) else None
  }

  /** `first()`: `index(0)`. */
  function First<K, T>(s: Entries<K, T>): (r: Option<T>)
    ensures s == [] <==> r == None
    ensures s != [] ==> r == Some(s[0].1)
  {
    Index(s, 0)
  }

  /** `find(fn)`: `filter(fn).first()`. */
  function Find<K, T>(p: (T, K) -> bool, s: Entries<K, T>): Option<T> {
    First(Filter(p, s))
  }

  /** `find` returns the value of the first entry satisfying the predicate, or `undefined`. */
  lemma FindIsFirstMatch<K, T>(p: (T, K) -> bool, s: Entries<K, T>)
    ensures Find(p, s).None? <==> forall i :: 0 <= i < |s| ==> !p(s[i].1, s[i].0)
    ensures Find(p, s).Some? ==>
      exists j :: 0 <= j < |s| && p(s[j].1, s[j].0) && s[j].1 == Find(p, s).value &&
        forall i :: 0 <= i < j ==> !p(s[i].1, s[i].0)
  {
    FindNone(p, s);
    if Find(p, s).Some? {
      var j := FindSome(p, s);
    }
  }

  /** `find` is `undefined` exactly when no entry satisfies the predicate. */
  lemma {:induction false} FindNone<K, T>(p: (T, K) -> bool, s: Entries<K, T>)
    ensures Find(p, s).None? <==> forall i :: 0 <= i < |s| ==> !p(s[i].1, s[i].0)
    decreases |s|
  {
    if s != [] {
      FindNone(p, s[1..]);
      if !p(s[0].1, s[0].0) {
        assert Filter(p, s) == Filter(p, s[1..]);
        assert forall i :: 1 <= i < |s| ==> s[i] == s[1..][i - 1];
      }
    }
  }

  /** A found value belongs to an entry satisfying the predicate with none before it. */
  lemma {:induction false} FindSome<K, T>(p: (T, K) -> bool, s: Entries<K, T>) returns (j: nat)
    requires Find(p, s).Some?
    ensures j < |s| && p(s[j].1, s[j].0) && s[j].1 == Find(p, s).value
    ensures forall i :: 0 <= i < j ==> !p(s[i].1, s[i].0)
    decreases |s|
  {
    if p(s[0].1, s[0].0) {
      assert Filter(p, s)[0] == s[0];
      j := 0;
    } else {
      assert Filter(p, s) == Filter(p, s[1..]);
      var j1 := FindSome(p, s[1..]);
      j := j1 + 1;
      assert s[j] == s[1..][j1];
      assert forall i :: 1 <= i < j ==> s[i] == s[1..][i - 1];
    }
  }

  /** `reduce(fn, initial)`: `toEntries().reduce` from the left, calling `fn(sum, value, key)`. */
  function Reduce<K, T, A>(f: (A, T, K) -> A, acc: A, s: Entries<K, T>): A
    decreases |s|
  {
    if s == [] then acc else Reduce(f, f(acc, s[0].1, s[0].0), s[1..])
  }

  /** Reducing a concatenation continues from the sum of the first part. */
  lemma {:induction false} ReduceAppend<K, T, A>(f: (A, T, K) -> A, acc: A, a: Entries<K, T>, b: Entries<K, T>)
    ensures Reduce(f, acc, a + b) == Reduce(f, Reduce(f, acc, a), b)
    decreases |a|
  {
    if a != [] {
      assert (a + b)[0] == a[0];
      assert (a + b)[1..] == a[1..] + b;
      ReduceAppend(f, f(acc, a[0].1, a[0].0), a[1..], b);
    } else {
      assert a + b == b;
    }
  }

  // ---------------------------------------------------------------- zip

  /** The value at position `i`, or `undefined` once the sequence is exhausted. */
  function At<K, T>(s: Entries<K, T>, i: nat): Option<T> {
    if i < |s| then Some(s[i].1) else None
  }

  /**
    The loop of `Seq.zipWith(fn, seq1, seq2)` from `counter` on: both iterators
    are advanced together, the exhausted side is passed as `undefined`, and the
    loop ends when both are done.
   */
  function ZipWithFrom<K1, T1, K2, T2, K3, T3>(f: ((Option<T1>, Option<T2>), nat) -> (K3, T3),
                                              s1: Entries<K1, T1>, s2: Entries<K2, T2>, counter: nat)
    : Entries<K3, T3>
    decreases |s1| + |s2|
  {
    if s1 == [] && s2 == [] then []
    else if s1 == [] then [f((None, Some(s2[0].1)), counter)] + ZipWithFrom(f, s1, s2[1..], counter + 1)
    else if s2 == [] then [f((Some(s1[0].1), None), counter)] + ZipWithFrom(f, s1[1..], s2, counter + 1)
    else [f((Some(s1[0].1), Some(s2[0].1)), counter)] + ZipWithFrom(f, s1[1..], s2[1..], counter + 1)
  }

  function ZipWith<K1, T1, K2, T2, K3, T3>(f: ((Option<T1>, Option<T2>), nat) -> (K3, T3),
                                          s1: Entries<K1, T1>, s2: Entries<K2, T2>): Entries<K3, T3> {
    ZipWithFrom(f, s1, s2, 0)
  }

  lemma ZipWithFromShape<K1, T1, K2, T2, K3, T3>(f: ((Option<T1>, Option<T2>), nat) -> (K3, T3),
                                                s1: Entries<K1, T1>, s2: Entries<K2, T2>, counter: nat)
    ensures |ZipWithFrom(f, s1, s2, counter)| == Max(|s1|, |s2|)
    ensures forall i :: 0 <= i < Max(|s1|, |s2|) ==>
      ZipWithFrom(f, s1, s2, counter)[i] == f((At(s1, i), At(s2, i)), counter + i)
  {
    ZipWithFromLength(f, s1, s2, counter);
    forall i | 0 <= i < Max(|s1|, |s2|)
      ensures ZipWithFrom(f, s1, s2, counter)[i] == f((At(s1, i), At(s2, i)), counter + i)
    {
      ZipWithFromAt(f, s1, s2, counter, i);
    }
  }

  lemma {:induction false} ZipWithFromLength<K1, T1, K2, T2, K3, T3>(f: ((Option<T1>, Option<T2>), nat) -> (K3, T3),
                                                                   s1: Entries<K1, T1>, s2: Entries<K2, T2>, counter: nat)
    ensures |ZipWithFrom(f, s1, s2, counter)| == Max(|s1|, |s2|)
    decreases |s1| + |s2|
  {
    if s1 != [] || s2 != [] {
      ZipWithFromStep(f, s1, s2, counter);
      ZipWithFromLength(f, Rest(s1), Rest(s2), counter + 1);
    }
  }

  /** Entry `i` of the loop is `fn` applied to the values at `i` and the counter reached there. */
  lemma {:induction false} ZipWithFromAt<K1, T1, K2, T2, K3, T3>(f: ((Option<T1>, Option<T2>), nat) -> (K3, T3),
                                                               s1: Entries<K1, T1>, s2: Entries<K2, T2>, counter: nat, i: nat)
    requires i < Max(|s1|, |s2|)
    ensures i < |ZipWithFrom(f, s1, s2, counter)|
    ensures ZipWithFrom(f, s1, s2, counter)[i] == f((At(s1, i), At(s2, i)), counter + i)
    decreases i
  {
    ZipWithFromStep(f, s1, s2, counter);
    ZipWithFromLength(f, s1, s2, counter);
    if i > 0 {
      ZipWithFromAt(f, Rest(s1), Rest(s2), counter + 1, i - 1);
      assert At(Rest(s1), i - 1) == At(s1, i);
      assert At(Rest(s2), i - 1) == At(s2, i);
    }
  }

  /** The entries after the first, or none. */
  function Rest<K, T>(s: Entries<K, T>): (r: Entries<K, T>)
    ensures |r| == Max(|s| - 1, 0)
  {
    if s == [] then [] else s[1..]
  }

  /** One step of the `zipWith` loop: the head entry, then the loop on both rests. */
  lemma ZipWithFromStep<K1, T1, K2, T2, K3, T3>(f: ((Option<T1>, Option<T2>), nat) -> (K3, T3),
                                               s1: Entries<K1, T1>, s2: Entries<K2, T2>, counter: nat)
    requires s1 != [] || s2 != []
    ensures ZipWithFrom(f, s1, s2, counter)
      == [f((At(s1, 0), At(s2, 0)), counter)] + ZipWithFrom(f, Rest(s1), Rest(s2), counter + 1)
  {
  }

  /**
    `zipWith` yields as many entries as the longer source; entry `i` is
    `fn([value1, value2], i)`, with `undefined` for a side that has run out.
   */
  lemma ZipWithSpec<K1, T1, K2, T2, K3, T3>(f: ((Option<T1>, Option<T2>), nat) -> (K3, T3),
                                           s1: Entries<K1, T1>, s2: Entries<K2, T2>)
    ensures |ZipWith(f, s1, s2)| == Max(|s1|, |s2|)
    ensures forall i :: 0 <= i < Max(|s1|, |s2|) ==> ZipWith(f, s1, s2)[i] == f((At(s1, i), At(s2, i)), i)
  {
    ZipWithFromShape(f, s1, s2, 0);
  }

  /** `Seq.zip(seq1, seq2)`: `zipWith(([a, b], index) => [index, [a, b]])`. */
  function Zip<K1, T1, K2, T2>(s1: Entries<K1, T1>, s2: Entries<K2, T2>): Entries<nat, (Option<T1>, Option<T2>)> {
    ZipWith((pair: (Option<T1>, Option<T2>), index: nat) => (index, pair), s1, s2)
  }

  /** `zip` pairs the values position by position, keyed by position. */
  lemma ZipPairs<K1, T1, K2, T2>(s1: Entries<K1, T1>, s2: Entries<K2, T2>)
    ensures |Zip(s1, s2)| == Max(|s1|, |s2|)
    ensures forall i :: 0 <= i < |Zip(s1, s2)| ==> Zip(s1, s2)[i] == (i, (At(s1, i), At(s2, i)))
  {
    ZipWithSpec((pair: (Option<T1>, Option<T2>), index: nat) => (index, pair), s1, s2);
  }

  // ---------------------------------------------------------------- toMap

  /** `toMap()`: `new Map(entries)`; a later entry with the same key overwrites an earlier one. */
  function ToMap<K, T>(s: Entries<K, T>): map<K, T>
    decreases |s|
  {
    if s == [] then map[] else ToMap(s[..|s| - 1])[s[|s| - 1].0 := s[|s| - 1].1]
  }

  /** The keys of `toMap` are the keys of the entries, and each maps to the value of its last entry. */
  lemma {:induction false} ToMapLastWins<K, T>(s: Entries<K, T>)
    ensures forall k :: k in ToMap(s) <==> exists i :: 0 <= i < |s| && s[i].0 == k
    ensures forall i :: 0 <= i < |s| && (forall j :: i < j < |s| ==> s[j].0 != s[i].0) ==> ToMap(s)[s[i].0] == s[i].1
    decreases |s|
  {
    if s != [] {
      var init := s[..|s| - 1];
      ToMapLastWins(init);
      assert forall i :: 0 <= i < |init| ==> init[i] == s[i];
      forall k
        ensures k in ToMap(s) <==> exists i :: 0 <= i < |s| && s[i].0 == k
      {
        if k in ToMap(s) && k != s[|s| - 1].0 {
          assert k in ToMap(init);
          var i :| 0 <= i < |init| && init[i].0 == k;
          assert s[i].0 == k;
        }
      }
    }
  }

  // ---------------------------------------------------------------- partition

  /**
    The state shared by the two sides of `partition(fn)`: how far the one
    source iterator has advanced, `trueBackpressure` and `falseBackpressure`.
   */
  datatype PartitionState<K, T> = PartitionState(pos: nat, trueQueue: Entries<K, T>, falseQueue: Entries<K, T>)

  function PartitionStart<K, T>(): PartitionState<K, T> {
    PartitionState(0, [], [])
  }

  /**
    One `next()` on the true side: first the entries queued for it; otherwise
    source entries are pulled, and those for the other side queued on its
    queue, until one for this side comes or the source is done (`None`).
   */
  function PullTrue<K, T>(p: (T, K) -> bool, src: Entries<K, T>, st: PartitionState<K, T>)
    : (r: (PartitionState<K, T>, Option<(K, T)>))
    ensures st.pos <= |src| ==> st.pos <= r.0.pos <= |src|
    ensures r.1.None? ==> st.trueQueue == [] && r.0.trueQueue == []
    ensures r.1.None? && st.pos <= |src| ==> r.0.pos == |src|
    decreases |src| - st.pos
  {
    if st.trueQueue != [] then (st.(trueQueue := st.trueQueue[1..]), Some(st.trueQueue[0]))
    else if st.pos >= |src| then (st, None)
    else
      var e := src[st.pos];
      if p(e.1, e.0) then (st.(pos := st.pos + 1), Some(e))
      else PullTrue(p, src, st.(pos := st.pos + 1, falseQueue := st.falseQueue + [e]))
  }

  /** One `next()` on the false side, symmetrically. */
  function PullFalse<K, T>(p: (T, K) -> bool, src: Entries<K, T>, st: PartitionState<K, T>)
    : (r: (PartitionState<K, T>, Option<(K, T)>))
    ensures st.pos <= |src| ==> st.pos <= r.0.pos <= |src|
    ensures r.1.None? ==> st.falseQueue == [] && r.0.falseQueue == []
    ensures r.1.None? && st.pos <= |src| ==> r.0.pos == |src|
    decreases |src| - st.pos
  {
    if st.falseQueue != [] then (st.(falseQueue := st.falseQueue[1..]), Some(st.falseQueue[0]))
    else if st.pos >= |src| then (st, None)
    else
      var e := src[st.pos];
      if !p(e.1, e.0) then (st.(pos := st.pos + 1), Some(e))
      else PullFalse(p, src, st.(pos := st.pos + 1, trueQueue := st.trueQueue + [e]))
  }

  /** The entries a side has yielded so far, with what `None` adds: nothing. */
  function Yielded<K, T>(out: Option<(K, T)>): Entries<K, T> {
    match out
    case None => []
    case Some(e) => [e]
  }

  /**
    What the shared state keeps true, given what each side has yielded so far:
    the true side's output followed by its queue is exactly the true entries
    pulled from the source so far, in source order, and likewise for the
    false side. So every pulled entry went to exactly one side, and a queue
    holds only entries of its own side.
   */
  ghost predicate PartitionInv<K, T>(p: (T, K) -> bool, src: Entries<K, T>, st: PartitionState<K, T>,
                                     trueOut: Entries<K, T>, falseOut: Entries<K, T>) {
    && st.pos <= |src|
    && trueOut + st.trueQueue == Filter(p, src[..st.pos])
    && falseOut + st.falseQueue == Filter(Not(p), src[..st.pos])
  }

  /** Pulling source entry `pos` extends the pulled prefix by one entry. */
  lemma PulledOneMore<K, T>(p: (T, K) -> bool, src: Entries<K, T>, pos: nat)
    requires pos < |src|
    ensures Filter(p, src[..pos + 1]) == Filter(p, src[..pos]) + (if p(src[pos].1, src[pos].0) then [src[pos]] else [])
  {
    assert src[..pos + 1] == src[..pos] + [src[pos]];
    FilterAppend(p, src[..pos], [src[pos]]);
    var one: Entries<K, T> := [src[pos]];
    assert one[1..] == [];
  }

  lemma {:induction false} PullTrueKeepsInv<K, T>(p: (T, K) -> bool, src: Entries<K, T>, st: PartitionState<K, T>,
                                                   trueOut: Entries<K, T>, falseOut: Entries<K, T>)
    requires PartitionInv(p, src, st, trueOut, falseOut)
    ensures var (st2, out) := PullTrue(p, src, st);
      PartitionInv(p, src, st2, trueOut + Yielded(out), falseOut)
    ensures PullTrue(p, src, st).1.None? ==> PullTrue(p, src, st).0.pos == |src|
    decreases |src| - st.pos
  {
    if st.trueQueue != [] {
      assert trueOut + st.trueQueue == (trueOut + [st.trueQueue[0]]) + st.trueQueue[1..];
    } else if st.pos < |src| {
      var e := src[st.pos];
      PulledOneMore(p, src, st.pos);
      PulledOneMore(Not(p), src, st.pos);
      if p(e.1, e.0) {
        assert trueOut + [e] + [] == Filter(p, src[..st.pos + 1]);
      } else {
        var st1 := st.(pos := st.pos + 1, falseQueue := st.falseQueue + [e]);
        assert falseOut + st1.falseQueue == Filter(Not(p), src[..st.pos + 1]);
        assert trueOut + st1.trueQueue == Filter(p, src[..st.pos + 1]);
        PullTrueKeepsInv(p, src, st1, trueOut, falseOut);
      }
    }
  }

  lemma {:induction false} PullFalseKeepsInv<K, T>(p: (T, K) -> bool, src: Entries<K, T>, st: PartitionState<K, T>,
                                                    trueOut: Entries<K, T>, falseOut: Entries<K, T>)
    requires PartitionInv(p, src, st, trueOut, falseOut)
    ensures var (st2, out) := PullFalse(p, src, st);
      PartitionInv(p, src, st2, trueOut, falseOut + Yielded(out))
    ensures PullFalse(p, src, st).1.None? ==> PullFalse(p, src, st).0.pos == |src|
    decreases |src| - st.pos
  {
    if st.falseQueue != [] {
      assert falseOut + st.falseQueue == (falseOut + [st.falseQueue[0]]) + st.falseQueue[1..];
    } else if st.pos < |src| {
      var e := src[st.pos];
      PulledOneMore(p, src, st.pos);
      PulledOneMore(Not(p), src, st.pos);
      if !p(e.1, e.0) {
        assert falseOut + [e] + [] == Filter(Not(p), src[..st.pos + 1]);
      } else {
        var st1 := st.(pos := st.pos + 1, trueQueue := st.trueQueue + [e]);
        assert trueOut + st1.trueQueue == Filter(p, src[..st.pos + 1]);
        assert falseOut + st1.falseQueue == Filter(Not(p), src[..st.pos + 1]);
        PullFalseKeepsInv(p, src, st1, trueOut, falseOut);
      }
    }
  }

  /** Filtering a non-empty suffix: its first entry, if kept, then the filtered rest. */
  lemma FilterSuffix<K, T>(p: (T, K) -> bool, src: Entries<K, T>, pos: nat)
    requires pos < |src|
    ensures Filter(p, src[pos..]) == (if p(src[pos].1, src[pos].0) then [src[pos]] else []) + Filter(p, src[pos + 1..])
  {
    assert src[pos..][0] == src[pos] && src[pos..][1..] == src[pos + 1..];
  }

  /** With nothing queued and no entry of its own left in the source, the true side reports done. */
  lemma {:induction false} PullTrueNoneWhenDrained<K, T>(p: (T, K) -> bool, src: Entries<K, T>, st: PartitionState<K, T>)
    requires st.trueQueue == [] && st.pos <= |src| && Filter(p, src[st.pos..]) == []
    ensures PullTrue(p, src, st).1.None?
    decreases |src| - st.pos
  {
    if st.pos < |src| {
      FilterSuffix(p, src, st.pos);
      PullTrueNoneWhenDrained(p, src, st.(pos := st.pos + 1, falseQueue := st.falseQueue + [src[st.pos]]));
    }
  }

  /** With nothing queued and no entry of its own left in the source, the false side reports done. */
  lemma {:induction false} PullFalseNoneWhenDrained<K, T>(p: (T, K) -> bool, src: Entries<K, T>, st: PartitionState<K, T>)
    requires st.falseQueue == [] && st.pos <= |src| && Filter(Not(p), src[st.pos..]) == []
    ensures PullFalse(p, src, st).1.None?
    decreases |src| - st.pos
  {
    if st.pos < |src| {
      FilterSuffix(Not(p), src, st.pos);
      PullFalseNoneWhenDrained(p, src, st.(pos := st.pos + 1, trueQueue := st.trueQueue + [src[st.pos]]));
    }
  }

  /** What a side has yielded, what is queued for it and what is left for it make up all its entries. */
  lemma SideSplits<K, T>(p: (T, K) -> bool, src: Entries<K, T>, pos: nat, out: Entries<K, T>, queue: Entries<K, T>)
    requires pos <= |src| && out + queue == Filter(p, src[..pos])
    ensures Filter(p, src) == out + queue + Filter(p, src[pos..])
  {
    assert src == src[..pos] + src[pos..];
    FilterAppend(p, src[..pos], src[pos..]);
  }

  /** The true side reports done exactly when it has yielded every entry `fn` accepts. */
  lemma PullTrueDoneIffDrained<K, T>(p: (T, K) -> bool, src: Entries<K, T>, st: PartitionState<K, T>,
                                     trueOut: Entries<K, T>, falseOut: Entries<K, T>)
    requires PartitionInv(p, src, st, trueOut, falseOut)
    ensures PullTrue(p, src, st).1.None? <==> trueOut == Filter(p, src)
  {
    SideSplits(p, src, st.pos, trueOut, st.trueQueue);
    if PullTrue(p, src, st).1.None? {
      PullTrueKeepsInv(p, src, st, trueOut, falseOut);
      assert src[..|src|] == src;
      assert trueOut + [] + [] == trueOut;
    }
    if trueOut == Filter(p, src) {
      PullTrueNoneWhenDrained(p, src, st);
    }
  }

  /** The false side reports done exactly when it has yielded every entry `fn` rejects. */
  lemma PullFalseDoneIffDrained<K, T>(p: (T, K) -> bool, src: Entries<K, T>, st: PartitionState<K, T>,
                                      trueOut: Entries<K, T>, falseOut: Entries<K, T>)
    requires PartitionInv(p, src, st, trueOut, falseOut)
    ensures PullFalse(p, src, st).1.None? <==> falseOut == Filter(Not(p), src)
  {
    SideSplits(Not(p), src, st.pos, falseOut, st.falseQueue);
    if PullFalse(p, src, st).1.None? {
      PullFalseKeepsInv(p, src, st, trueOut, falseOut);
      assert src[..|src|] == src;
      assert falseOut + [] + [] == falseOut;
    }
    if falseOut == Filter(Not(p), src) {
      PullFalseNoneWhenDrained(p, src, st);
    }
  }

  /** A `next()` on one side of the partition: `true` for the first sequence, `false` for the second. */
  type Pulls = seq<bool>

  /**
    A run of `next()` calls on the two sides, in any interleaving and across
    any number of iterations of each side (all share the state): the final
    state and what each side yielded.
   */
  function PartitionRun<K, T>(p: (T, K) -> bool, src: Entries<K, T>, st: PartitionState<K, T>, pulls: Pulls)
    : (r: (PartitionState<K, T>, Entries<K, T>, Entries<K, T>))
    ensures st.pos <= |src| ==> st.pos <= r.0.pos <= |src|
    decreases |pulls|
  {
    if pulls == [] then (st, [], [])
    else if pulls[0] then
      var (st1, out) := PullTrue(p, src, st);
      var (st2, t, f) := PartitionRun(p, src, st1, pulls[1..]);
      (st2, Yielded(out) + t, f)
    else
      var (st1, out) := PullFalse(p, src, st);
      var (st2, t, f) := PartitionRun(p, src, st1, pulls[1..]);
      (st2, t, Yielded(out) + f)
  }

  lemma {:induction false} PartitionRunKeepsInv<K, T>(p: (T, K) -> bool, src: Entries<K, T>, st: PartitionState<K, T>,
                                                       trueOut: Entries<K, T>, falseOut: Entries<K, T>, pulls: Pulls)
    requires PartitionInv(p, src, st, trueOut, falseOut)
    ensures var (st2, t, f) := PartitionRun(p, src, st, pulls);
      PartitionInv(p, src, st2, trueOut + t, falseOut + f)
    decreases |pulls|, 1
  {
    if pulls != [] {
      if pulls[0] {
        RunFromTrue(p, src, st, trueOut, falseOut, pulls);
      } else {
        RunFromFalse(p, src, st, trueOut, falseOut, pulls);
      }
    }
  }

  /** A run starting with a pull on the first side keeps the invariant. */
  lemma {:induction false} RunFromTrue<K, T>(p: (T, K) -> bool, src: Entries<K, T>, st: PartitionState<K, T>,
                                              trueOut: Entries<K, T>, falseOut: Entries<K, T>, pulls: Pulls)
    requires PartitionInv(p, src, st, trueOut, falseOut)
    requires pulls != [] && pulls[0]
    ensures var (st2, t, f) := PartitionRun(p, src, st, pulls);
      PartitionInv(p, src, st2, trueOut + t, falseOut + f)
    decreases |pulls|, 0
  {
    var (st1, out) := PullTrue(p, src, st);
    PullTrueKeepsInv(p, src, st, trueOut, falseOut);
    PartitionRunKeepsInv(p, src, st1, trueOut + Yielded(out), falseOut, pulls[1..]);
    var (st2, t, f) := PartitionRun(p, src, st1, pulls[1..]);
    assert trueOut + Yielded(out) + t == trueOut + (Yielded(out) + t);
  }

  /** A run starting with a pull on the second side keeps the invariant. */
  lemma {:induction false} RunFromFalse<K, T>(p: (T, K) -> bool, src: Entries<K, T>, st: PartitionState<K, T>,
                                               trueOut: Entries<K, T>, falseOut: Entries<K, T>, pulls: Pulls)
    requires PartitionInv(p, src, st, trueOut, falseOut)
    requires pulls != [] && !pulls[0]
    ensures var (st2, t, f) := PartitionRun(p, src, st, pulls);
      PartitionInv(p, src, st2, trueOut + t, falseOut + f)
    decreases |pulls|, 0
  {
    var (st1, out) := PullFalse(p, src, st);
    PullFalseKeepsInv(p, src, st, trueOut, falseOut);
    PartitionRunKeepsInv(p, src, st1, trueOut, falseOut + Yielded(out), pulls[1..]);
    var (st2, t, f) := PartitionRun(p, src, st1, pulls[1..]);
    assert falseOut + Yielded(out) + f == falseOut + (Yielded(out) + f);
  }

  /**
    Whatever the interleaving of pulls, each side yields, in source order, a
    prefix of the entries that belong to it, and the pulled source entries are
    exactly those yielded plus those still queued for the other side. A side's
    next `next()` reports done exactly when it has yielded all of its entries,
    so a side pulled until done yields exactly `filter(fn)` (respectively the
    entries `fn` rejects).
   */
  lemma PartitionRoutes<K, T>(p: (T, K) -> bool, src: Entries<K, T>, pulls: Pulls)
    ensures var (st, t, f) := PartitionRun(p, src, PartitionStart(), pulls);
      && t + st.trueQueue == Filter(p, src[..st.pos])
      && f + st.falseQueue == Filter(Not(p), src[..st.pos])
      && t <= Filter(p, src)
      && f <= Filter(Not(p), src)
      && (PullTrue(p, src, st).1.None? <==> t == Filter(p, src))
      && (PullFalse(p, src, st).1.None? <==> f == Filter(Not(p), src))
  {
    var (st, t, f) := PartitionRun(p, src, PartitionStart(), pulls);
    assert src[..0] == [];
    PartitionRunKeepsInv(p, src, PartitionStart(), [], [], pulls);
    assert [] + t == t && [] + f == f;
    SideSplits(p, src, st.pos, t, st.trueQueue);
    SideSplits(Not(p), src, st.pos, f, st.falseQueue);
    PullTrueDoneIffDrained(p, src, st, t, f);
    PullFalseDoneIffDrained(p, src, st, t, f);
  }
}

=== FILE: legacy_task.dfy ===
/**
  The older Task API of src/Task.ts: a task is a record holding its `fork`
  computation, the combinators take their tasks as variadic arguments, and
  `fork(reject, resolve, task)` returns nothing, so there is no cancel handle.

  The callback handlers of `race`, `firstSuccess`, `all` and `apply` are the
  same as in src/Task/Task.ts; what differs is that none of the parallel
  combinators has a shortcut for an empty input, so `all()` and
  `firstSuccess()` never settle. `sequence()` still succeeds with `[]`, because
  its fold starts from `succeed([])`.

  The single-task combinators of the old file (`chain`, `map`, `mapError`,
  `mapBoth`, `fold`, `swap`, `orElse`) are written as in the new file and are
  the functions of the `Transform` module.
 */
module LegacyTask {
  import opened Options
  import opened Outcomes
  import opened Schedule
  import TaskFork
  import Parallel
  import Applicative
  import Sequential

  /** `fork(reject, resolve, task)`: the computation is run and every call it makes is delivered. */
  function OldFork<E, S>(computation: Trace<E, S>): Trace<E, S> {
    computation
  }

  /** The old `fork` is the new `fork` of a task that is never canceled. */
  lemma OldForkIsUncanceledFork<E, S>(computation: Trace<E, S>)
    ensures OldFork(computation) == TaskFork.Fork(TaskFork.NewTask(computation), None).delivered
    ensures TaskFork.Fork(TaskFork.NewTask(computation), None).ran
  {
  }

  /** `race(...tasks)`. */
  function OldRace<E, S>(cs: seq<Outcome<E, S>>): Outcome<E, S> {
    FirstOf(Parallel.RaceRun(false, Build(cs)))
  }

  /** The old `race` delivers the first child's outcome, and `race()` never settles. */
  lemma OldRaceMatchesReference<E, S>(cs: seq<Outcome<E, S>>)
    ensures OldRace(cs) == Parallel.RaceRef(cs)
    ensures cs == [] ==> OldRace(cs) == Never
  {
    Parallel.RaceMatchesReference(cs);
  }

  /** `all(...tasks)`: `runningTasks` starts at the number of tasks, with no empty-input shortcut. */
  function OldAll<E, S>(cs: seq<Outcome<E, S>>): Outcome<E, map<nat, S>> {
    FirstOf(Parallel.AllRun(Parallel.AllState(false, |cs|, map[]), Build(cs)))
  }

  /**
    The old `all` behaves as the new one on any non-empty input (results by
    position, the first failure wins); with no tasks it never settles, while
    the new `all([])` succeeds with `[]`.
   */
  lemma OldAllMatchesReference<E, S>(cs: seq<Outcome<E, S>>)
    ensures OldAll(cs) == if cs == [] then Never else Parallel.AllRef(cs)
    ensures OldAll(cs) == Parallel.All(cs) <==> cs != []
  {
    if cs != [] {
      Parallel.AllHandlerMatchesReference(cs);
    }
  }

  /** `firstSuccess(...tasks)`, with no empty-input shortcut. */
  function OldFirstSuccess<E, S>(cs: seq<Outcome<E, S>>): Outcome<seq<E>, S> {
    FirstOf(Parallel.FirstSuccessRun(Parallel.FirstSuccessState(false, |cs|, []), Build(cs)))
  }

  /**
    The old `firstSuccess` behaves as the new one on any non-empty input; with
    no tasks it never settles, while the new one fails with `[]`.
   */
  lemma OldFirstSuccessMatchesReference<E, S>(cs: seq<Outcome<E, S>>)
    ensures OldFirstSuccess(cs) == if cs == [] then Never else Parallel.FirstSuccessRef(cs)
    ensures OldFirstSuccess(cs) == Parallel.FirstSuccess(cs) <==> cs != []
  {
    if cs != [] {
      Parallel.FirstSuccessMatchesReference(cs);
    }
  }

  /** `sequence(...tasks)`: the fold from `succeed([])`, with no shortcut. */
  function OldSequence<E, S>(cs: seq<Outcome<E, S>>): Outcome<E, seq<S>> {
    Sequential.SequenceFold(cs)
  }

  /**
    The old `sequence` runs the tasks one after another, as the reference
    does, and equals the new one on every input: for no tasks the fold's
    starting value `succeed([])` is already the result.
   */
  lemma OldSequenceMatchesReference<E, S>(cs: seq<Outcome<E, S>>)
    ensures OldSequence(cs) == Sequential.SequenceRef(cs)
    ensures OldSequence(cs) == Sequential.Sequence(cs)
    ensures OldSequence<E, S>([]) == Succeed([])
  {
    Sequential.SequenceFoldMatchesReference(cs);
    Sequential.SequenceMatchesReference(cs);
  }

  /** `apply(task, appliedTask)`: the handlers of the new `ap`, with the function task forked first. */
  function OldApply<E, A, B>(fo: Outcome<E, A -> B>, ao: Outcome<E, A>): Outcome<E, B> {
    FirstOf(Applicative.ApRun(Applicative.ApState(None, None, false), Build(Applicative.ApChildren(fo, ao))))
  }

  /** The old `apply` resolves with `f(x)` once both succeed and passes on only the first rejection. */
  lemma OldApplyMatchesReference<E, A, B>(fo: Outcome<E, A -> B>, ao: Outcome<E, A>)
    ensures OldApply(fo, ao) == Applicative.ApRef(fo, ao)
    ensures fo.Resolved() && ao.Resolved() ==> OldApply(fo, ao) == Done(Applicative.Max(fo.time, ao.time), Res(fo.sig.value(ao.sig.value)))
  {
    Applicative.ApMatchesReference(fo, ao);
  }
}

=== FILE: only_once.dfy ===
/**
  `onlyOnce` (alias `share`) of src/Task/Task.ts: a wrapper that forks the
  underlying task on its first fork only and caches how it settled.

  The wrapper is a small state machine. Its inputs are the forks of the
  wrapper, by some caller, and the calls of the underlying task's callbacks
  (`triggerReject`/`triggerResolve`); its outputs are the calls it makes of
  the callers' callbacks. A synchronous underlying task is a fork immediately
  followed by the settling input.
 */
module OnlyOnce {
  import opened Outcomes

  /** `state`, with the cached result or error of the finished states. */
  datatype Phase<+E, +S> = Initialized | Pending | Succeeded(value: S) | Failed(error: E)

  /**
    The closure state: the phase, the next `callbackId`, the `callbacks`
    registry (as id/caller pairs, in `Object.keys` order) and how often the
    underlying task has been forked.
   */
  datatype OnceState<C, E, S> = OnceState(phase: Phase<E, S>, nextId: nat, callbacks: seq<(nat, C)>,
                                          underlyingForks: nat)

  /** A fork of the wrapper by `caller`, or a callback call of the underlying task. */
  datatype OnceOp<C, E, S> = ForkBy(caller: C) | UnderlyingSettles(sig: Signal<E, S>)

  /** A call of `caller`'s `reject` or `resolve`. */
  datatype Notice<C, E, S> = Notice(caller: C, sig: Signal<E, S>)

  function Initial<C, E, S>(): OnceState<C, E, S> {
    OnceState(Initialized, 0, [], 0)
  }

  /** The phase a call of `triggerReject`/`triggerResolve` caches. */
  function Cached<E, S>(sig: Signal<E, S>): Phase<E, S> {
    match sig
    case Rej(e) => Failed(e)
    case Res(v) => Succeeded(v)
  }

  /** `notify(reject, resolve)`: store the caller under the next id. */
  function Register<C, E, S>(st: OnceState<C, E, S>, c: C): (r: OnceState<C, E, S>)
    ensures r.callbacks == st.callbacks + [(st.nextId, c)]
    ensures r.nextId == st.nextId + 1
    ensures r.phase == st.phase && r.underlyingForks == st.underlyingForks
  {
    st.(nextId := st.nextId + 1, callbacks := st.callbacks + [(st.nextId, c)])
  }

  /** The callers of a registry, in order. */
  function Callers<C>(callbacks: seq<(nat, C)>): (cs: seq<C>)
    ensures |cs| == |callbacks|
    ensures forall i :: 0 <= i < |cs| ==> cs[i] == callbacks[i].1
  {
    if callbacks == [] then [] else [callbacks[0].1] + Callers(callbacks[1..])
  }

  /** One call of each caller's matching callback, in order. */
  function NotifyAll<C, E, S>(callers: seq<C>, sig: Signal<E, S>): (ns: seq<Notice<C, E, S>>)
    ensures |ns| == |callers|
    ensures forall i :: 0 <= i < |ns| ==> ns[i] == Notice(callers[i], sig)
  {
    if callers == [] then [] else [Notice(callers[0], sig)] + NotifyAll(callers[1..], sig)
  }

  /**
    One input. A fork answers synchronously from the cache once settled,
    registers the caller while pending, and on the very first fork registers
    the caller and forks the underlying task. A callback of the underlying
    task caches its value, calls every registered caller and deletes it.
   */
  function Step<C, E, S>(st: OnceState<C, E, S>, op: OnceOp<C, E, S>): (OnceState<C, E, S>, seq<Notice<C, E, S>>) {
    match op
    case ForkBy(c) =>
      (match st.phase
       case Succeeded(v) => (st, [Notice(c, Res(v))])
       case Failed(e) => (st, [Notice(c, Rej(e))])
       case Pending => (Register(st, c), [])
       case Initialized =>
         (Register(st, c).(phase := Pending, underlyingForks := st.underlyingForks + 1), []))
    case UnderlyingSettles(sig) =>
      (st.(phase := Cached(sig), callbacks := []), NotifyAll(Callers(st.callbacks), sig))
  }

  function Run<C, E, S>(st: OnceState<C, E, S>, ops: seq<OnceOp<C, E, S>>): (OnceState<C, E, S>, seq<Notice<C, E, S>>)
    decreases |ops|
  {
    if ops == [] then (st, [])
    else
      var (s1, n1) := Step(st, ops[0]);
      var (s2, n2) := Run(s1, ops[1..]);
      (s2, n1 + n2)
  }

  /** Running two input sequences one after the other. */
  lemma {:induction false} RunAppend<C, E, S>(st: OnceState<C, E, S>, a: seq<OnceOp<C, E, S>>, b: seq<OnceOp<C, E, S>>)
    ensures Run(st, a + b).0 == Run(Run(st, a).0, b).0
    ensures Run(st, a + b).1 == Run(st, a).1 + Run(Run(st, a).0, b).1
    decreases |a|
  {
    if a == [] {
      assert a + b == b;
    } else {
      assert (a + b)[0] == a[0];
      assert (a + b)[1..] == a[1..] + b;
      var (s1, n1) := Step(st, a[0]);
      RunAppend(s1, a[1..], b);
    }
  }

  /**
    What holds of the closure state at every point: the underlying task has
    been forked at most once and not at all while `initialized`; the registry
    ids are strictly increasing and below `callbackId`; and the registry is
    empty while `initialized`.
   */
  ghost predicate Inv<C, E, S>(st: OnceState<C, E, S>) {
    && st.underlyingForks <= 1
    && (st.phase.Initialized? ==> st.underlyingForks == 0 && st.callbacks == [])
    && (forall i :: 0 <= i < |st.callbacks| ==> st.callbacks[i].0 < st.nextId)
    && (forall i, j :: 0 <= i < j < |st.callbacks| ==> st.callbacks[i].0 < st.callbacks[j].0)
  }

  lemma StepKeepsInv<C, E, S>(st: OnceState<C, E, S>, op: OnceOp<C, E, S>)
    requires Inv(st)
    ensures Inv(Step(st, op).0)
  {
  }

  lemma {:induction false} RunKeepsInv<C, E, S>(st: OnceState<C, E, S>, ops: seq<OnceOp<C, E, S>>)
    requires Inv(st)
    ensures Inv(Run(st, ops).0)
    decreases |ops|
  {
    if ops != [] {
      StepKeepsInv(st, ops[0]);
      RunKeepsInv(Step(st, ops[0]).0, ops[1..]);
    }
  }

  /** Whatever the forks and callback calls, the underlying task is forked at most once. */
  lemma UnderlyingForkedAtMostOnce<C, E, S>(ops: seq<OnceOp<C, E, S>>)
    ensures Run(Initial<C, E, S>(), ops).0.underlyingForks <= 1
    ensures Inv(Run(Initial<C, E, S>(), ops).0)
  {
    RunKeepsInv(Initial<C, E, S>(), ops);
  }

  /** Every input is a fork of the wrapper. */
  predicate OnlyForks<C, E, S>(ops: seq<OnceOp<C, E, S>>) {
    forall i :: 0 <= i < |ops| ==> ops[i].ForkBy?
  }

  /** The callers of a sequence of forks, in order. */
  function ForkCallers<C, E, S>(ops: seq<OnceOp<C, E, S>>): (cs: seq<C>)
    requires OnlyForks(ops)
    ensures |cs| == |ops|
    ensures forall i :: 0 <= i < |cs| ==> cs[i] == ops[i].caller
  {
    if ops == [] then [] else [ops[0].caller] + ForkCallers(ops[1..])
  }

  /** Registry entries for `callers`, under consecutive ids from `id`. */
  function Fresh<C>(id: nat, callers: seq<C>): (entries: seq<(nat, C)>)
    ensures |entries| == |callers|
    decreases |callers|
  {
    if callers == [] then [] else [(id, callers[0])] + Fresh(id + 1, callers[1..])
  }

  /**
    Forks while pending are stored, in fork order and under fresh increasing
    ids, and nobody is called yet; the underlying task is not forked again.
   */
  lemma {:induction false} ForksWhilePending<C, E, S>(st: OnceState<C, E, S>, ops: seq<OnceOp<C, E, S>>)
    requires st.phase.Pending? && OnlyForks(ops)
    ensures Run(st, ops) ==
      (st.(nextId := st.nextId + |ops|, callbacks := st.callbacks + Fresh(st.nextId, ForkCallers(ops))), [])
    decreases |ops|
  {
    if ops != [] {
      var s1 := Register(st, ops[0].caller);
      assert Step(st, ops[0]) == (s1, []);
      ForksWhilePending(s1, ops[1..]);
      var rest := Run(s1, ops[1..]);
      var cbs := s1.callbacks + Fresh(s1.nextId, ForkCallers(ops[1..]));
      assert rest == (s1.(nextId := s1.nextId + |ops| - 1, callbacks := cbs), []);
      assert Run(st, ops) == (rest.0, [] + rest.1);
      assert ForkCallers(ops) == [ops[0].caller] + ForkCallers(ops[1..]);
      assert Fresh(st.nextId, ForkCallers(ops)) == [(st.nextId, ops[0].caller)] + Fresh(s1.nextId, ForkCallers(ops[1..]));
      assert st.callbacks + Fresh(st.nextId, ForkCallers(ops)) == cbs;
      assert rest.0 == st.(nextId := st.nextId + |ops|, callbacks := cbs);
      assert Run(st, ops).1 == [];
      assert Run(st, ops).0 == rest.0;
    } else {
      assert st.callbacks + Fresh(st.nextId, ForkCallers(ops)) == st.callbacks;
    }
  }

  /** Forks after the wrapper settled are answered at once from the cache, in fork order; nothing is stored. */
  lemma {:induction false} ForksAfterSettling<C, E, S>(st: OnceState<C, E, S>, sig: Signal<E, S>, ops: seq<OnceOp<C, E, S>>)
    requires st.phase == Cached(sig) && OnlyForks(ops)
    ensures Run(st, ops) == (st, NotifyAll(ForkCallers(ops), sig))
    decreases |ops|
  {
    if ops != [] {
      ForksAfterSettling(st, sig, ops[1..]);
    }
  }

  lemma {:induction false} CallersOfFresh<C>(id: nat, callers: seq<C>)
    ensures Callers(Fresh(id, callers)) == callers
    decreases |callers|
  {
    if callers != [] {
      CallersOfFresh(id + 1, callers[1..]);
    }
  }

  lemma NotifyAllAppend<C, E, S>(a: seq<C>, b: seq<C>, sig: Signal<E, S>)
    ensures NotifyAll(a + b, sig) == NotifyAll(a, sig) + NotifyAll(b, sig)
  {
    assert forall i :: 0 <= i < |a| + |b| ==> NotifyAll(a + b, sig)[i] == (NotifyAll(a, sig) + NotifyAll(b, sig))[i];
  }

  /** The first fork forks the underlying task; later forks while it runs are stored behind it. */
  lemma FirstForkThenPending<C, E, S>(first: C, during: seq<OnceOp<C, E, S>>)
    requires OnlyForks(during)
    ensures Run(Initial<C, E, S>(), [ForkBy(first)] + during)
      == (OnceState(Pending, 1 + |during|, Fresh(0, [first] + ForkCallers(during)), 1), [])
  {
    var init := Initial<C, E, S>();
    var s1 := Step(init, ForkBy(first)).0;
    assert s1 == OnceState(Pending, 1, [(0, first)], 1);
    var one: seq<OnceOp<C, E, S>> := [ForkBy(first)];
    assert one[1..] == [];
    assert Run(s1, []) == (s1, []);
    assert Run(init, one) == (s1, [] + []);
    ForksWhilePending(s1, during);
    RunAppend(init, one, during);
    assert Fresh(0, [first] + ForkCallers(during)) == [(0, first)] + Fresh(1, ForkCallers(during));
  }

  /** Settling calls every stored caller, in registry order, and empties the registry. */
  lemma SettleOnce<C, E, S>(st: OnceState<C, E, S>, sig: Signal<E, S>)
    ensures Run(st, [UnderlyingSettles(sig)])
      == (st.(phase := Cached(sig), callbacks := []), NotifyAll(Callers(st.callbacks), sig))
  {
    var settle: seq<OnceOp<C, E, S>> := [UnderlyingSettles(sig)];
    assert settle[1..] == [];
    var s1 := Step(st, UnderlyingSettles(sig)).0;
    assert Run(s1, []) == (s1, []);
    assert NotifyAll(Callers(st.callbacks), sig) + [] == NotifyAll(Callers(st.callbacks), sig);
  }

  /**
    The single-execution cache. A first fork, more forks while the underlying
    task runs, its settling, and forks after that: the underlying task is
    forked once, every fork is answered exactly once with how the underlying
    task settled, in fork order, and the registry ends up empty.
   */
  lemma SingleExecutionCache<C, E, S>(first: C, during: seq<OnceOp<C, E, S>>, sig: Signal<E, S>,
                                      after: seq<OnceOp<C, E, S>>)
    requires OnlyForks(during) && OnlyForks(after)
    ensures var ops := [ForkBy(first)] + during + [UnderlyingSettles(sig)] + after;
      var (fin, notices) := Run(Initial<C, E, S>(), ops);
      && notices == NotifyAll([first] + ForkCallers(during) + ForkCallers(after), sig)
      && fin.underlyingForks == 1
      && fin.phase == Cached(sig)
      && fin.callbacks == []
  {
    var init := Initial<C, E, S>();
    var ab := [ForkBy(first)] + during + [UnderlyingSettles(sig)];
    var s3 := PendingThenSettled(first, during, sig);
    ForksAfterSettling(s3, sig, after);
    RunAppend(init, ab, after);
    NotifyAllAppend([first] + ForkCallers(during), ForkCallers(after), sig);
  }

  /** The first fork, forks while pending, then the settling: every stored caller is told, in fork order. */
  lemma PendingThenSettled<C, E, S>(first: C, during: seq<OnceOp<C, E, S>>, sig: Signal<E, S>)
    returns (s3: OnceState<C, E, S>)
    requires OnlyForks(during)
    ensures s3 == OnceState(Cached(sig), 1 + |during|, [], 1)
    ensures Run(Initial<C, E, S>(), [ForkBy(first)] + during + [UnderlyingSettles(sig)]).0 == s3
    ensures Run(Initial<C, E, S>(), [ForkBy(first)] + during + [UnderlyingSettles(sig)]).1
      == NotifyAll([first] + ForkCallers(during), sig)
  {
    var init := Initial<C, E, S>();
    var a := [ForkBy(first)] + during;
    var b: seq<OnceOp<C, E, S>> := [UnderlyingSettles(sig)];
    FirstForkThenPending(first, during);
    var s2 := Run(init, a).0;
    SettleOnce(s2, sig);
    s3 := Run(s2, b).0;
    RunAppend(init, a, b);
    CallersOfFresh(0, [first] + ForkCallers(during));
    assert Run(init, a + b).1 == [] + NotifyAll([first] + ForkCallers(during), sig);
    assert Run(init, a + b).0 == s3;
    assert a + b == [ForkBy(first)] + during + [UnderlyingSettles(sig)];
  }

  /**
    A second call of the underlying callbacks (a misbehaving task) overwrites
    the cache but calls nobody: the registry was emptied by the first.
   */
  lemma SecondSettlingCallsNobody<C, E, S>(st: OnceState<C, E, S>, sig1: Signal<E, S>, sig2: Signal<E, S>)
    ensures var s1 := Step(st, UnderlyingSettles(sig1)).0;
      Step(s1, UnderlyingSettles(sig2)) == (s1.(phase := Cached(sig2)), [])
  {
  }
}

=== FILE: options.dfy ===
/** An optional value; `None` stands for JavaScript's `undefined`. */
module Options {

  datatype Option<+T> = None | Some(value: T) {

    /** The value, or `default` when there is none. */
    function GetOr(default: T): T {
      match this
      case Some(v) => v
      case None => default
    }
  }
}

=== FILE: outcome.dfy ===
/**
  The observable behaviour of forking a Task.

  A callback happens either synchronously, during the fork itself, or when a
  timer fires some milliseconds after the fork. Every synchronous callback
  comes before any timer callback, even one of 0 ms. A well-behaved fork calls
  at most one of its two callbacks, once, so its behaviour is an `Outcome`: it
  never settles, or it settles once on one channel. A general computation may
  call its callbacks any number of times; that is a `Trace` of `Event`s.
 */
module Outcomes {
  import opened Options

  /** The two callback channels of the fork contract: `reject(e)` and `resolve(s)`. */
  datatype Signal<+E, +S> = Rej(error: E) | Res(value: S)

  /** When a callback happens: during the fork, or when a timer `ms` ms after the fork fires. */
  datatype Time = Sync | At(ms: nat)

  /**
    The order in which callbacks happen: a synchronous one comes first, then the
    timers by their delay.
   */
  function Rank(t: Time): (k: nat)
    ensures t.Sync? <==> k == 0
    ensures t.At? ==> k == t.ms + 1
  {
    match t
    case Sync => 0
    case At(ms) => ms + 1
  }

  /** The milliseconds elapsed, with no distinction between a synchronous call and a 0 ms timer. */
  function Millis(t: Time): nat {
    match t
    case Sync => 0
    case At(ms) => ms
  }

  /**
    What is reached from `t` after a further `d`: a synchronous step adds
    nothing, and a timer set inside a timer callback adds its delay.
   */
  function Plus(t: Time, d: Time): (r: Time)
    ensures Millis(r) == Millis(t) + Millis(d)
    ensures r.Sync? <==> t.Sync? && d.Sync?
  {
    match (t, d)
    case (Sync, _) => d
    case (_, Sync) => t
    case (At(a), At(b)) => At(a + b)
  }

  /** One callback call. */
  datatype Event<+E, +S> = Event(time: Time, sig: Signal<E, S>)

  type Trace<E, S> = seq<Event<E, S>>

  /** A fork that never settles, or settles once. */
  datatype Outcome<+E, +S> = Never | Done(time: Time, sig: Signal<E, S>) {

    predicate Resolved() { Done? && sig.Res? }

    predicate Rejected() { Done? && sig.Rej? }
  }

  /** Every outcome of `cs` is a success. */
  predicate AllResolved<E, S>(cs: seq<Outcome<E, S>>) {
    forall i :: 0 <= i < |cs| ==> cs[i].Done? && cs[i].sig.Res?
  }

  /** The channel an outcome ends on, forgetting time and payload. */
  datatype Channel = Unsettled | Rejecting | Resolving

  function ChannelOf<E, S>(o: Outcome<E, S>): Channel {
    match o
    case Never => Unsettled
    case Done(_, Rej(_)) => Rejecting
    case Done(_, Res(_)) => Resolving
  }

  /** `succeed(v)` (alias `of`): resolves synchronously on fork. */
  function Succeed<E, S>(v: S): Outcome<E, S> {
    Done(Sync, Res(v))
  }

  /** `fail(e)`: rejects synchronously on fork. */
  function Fail<E, S>(e: E): Outcome<E, S> {
    Done(Sync, Rej(e))
  }

  /** `succeedIn(ms, v)`: resolves when a timer of `ms` fires. */
  function SucceedIn<E, S>(ms: nat, v: S): Outcome<E, S> {
    Done(At(ms), Res(v))
  }

  /** `failIn(ms, e)`: rejects when a timer of `ms` fires. */
  function FailIn<E, S>(ms: nat, e: E): Outcome<E, S> {
    Done(At(ms), Rej(e))
  }

  /** `empty()` (alias `unit`): resolves synchronously with `undefined`. */
  function Empty<E, S>(): Outcome<E, Option<S>> {
    Succeed(None)
  }

  /**
    `succeedBy(thunk)`: the thunk runs at fork time. `call` is what the call did:
    `Res(v)` when it returned `v`, `Rej(e)` when it threw `e`; a throw becomes a
    rejection.
   */
  function SucceedBy<E, S>(call: Signal<E, S>): (r: Outcome<E, S>)
    ensures r.Done? && r.time == Sync
    ensures r.sig == call
  {
    Done(Sync, call)
  }

  /**
    Every callback call of `succeedBy(thunk)`. `resolve(thunk())` sits inside
    the `try`, so when the caller's `resolve` callback itself throws `e2`
    (`thrown == Some(e2)`), the `catch` calls `reject(e2)` as well.
   */
  function SucceedByTrace<E, S>(call: Signal<E, S>, thrown: Option<E>): Trace<E, S> {
    match call
    case Rej(e) => [Event(Sync, Rej(e))]
    case Res(v) => [Event(Sync, Res(v))] + (if thrown.Some? then [Event(Sync, Rej(thrown.value))] else [])
  }

  /**
    The first call of `succeedBy` is what the thunk did; there is a second one,
    a rejection with what was thrown, exactly when the thunk returned and the
    `resolve` callback threw.
   */
  lemma SucceedByCalls<E, S>(call: Signal<E, S>, thrown: Option<E>)
    ensures FirstOf(SucceedByTrace(call, thrown)) == SucceedBy(call)
    ensures |SucceedByTrace(call, thrown)| == 2 <==> call.Res? && thrown.Some?
    ensures |SucceedByTrace(call, thrown)| == 2 ==> SucceedByTrace(call, thrown)[1] == Event(Sync, Rej(thrown.value))
    ensures thrown.None? ==> SucceedByTrace(call, thrown) == TraceOf(SucceedBy(call))
  {
  }

  /** Delays an outcome by `d`: the described task was forked at `d`. */
  function Shift<E, S>(o: Outcome<E, S>, d: Time): Outcome<E, S> {
    match o
    case Never => Never
    case Done(t, s) => Done(Plus(d, t), s)
  }

  /** The callback calls of a well-behaved fork. */
  function TraceOf<E, S>(o: Outcome<E, S>): (tr: Trace<E, S>)
    ensures |tr| <= 1
  {
    match o
    case Never => []
    case Done(t, s) => [Event(t, s)]
  }

  /** What a caller that only listens to the first callback call sees. */
  function FirstOf<E, S>(tr: Trace<E, S>): Outcome<E, S> {
    if tr == [] then Never else Done(tr[0].time, tr[0].sig)
  }

  lemma FirstOfTraceOf<E, S>(o: Outcome<E, S>)
    ensures FirstOf(TraceOf(o)) == o
  {
  }

  /** Delays compose: `Plus` is associative. */
  lemma ShiftAdds<E, S>(o: Outcome<E, S>, a: Time, b: Time)
    ensures Shift(Shift(o, a), b) == Shift(o, Plus(b, a))
  {
  }
}

=== FILE: parallel.dfy ===
/**
  `all`, `race` and `firstSuccess` of src/Task/Task.ts.

  Each forks every child once and reacts to the children's callback calls
  with a handler that updates shared local state (`isDone`, `runningTasks`,
  the results or errors collected so far). The handlers are modelled as step
  functions over a schedule of child callback calls. The run theorems hold for
  ANY schedule, including one where a child calls back twice; the outcome-level
  functions use the schedule of well-behaved children (`Schedule.Build`) and
  are proved equal to independent references.
 */
module Parallel {
  import opened Options
  import opened Outcomes
  import opened Schedule

  // ---------------------------------------------------------------- all

  /** The local state of an `all` fork: `isDone`, `runningTasks`, `results` (a sparse array). */
  datatype AllState<S> = AllState(isDone: bool, running: int, results: map<nat, S>)

  /** The two callbacks `all` passes to the child at `ev.index`, applied to one call. */
  function AllStep<E, S>(st: AllState<S>, ev: ChildEvent<E, S>): (AllState<S>, Trace<E, map<nat, S>>) {
    if st.isDone then (st, [])
    else
      match ev.sig
      case Rej(e) => (st.(isDone := true), [Event(ev.time, Rej(e))])
      case Res(v) =>
        var next := st.(running := st.running - 1, results := st.results[ev.index := v]);
        (next, if next.running == 0 then [Event(ev.time, Res(next.results))] else [])
  }

  /** The calls `all` makes to its own caller while the schedule is played. */
  function AllRun<E, S>(st: AllState<S>, sched: seq<ChildEvent<E, S>>): Trace<E, map<nat, S>>
    decreases |sched|
  {
    if sched == [] then []
    else
      var (next, out) := AllStep(st, sched[0]);
      out + AllRun(next, sched[1..])
  }

  /** The results array after the success handler has seen `evs` (rejections leave it alone). */
  function ResultsInto<E, S>(m: map<nat, S>, evs: seq<ChildEvent<E, S>>): map<nat, S>
    decreases |evs|
  {
    if evs == [] then m
    else
      var m2 := match evs[0].sig case Res(v) => m[evs[0].index := v] case Rej(_) => m;
      ResultsInto(m2, evs[1..])
  }

  lemma {:induction false} AllDoneIsSilent<E, S>(st: AllState<S>, sched: seq<ChildEvent<E, S>>)
    requires st.isDone
    ensures AllRun(st, sched) == []
    decreases |sched|
  {
    if sched != [] {
      AllDoneIsSilent(st, sched[1..]);
    }
  }

  /**
    What `all` delivers, for any schedule, started with `r` children running
    and results `m`. Let `j` be the position of the first rejection. The
    success callback fires when the running count reaches zero before `j`,
    with the results collected so far; the first rejection is delivered
    whatever happened before it, because a completed success does not set
    `isDone`.
   */
  function AllShape<E, S>(r: int, m: map<nat, S>, sched: seq<ChildEvent<E, S>>): Trace<E, map<nat, S>> {
    var j := FirstWhere(sched, IsRej);
    (if 0 < r <= j then [Event(sched[r - 1].time, Res(ResultsInto(m, sched[..r])))] else [])
    + (if j < |sched| then [Event(sched[j].time, Rej(sched[j].sig.error))] else [])
  }

  /** A success at the head of the schedule: what it delivers, then the shape of the rest. */
  lemma AllShapeRes<E, S>(r: int, m: map<nat, S>, sched: seq<ChildEvent<E, S>>)
    requires sched != [] && sched[0].sig.Res?
    ensures var m2 := m[sched[0].index := sched[0].sig.value];
      AllShape(r, m, sched)
        == (if r - 1 == 0 then [Event(sched[0].time, Res(m2))] else []) + AllShape(r - 1, m2, sched[1..])
  {
    var ev := sched[0];
    var rest := sched[1..];
    var m2 := m[ev.index := ev.sig.value];
    assert FirstWhere(sched, IsRej) == 1 + FirstWhere(rest, IsRej);
    if r == 1 {
      var none: seq<ChildEvent<E, S>> := [];
      assert ResultsInto(m, sched[..1]) == ResultsInto(m2, none);
    } else if 1 < r <= FirstWhere(sched, IsRej) {
      assert sched[..r][1..] == rest[..r - 1];
      assert ResultsInto(m, sched[..r]) == ResultsInto(m2, rest[..r - 1]);
      assert sched[r - 1] == rest[r - 2];
    }
    if FirstWhere(sched, IsRej) < |sched| {
      assert sched[FirstWhere(sched, IsRej)] == rest[FirstWhere(rest, IsRej)];
    }
  }

  /** A rejection at the head of the schedule is all the shape holds. */
  lemma AllShapeRej<E, S>(r: int, m: map<nat, S>, sched: seq<ChildEvent<E, S>>)
    requires sched != [] && sched[0].sig.Rej?
    ensures AllShape(r, m, sched) == [Event(sched[0].time, Rej(sched[0].sig.error))]
  {
    assert FirstWhere(sched, IsRej) == 0;
  }

  /** The handlers on a success at the head of the schedule. */
  lemma AllRunRes<E, S>(r: int, m: map<nat, S>, sched: seq<ChildEvent<E, S>>)
    requires sched != [] && sched[0].sig.Res?
    ensures var m2 := m[sched[0].index := sched[0].sig.value];
      AllRun(AllState(false, r, m), sched)
        == (if r - 1 == 0 then [Event(sched[0].time, Res(m2))] else []) + AllRun(AllState(false, r - 1, m2), sched[1..])
  {
  }

  /** `all`'s handlers, played on any schedule, deliver `AllShape`. */
  lemma {:induction false} AllRunShape<E, S>(r: int, m: map<nat, S>, sched: seq<ChildEvent<E, S>>)
    ensures AllRun(AllState(false, r, m), sched) == AllShape(r, m, sched)
    decreases |sched|
  {
    if sched != [] {
      var ev := sched[0];
      var rest := sched[1..];
      match ev.sig
      case Rej(e) =>
        AllDoneIsSilent(AllState(true, r, m), rest);
        AllShapeRej(r, m, sched);
      case Res(v) =>
        AllRunShape(r - 1, m[ev.index := v], rest);
        AllShapeRes(r, m, sched);
        AllRunRes(r, m, sched);
    }
  }

  /** When every child calls back at most once, `all` calls its caller at most once. */
  lemma AllDeliversAtMostOnce<E, S>(n: nat, sched: seq<ChildEvent<E, S>>)
    requires |sched| <= n
    ensures |AllRun(AllState(false, n, map[]), sched)| <= 1
  {
    AllRunShape(n, map[], sched);
  }

  /** A child that resolves and then rejects makes `all` settle twice. */
  lemma AllMisbehavingChildSettlesTwice()
    ensures AllRun(AllState(false, 1, map[]), [ChildEvent(Sync, 0, Res(7)), ChildEvent(At(1), 0, Rej(3))])
      == [Event(Sync, Res(map[0 := 7])), Event(At(1), Rej(3))]
  {
    var sched: seq<ChildEvent<int, int>> := [ChildEvent(Sync, 0, Res(7)), ChildEvent(At(1), 0, Rej(3))];
    AllRunShape(1, map[], sched);
    assert FirstWhere(sched, IsRej) == 1;
    assert ResultsInto(map[], sched[..1]) == map[0 := 7];
  }

  /**
    A child that resolves twice does not make `all` settle twice: the running
    count goes past zero, and only reaching zero resolves.
   */
  lemma AllChildResolvingTwiceSettlesOnce<E>()
    ensures AllRun<E, int>(AllState(false, 1, map[]), [ChildEvent(Sync, 0, Res(1)), ChildEvent(At(5), 0, Res(2))])
      == [Event(Sync, Res(map[0 := 1]))]
  {
    var sched: seq<ChildEvent<E, int>> := [ChildEvent(Sync, 0, Res(1)), ChildEvent(At(5), 0, Res(2))];
    AllRunRes(1, map[], sched);
    assert sched[1..] == [ChildEvent(At(5), 0, Res(2))];
    AllRunRes(0, map[0 := 1], sched[1..]);
    assert sched[1..][1..] == [];
  }

  /** The child indices occurring in `evs`. */
  function Indices<E, S>(evs: seq<ChildEvent<E, S>>): (ks: set<nat>)
    ensures forall p :: 0 <= p < |evs| ==> evs[p].index in ks
    ensures forall k :: k in ks ==> exists p :: 0 <= p < |evs| && evs[p].index == k
    decreases |evs|
  {
    if evs == [] then {}
    else
      var rest := Indices(evs[1..]);
      assert forall p :: 1 <= p < |evs| ==> evs[p] == evs[1..][p - 1];
      {evs[0].index} + rest
  }

  /** The results of a run of successes from distinct children, looked up by child. */
  lemma {:induction false} ResultsIntoDistinct<E, S>(m: map<nat, S>, evs: seq<ChildEvent<E, S>>)
    requires DistinctIndices(evs)
    requires forall p :: 0 <= p < |evs| ==> evs[p].sig.Res?
    ensures ResultsInto(m, evs).Keys == m.Keys + Indices(evs)
    ensures forall p :: 0 <= p < |evs| ==> ResultsInto(m, evs)[evs[p].index] == evs[p].sig.value
    ensures forall k :: k in m && k !in Indices(evs) ==> ResultsInto(m, evs)[k] == m[k]
    decreases |evs|
  {
    if evs != [] {
      var rest := evs[1..];
      var m2 := m[evs[0].index := evs[0].sig.value];
      ResultsIntoDistinct(m2, rest);
      assert evs[0].index !in Indices(rest) by {
        forall q | 0 <= q < |rest| ensures rest[q].index != evs[0].index {
          assert rest[q] == evs[q + 1];
        }
      }
      forall p | 0 < p < |evs|
        ensures ResultsInto(m, evs)[evs[p].index] == evs[p].sig.value
      {
        assert evs[p] == rest[p - 1];
      }
    }
  }

  /** The results of children that all succeed, indexed by input position. */
  function Values<E, S>(cs: seq<Outcome<E, S>>): map<nat, S>
    requires AllResolved(cs)
  {
    map i: nat | i < |cs| :: cs[i].sig.value
  }

  lemma IndicesBelowBound<E, S>(sched: seq<ChildEvent<E, S>>, n: nat)
    requires IndicesBelow(sched, n)
    ensures forall k :: k in Indices(sched) ==> k < n
  {
    forall k | k in Indices(sched) ensures k < n {
      var p :| 0 <= p < |sched| && sched[p].index == k;
    }
  }

  lemma BuildBelow<E, S>(cs: seq<Outcome<E, S>>)
    ensures forall k :: k in Indices(Build(cs)) ==> k < |cs|
  {
    BuildFacts(cs);
    IndicesBelowBound(Build(cs), |cs|);
  }

  /** When every child settles, the schedule holds an event for each child and for nothing else. */
  lemma DenseKeys<E, S>(cs: seq<Outcome<E, S>>)
    requires forall i :: 0 <= i < |cs| ==> cs[i].Done?
    ensures forall k: nat :: k in Indices(Build(cs)) <==> k < |cs|
  {
    var sched := Build(cs);
    BuildBelow(cs);
    forall k: nat | k < |cs| ensures k in Indices(sched) {
      var p := ScheduledOnce(cs, k);
      assert sched[p].index == k;
    }
  }

  /** Played on the schedule of children that all succeed, the results array is dense and in input order. */
  lemma AllResultsDense<E, S>(cs: seq<Outcome<E, S>>)
    requires AllResolved(cs)
    ensures ResultsInto(map[], Build(cs)) == Values(cs)
  {
    var got := ResultsInto(map[], Build(cs));
    var want := Values(cs);
    forall k: nat ensures k in got <==> k in want {
      ResultsKeys(cs);
      DenseKeys(cs);
    }
    assert got.Keys == want.Keys;
    forall k | k in got ensures got[k] == want[k] {
      ResultAt(cs, k);
    }
  }

  /** Every event in the schedule of children that all succeed is a success. */
  lemma ResolvedSchedule<E, S>(cs: seq<Outcome<E, S>>)
    requires AllResolved(cs)
    ensures DistinctIndices(Build(cs))
    ensures forall p :: 0 <= p < |Build(cs)| ==> Build(cs)[p].sig.Res?
  {
    BuildDistinct(cs);
    BuildFromChildren(cs);
    forall p | 0 <= p < |Build(cs)| ensures Build(cs)[p].sig.Res? {
      assert IsChildEvent(cs, Build(cs)[p]);
    }
  }

  lemma ResultsKeys<E, S>(cs: seq<Outcome<E, S>>)
    requires AllResolved(cs)
    ensures ResultsInto(map[], Build(cs)).Keys == Indices(Build(cs))
  {
    ResolvedSchedule(cs);
    ResultsIntoDistinct(map[], Build(cs));
  }

  /** The results array holds child `k`'s value at `k`. */
  lemma ResultAt<E, S>(cs: seq<Outcome<E, S>>, k: nat)
    requires AllResolved(cs) && k < |cs|
    ensures k in ResultsInto(map[], Build(cs))
    ensures ResultsInto(map[], Build(cs))[k] == cs[k].sig.value
  {
    var sched := Build(cs);
    ResolvedSchedule(cs);
    ResultsIntoDistinct(map[], sched);
    var p := ScheduledOnce(cs, k);
    assert sched[p].index == k;
  }

  /**
    Reference for `all`: the earliest rejection wins; otherwise, when every
    child succeeds, the results in input order when the last child settles;
    otherwise it never settles.
   */
  function AllRef<E, S>(cs: seq<Outcome<E, S>>): Outcome<E, map<nat, S>> {
    match Earliest(cs, IsRej)
    case Some(i) => Done(cs[i].time, Rej(cs[i].sig.error))
    case None =>
      if AllResolved(cs) then Done(MaxTime(cs), Res(Values(cs)))
      else Never
  }

  /** The handler of `all` forked over the given children. */
  function AllHandler<E, S>(cs: seq<Outcome<E, S>>): Outcome<E, map<nat, S>> {
    FirstOf(AllRun(AllState(false, |cs|, map[]), Build(cs)))
  }

  /** `all(tasks)`: an empty input succeeds at once with an empty array. */
  function All<E, S>(cs: seq<Outcome<E, S>>): Outcome<E, map<nat, S>> {
    if cs == [] then Succeed(map[]) else AllHandler(cs)
  }

  /** The handler agrees with the reference whenever there is at least one child. */
  lemma AllHandlerMatchesReference<E, S>(cs: seq<Outcome<E, S>>)
    requires cs != []
    ensures AllHandler(cs) == AllRef(cs)
  {
    var sched := Build(cs);
    var n := |cs|;
    BuildFacts(cs);
    AllDoneIffFull(cs);
    AllRunShape(n, map[], sched);
    FirstWhereIsEarliest(cs, IsRej);
    var j := FirstWhere(sched, IsRej);
    match Earliest(cs, IsRej)
    case Some(i) =>
    case None =>
      if AllResolved(cs) {
        assert sched[..n] == sched;
        AllResultsDense(cs);
        LastIsLatest(cs);
      }
  }

  lemma AllMatchesReference<E, S>(cs: seq<Outcome<E, S>>)
    ensures All(cs) == AllRef(cs)
  {
    if cs != [] {
      AllHandlerMatchesReference(cs);
    }
  }

  /** A synchronous failure is the one `all` passes on, even after a 0 ms failure placed before it. */
  lemma AllSyncFailureFirst<E, S>(a: E, b: E)
    ensures All<E, S>([FailIn(0, a), Fail(b)]) == Fail(b)
  {
    AllMatchesReference<E, S>([FailIn(0, a), Fail(b)]);
  }

  // ---------------------------------------------------------------- race

  /** `race`: every callback of every child checks and sets the one shared `done` flag. */
  function RaceRun<E, S>(done: bool, sched: seq<ChildEvent<E, S>>): Trace<E, S>
    decreases |sched|
  {
    if sched == [] then []
    else (if done then [] else [Event(sched[0].time, sched[0].sig)]) + RaceRun(true, sched[1..])
  }

  lemma {:induction false} RaceDoneIsSilent<E, S>(sched: seq<ChildEvent<E, S>>)
    ensures RaceRun(true, sched) == []
    decreases |sched|
  {
    if sched != [] {
      RaceDoneIsSilent(sched[1..]);
    }
  }

  /** Whatever the children do, `race` passes on exactly the first callback call and nothing else. */
  lemma RaceRunShape<E, S>(sched: seq<ChildEvent<E, S>>)
    ensures RaceRun(false, sched) == if sched == [] then [] else [Event(sched[0].time, sched[0].sig)]
  {
    if sched != [] {
      RaceDoneIsSilent(sched[1..]);
    }
  }

  /** `race(tasks)`: there is no shortcut for an empty input. */
  function Race<E, S>(cs: seq<Outcome<E, S>>): Outcome<E, S> {
    FirstOf(RaceRun(false, Build(cs)))
  }

  /** Reference for `race`: the outcome of the child that settles first, or never. */
  function RaceRef<E, S>(cs: seq<Outcome<E, S>>): Outcome<E, S> {
    match Earliest(cs, AnySig)
    case None => Never
    case Some(i) => cs[i]
  }

  lemma RaceMatchesReference<E, S>(cs: seq<Outcome<E, S>>)
    ensures Race(cs) == RaceRef(cs)
  {
    RaceRunShape(Build(cs));
    FirstWhereIsEarliest(cs, AnySig);
  }

  /**
    A child that settles synchronously wins over an earlier-placed timer of
    0 ms: it calls back during the fork loop, before any timer fires.
   */
  lemma RaceSyncBeatsZeroTimer<E, S>(a: S, b: S)
    ensures Race<E, S>([SucceedIn(0, a), Succeed(b)]) == Succeed(b)
  {
    RaceMatchesReference<E, S>([SucceedIn(0, a), Succeed(b)]);
  }

  /** `race([])` never settles. */
  lemma RaceOfNothingNeverSettles<E, S>()
    ensures Race<E, S>([]) == Never
  {
  }

  // ---------------------------------------------------------------- firstSuccess

  /** The local state of a `firstSuccess` fork: `isDone`, `runningTasks`, `errors`. */
  datatype FirstSuccessState<E> = FirstSuccessState(isDone: bool, running: int, errors: seq<E>)

  /** The two callbacks `firstSuccess` passes to each child, applied to one call. */
  function FirstSuccessStep<E, S>(st: FirstSuccessState<E>, ev: ChildEvent<E, S>): (FirstSuccessState<E>, Trace<seq<E>, S>) {
    if st.isDone then (st, [])
    else
      match ev.sig
      case Rej(e) =>
        var next := st.(running := st.running - 1, errors := st.errors + [e]);
        (next, if next.running == 0 then [Event(ev.time, Rej(next.errors))] else [])
      case Res(v) => (st.(isDone := true), [Event(ev.time, Res(v))])
  }

  function FirstSuccessRun<E, S>(st: FirstSuccessState<E>, sched: seq<ChildEvent<E, S>>): Trace<seq<E>, S>
    decreases |sched|
  {
    if sched == [] then []
    else
      var (next, out) := FirstSuccessStep(st, sched[0]);
      out + FirstSuccessRun(next, sched[1..])
  }

  /** The errors of the rejections in `evs`, in the order they arrive. */
  function ErrorsOf<E, S>(evs: seq<ChildEvent<E, S>>): seq<E>
    decreases |evs|
  {
    if evs == [] then []
    else (match evs[0].sig case Rej(e) => [e] case Res(_) => []) + ErrorsOf(evs[1..])
  }

  lemma {:induction false} FirstSuccessDoneIsSilent<E, S>(st: FirstSuccessState<E>, sched: seq<ChildEvent<E, S>>)
    requires st.isDone
    ensures FirstSuccessRun(st, sched) == []
    decreases |sched|
  {
    if sched != [] {
      FirstSuccessDoneIsSilent(st, sched[1..]);
    }
  }

  /**
    What `firstSuccess` delivers, for any schedule, started with `r` children
    running and errors `es`: the mirror image of `all`. Let `j` be the
    position of the first success. The failure callback fires when the
    running count reaches zero before `j`, with the errors in arrival order;
    the first success is delivered whatever happened before it.
   */
  function FirstSuccessShape<E, S>(r: int, es: seq<E>, sched: seq<ChildEvent<E, S>>): Trace<seq<E>, S> {
    var j := FirstWhere(sched, IsRes);
    (if 0 < r <= j then [Event(sched[r - 1].time, Rej(es + ErrorsOf(sched[..r])))] else [])
    + (if j < |sched| then [Event(sched[j].time, Res(sched[j].sig.value))] else [])
  }

  /** A failure at the head of the schedule: what it delivers, then the shape of the rest. */
  lemma FirstSuccessShapeRej<E, S>(r: int, es: seq<E>, sched: seq<ChildEvent<E, S>>)
    requires sched != [] && sched[0].sig.Rej?
    ensures var es2 := es + [sched[0].sig.error];
      FirstSuccessShape(r, es, sched)
        == (if r - 1 == 0 then [Event(sched[0].time, Rej(es2))] else []) + FirstSuccessShape(r - 1, es2, sched[1..])
  {
    var ev := sched[0];
    var rest := sched[1..];
    var e := ev.sig.error;
    assert FirstWhere(sched, IsRes) == 1 + FirstWhere(rest, IsRes);
    if 0 < r <= FirstWhere(sched, IsRes) {
      ErrorsOfPrefix(sched, r);
      assert es + ErrorsOf(sched[..r]) == (es + [e]) + ErrorsOf(rest[..r - 1]);
      if r == 1 {
        assert ErrorsOf(rest[..0]) == [];
        assert es + ErrorsOf(sched[..r]) == es + [e];
      } else {
        assert sched[r - 1] == rest[r - 2];
      }
    }
    if FirstWhere(sched, IsRes) < |sched| {
      assert sched[FirstWhere(sched, IsRes)] == rest[FirstWhere(rest, IsRes)];
    }
  }

  /** A success at the head of the schedule is all the shape holds. */
  lemma FirstSuccessShapeRes<E, S>(r: int, es: seq<E>, sched: seq<ChildEvent<E, S>>)
    requires sched != [] && sched[0].sig.Res?
    ensures FirstSuccessShape(r, es, sched) == [Event(sched[0].time, Res(sched[0].sig.value))]
  {
    assert FirstWhere(sched, IsRes) == 0;
  }

  /** The handlers on a failure at the head of the schedule. */
  lemma FirstSuccessRunRej<E, S>(r: int, es: seq<E>, sched: seq<ChildEvent<E, S>>)
    requires sched != [] && sched[0].sig.Rej?
    ensures var es2 := es + [sched[0].sig.error];
      FirstSuccessRun(FirstSuccessState(false, r, es), sched)
        == (if r - 1 == 0 then [Event(sched[0].time, Rej(es2))] else [])
          + FirstSuccessRun(FirstSuccessState(false, r - 1, es2), sched[1..])
  {
  }

  /** `firstSuccess`'s handlers, played on any schedule, deliver `FirstSuccessShape`. */
  lemma {:induction false} FirstSuccessRunShape<E, S>(r: int, es: seq<E>, sched: seq<ChildEvent<E, S>>)
    ensures FirstSuccessRun(FirstSuccessState(false, r, es), sched) == FirstSuccessShape(r, es, sched)
    decreases |sched|
  {
    if sched != [] {
      var ev := sched[0];
      var rest := sched[1..];
      match ev.sig
      case Res(v) =>
        FirstSuccessDoneIsSilent(FirstSuccessState(true, r, es), rest);
        FirstSuccessShapeRes(r, es, sched);
      case Rej(e) =>
        FirstSuccessRunShape(r - 1, es + [e], rest);
        FirstSuccessShapeRej(r, es, sched);
        FirstSuccessRunRej(r, es, sched);
    }
  }

  lemma ErrorsOfPrefix<E, S>(sched: seq<ChildEvent<E, S>>, r: nat)
    requires 0 < r <= |sched| && sched[0].sig.Rej?
    ensures ErrorsOf(sched[..r]) == [sched[0].sig.error] + ErrorsOf(sched[1..][..r - 1])
  {
    assert sched[..r][1..] == sched[1..][..r - 1];
  }

  /** When every child calls back at most once, `firstSuccess` calls its caller at most once. */
  lemma FirstSuccessDeliversAtMostOnce<E, S>(n: nat, sched: seq<ChildEvent<E, S>>)
    requires |sched| <= n
    ensures |FirstSuccessRun(FirstSuccessState(false, n, []), sched)| <= 1
  {
    FirstSuccessRunShape(n, [], sched);
  }

  /** `firstSuccess(tasks)`: an empty input fails at once with an empty error list. */
  function FirstSuccess<E, S>(cs: seq<Outcome<E, S>>): Outcome<seq<E>, S> {
    if cs == [] then Fail([])
    else FirstOf(FirstSuccessRun(FirstSuccessState(false, |cs|, []), Build(cs)))
  }

  /** Every child fails. */
  predicate AllRejected<E, S>(cs: seq<Outcome<E, S>>) {
    forall i :: 0 <= i < |cs| ==> cs[i].Done? && cs[i].sig.Rej?
  }

  /**
    Reference for `firstSuccess`: the earliest success wins; otherwise, when
    every child fails, the errors in settlement order when the last child
    settles; otherwise it never settles.
   */
  function FirstSuccessRef<E, S>(cs: seq<Outcome<E, S>>): Outcome<seq<E>, S> {
    match Earliest(cs, IsRes)
    case Some(i) => Done(cs[i].time, Res(cs[i].sig.value))
    case None =>
      if AllRejected(cs) then Done(MaxTime(cs), Rej(ErrorsOf(Build(cs))))
      else Never
  }

  lemma FirstSuccessMatchesReference<E, S>(cs: seq<Outcome<E, S>>)
    ensures FirstSuccess(cs) == FirstSuccessRef(cs)
  {
    if cs != [] {
      var sched := Build(cs);
      var n := |cs|;
      FirstSuccessRunShape(n, [], sched);
      FirstWhereIsEarliest(cs, IsRes);
      match Earliest(cs, IsRes)
      case Some(i) =>
        BuildCount(cs);
        AllDoneIffFull(cs);
      case None =>
        if AllRejected(cs) {
          AllFailHandler(cs);
        } else {
          NotAllSettledIsSilent(cs);
        }
    }
  }

  /** When every child fails, the handler rejects with all errors when the last child settles. */
  lemma AllFailHandler<E, S>(cs: seq<Outcome<E, S>>)
    requires cs != [] && AllRejected(cs)
    ensures FirstSuccessRun(FirstSuccessState(false, |cs|, []), Build(cs))
      == [Event(MaxTime(cs), Rej(ErrorsOf(Build(cs))))]
  {
    var sched := Build(cs);
    var n := |cs|;
    BuildCount(cs);
    AllDoneIffFull(cs);
    RejectedSchedule(cs);
    FirstSuccessRunShape(n, [], sched);
    assert forall p :: 0 <= p < |sched| ==> !IsRes(sched[p].sig);
    assert |sched| == n;
    assert FirstWhere(sched, IsRes) == n;
    assert sched[..n] == sched;
    assert [] + ErrorsOf(sched) == ErrorsOf(sched);
    LastIsLatest(cs);
  }

  /** With no success and some child that fails to settle, `firstSuccess` never calls back. */
  lemma NotAllSettledIsSilent<E, S>(cs: seq<Outcome<E, S>>)
    requires cs != [] && Earliest(cs, IsRes).None? && !AllRejected(cs)
    ensures FirstSuccessRun(FirstSuccessState(false, |cs|, []), Build(cs)) == []
  {
    var sched := Build(cs);
    var n := |cs|;
    BuildCount(cs);
    AllDoneIffFull(cs);
    FirstSuccessRunShape(n, [], sched);
    FirstWhereIsEarliest(cs, IsRes);
    assert !(forall i :: 0 <= i < |cs| ==> cs[i].Done?) by {
      if forall i :: 0 <= i < |cs| ==> cs[i].Done? {
        forall i | 0 <= i < |cs| ensures cs[i].Done? && cs[i].sig.Rej? {
          assert !IsRes(cs[i].sig);
        }
      }
    }
  }

  lemma {:induction false} ErrorsOfRejections<E, S>(evs: seq<ChildEvent<E, S>>)
    requires forall p :: 0 <= p < |evs| ==> evs[p].sig.Rej?
    ensures |ErrorsOf(evs)| == |evs|
    ensures forall p :: 0 <= p < |evs| ==> ErrorsOf(evs)[p] == evs[p].sig.error
    decreases |evs|
  {
    if evs != [] {
      ErrorsOfRejections(evs[1..]);
      assert forall p :: 1 <= p < |evs| ==> evs[p] == evs[1..][p - 1];
    }
  }

  /** The input positions of the children in schedule order. */
  function OrderOf<E, S>(sched: seq<ChildEvent<E, S>>): (order: seq<nat>)
    ensures |order| == |sched|
    ensures forall p :: 0 <= p < |sched| ==> order[p] == sched[p].index
  {
    seq(|sched|, p requires 0 <= p < |sched| => sched[p].index)
  }

  /**
    When every child fails, the error list of `firstSuccess` holds each
    child's error exactly once, ordered by settlement time and then input
    position: `order` is the permutation of the input positions it follows.
   */
  lemma ErrorsInSettlementOrder<E, S>(cs: seq<Outcome<E, S>>) returns (order: seq<nat>)
    requires AllRejected(cs)
    ensures |order| == |cs| == |ErrorsOf(Build(cs))|
    ensures forall i :: 0 <= i < |cs| ==> i in order
    ensures forall p, q :: 0 <= p < q < |order| ==> order[p] != order[q]
    ensures forall p :: 0 <= p < |order| ==>
      order[p] < |cs| && ErrorsOf(Build(cs))[p] == cs[order[p]].sig.error
    ensures forall p, q :: 0 <= p < q < |order| ==> Before(EventOf(cs, order[p]), EventOf(cs, order[q]))
  {
    var sched := Build(cs);
    BuildDistinct(cs);
    BuildCount(cs);
    AllDoneIffFull(cs);
    RejectedSchedule(cs);
    ErrorsOfRejections(sched);
    order := OrderOf(sched);
    forall i | 0 <= i < |cs| ensures i in order {
      var p := ScheduledOnce(cs, i);
      assert order[p] == i;
    }
  }

  /** Every event in the schedule of children that all fail is the rejection of its child. */
  lemma RejectedSchedule<E, S>(cs: seq<Outcome<E, S>>)
    requires AllRejected(cs)
    ensures forall p :: 0 <= p < |Build(cs)| ==>
      Build(cs)[p].index < |cs| && Build(cs)[p].sig.Rej? && Build(cs)[p] == EventOf(cs, Build(cs)[p].index)
  {
    BuildFromChildren(cs);
    forall p | 0 <= p < |Build(cs)|
      ensures Build(cs)[p].index < |cs| && Build(cs)[p].sig.Rej? && Build(cs)[p] == EventOf(cs, Build(cs)[p].index)
    {
      assert IsChildEvent(cs, Build(cs)[p]);
    }
  }
}

=== FILE: remote_data.dfy ===
/**
  The four-state `RemoteData` of src/RemoteData/RemoteData.ts, tagged by
  `type`, and its older form in src/RemoteData.ts, tagged by `state`, whose
  `Failure` keeps its error in a field named `result`.
 */
module RemoteData {

  datatype RemoteData<+E, +S> = Initialized | Pending | Failure(error: E) | Success(result: S)

  /** `initialize()`: no payload. */
  function Initialize<E, S>(): RemoteData<E, S> {
    Initialized
  }

  /** `pending()`: no payload. */
  function MakePending<E, S>(): RemoteData<E, S> {
    Pending
  }

  /** `succeed(result)`. */
  function Succeed<E, S>(result: S): RemoteData<E, S> {
    Success(result)
  }

  /** `fail(error)`. */
  function Fail<E, S>(error: E): RemoteData<E, S> {
    Failure(error)
  }

  /** Which handler of `fold` was invoked, with the value it returned. */
  datatype Invoked<+R> = OnInitialized(value: R) | OnPending(value: R) | OnFailure(value: R) | OnSuccess(value: R)

  /**
    `fold(onInitialized, onPending, onFailure, onSuccess, remote)`: a switch
    on the tag calling one handler; which one is recorded alongside its value.
   */
  function FoldCall<E, S, R>(onInitialized: () -> R, onPending: () -> R, onFailure: E -> R, onSuccess: S -> R,
                             remote: RemoteData<E, S>): (c: Invoked<R>)
    ensures c.OnInitialized? <==> remote.Initialized?
    ensures c.OnPending? <==> remote.Pending?
    ensures c.OnFailure? <==> remote.Failure?
    ensures c.OnSuccess? <==> remote.Success?
  {
    match remote
    case Initialized => OnInitialized(onInitialized())
    case Pending => OnPending(onPending())
    case Failure(e) => OnFailure(onFailure(e))
    case Success(s) => OnSuccess(onSuccess(s))
  }

  /** What `fold` returns. */
  function Fold<E, S, R>(onInitialized: () -> R, onPending: () -> R, onFailure: E -> R, onSuccess: S -> R,
                         remote: RemoteData<E, S>): R {
    FoldCall(onInitialized, onPending, onFailure, onSuccess, remote).value
  }

  /**
    `fold` of each constructor invokes only its own handler, with the
    constructor's payload, and returns that handler's value.
   */
  lemma FoldOfConstructors<E, S, R>(onInitialized: () -> R, onPending: () -> R, onFailure: E -> R, onSuccess: S -> R,
                                    e: E, s: S)
    ensures FoldCall(onInitialized, onPending, onFailure, onSuccess, Initialize<E, S>()) == OnInitialized(onInitialized())
    ensures FoldCall(onInitialized, onPending, onFailure, onSuccess, MakePending<E, S>()) == OnPending(onPending())
    ensures FoldCall(onInitialized, onPending, onFailure, onSuccess, Fail<E, S>(e)) == OnFailure(onFailure(e))
    ensures FoldCall(onInitialized, onPending, onFailure, onSuccess, Succeed<E, S>(s)) == OnSuccess(onSuccess(s))
  {
  }

  /** `fold` with the constructors as handlers gives the value back. */
  lemma FoldWithConstructorsIsIdentity<E, S>(remote: RemoteData<E, S>)
    ensures Fold(() => Initialize<E, S>(), () => MakePending<E, S>(), (e: E) => Fail<E, S>(e), (s: S) => Succeed<E, S>(s), remote) == remote
  {
  }

  // ---------------------------------------------------------------- the older form

  /** The `state` tag of the older form. */
  datatype Tag = InitializedTag | PendingTag | FailureTag | SuccessTag

  /**
    A value of the older form. In the source both `Failure` and `Success`
    keep their payload in a field named `result`; a Dafny datatype cannot
    give one destructor two types, so the success payload is `value` here.
   */
  datatype Old<+E, +S> = OldInitialized | OldPending | OldFailure(result: E) | OldSuccess(value: S)

  function TagOf<E, S>(remote: Old<E, S>): Tag {
    match remote
    case OldInitialized => InitializedTag
    case OldPending => PendingTag
    case OldFailure(_) => FailureTag
    case OldSuccess(_) => SuccessTag
  }

  /** `succeed(result)` of the older form. */
  function OldSucceed<E, S>(result: S): (r: Old<E, S>)
    ensures TagOf(r) == SuccessTag && r.value == result
  {
    OldSuccess(result)
  }

  predicate IsInitialized<E, S>(remote: Old<E, S>) {
    TagOf(remote) == InitializedTag
  }

  predicate IsPending<E, S>(remote: Old<E, S>) {
    TagOf(remote) == PendingTag
  }

  predicate IsFailure<E, S>(remote: Old<E, S>) {
    TagOf(remote) == FailureTag
  }

  predicate IsSuccess<E, S>(remote: Old<E, S>) {
    TagOf(remote) == SuccessTag
  }

  /** How many of the four predicates hold. */
  function Holding<E, S>(remote: Old<E, S>): nat {
    (if IsInitialized(remote) then 1 else 0) + (if IsPending(remote) then 1 else 0)
    + (if IsFailure(remote) then 1 else 0) + (if IsSuccess(remote) then 1 else 0)
  }

  /** Exactly one of the four predicates holds, and each holds on its own variant only. */
  lemma ExactlyOnePredicate<E, S>(remote: Old<E, S>)
    ensures Holding(remote) == 1
    ensures IsInitialized(remote) <==> remote.OldInitialized?
    ensures IsPending(remote) <==> remote.OldPending?
    ensures IsFailure(remote) <==> remote.OldFailure?
    ensures IsSuccess(remote) <==> remote.OldSuccess?
  {
  }

  /** The two forms carry the same information: converting to the newer form and back is the identity. */
  function ToCurrent<E, S>(remote: Old<E, S>): RemoteData<E, S> {
    match remote
    case OldInitialized => Initialized
    case OldPending => Pending
    case OldFailure(e) => Failure(e)
    case OldSuccess(s) => Success(s)
  }

  function FromCurrent<E, S>(remote: RemoteData<E, S>): Old<E, S> {
    match remote
    case Initialized => OldInitialized
    case Pending => OldPending
    case Failure(e) => OldFailure(e)
    case Success(s) => OldSuccess(s)
  }

  lemma FormsCorrespond<E, S>(remote: Old<E, S>, current: RemoteData<E, S>)
    ensures FromCurrent(ToCurrent(remote)) == remote
    ensures ToCurrent(FromCurrent(current)) == current
    ensures current.Success? ==> ToCurrent(OldSucceed<E, S>(current.result)) == Succeed(current.result)
    ensures current.Failure? ==> FromCurrent(current).result == current.error
  {
  }
}

=== FILE: result.dfy ===
/**
  The `Result` type of src/Result.ts: an `Ok` holding a result or an `Err`
  holding an error, told apart by the `type` tag.
 */
module Results {

  datatype Result<+E, +S> = Ok(result: S) | Err(error: E)

  /** `isOk(result)`: the tag is `"Ok"`. */
  predicate IsOk<E, S>(r: Result<E, S>) {
    r.Ok?
  }

  /** `isErr(result)`: the tag is `"Err"`. */
  predicate IsErr<E, S>(r: Result<E, S>) {
    r.Err?
  }

  /** Every result is exactly one of `Ok` and `Err`. */
  lemma ExactlyOneTag<E, S>(r: Result<E, S>)
    ensures IsOk(r) != IsErr(r)
  {
  }

  /** `map(fn, result)`: applies `fn` to an `Ok`, returns an `Err` unchanged. */
  function Map<E, S, S2>(f: S -> S2, r: Result<E, S>): (m: Result<E, S2>)
    ensures r.Ok? ==> m == Ok(f(r.result))
    ensures r.Err? ==> m == Err(r.error)
  {
    if IsOk(r) then Ok(f(r.result)) else Err(r.error)
  }

  /** `mapError(fn, result)`: applies `fn` to an `Err`, returns an `Ok` unchanged. */
  function MapError<E, S, E2>(f: E -> E2, r: Result<E, S>): (m: Result<E2, S>)
    ensures r.Err? ==> m == Err(f(r.error))
    ensures r.Ok? ==> m == Ok(r.result)
  {
    if IsErr(r) then Err(f(r.error)) else Ok(r.result)
  }

  /** `andThen(fn, result)`: `fn(x)` for `Ok(x)`, the same `Err` otherwise. */
  function AndThen<E, S, S2>(f: S -> Result<E, S2>, r: Result<E, S>): (m: Result<E, S2>)
    ensures r.Ok? ==> m == f(r.result)
    ensures r.Err? ==> m == Err(r.error)
  {
    if IsOk(r) then f(r.result) else Err(r.error)
  }

  /** `withDefault(defaultValue, result)`: the result of an `Ok`, the default for an `Err`. */
  function WithDefault<E, S>(d: S, r: Result<E, S>): (v: S)
    ensures r.Ok? ==> v == r.result
    ensures r.Err? ==> v == d
  {
    if IsOk(r) then r.result else d
  }

  /** `fold(errHandler, okHandler, result)`: the value of exactly the handler matching the tag. */
  function Fold<E, S, R>(onErr: E -> R, onOk: S -> R, r: Result<E, S>): (v: R)
    ensures r.Ok? ==> v == onOk(r.result)
    ensures r.Err? ==> v == onErr(r.error)
  {
    // The source's `else if (isErr(result))` is exhaustive: no result reaches past it.
    if IsOk(r) then onOk(r.result) else onErr(r.error)
  }

  /** `map` and `mapError` are `fold`s that rebuild the result. */
  lemma MapsAreFolds<E, S, E2, S2>(f: S -> S2, g: E -> E2, r: Result<E, S>)
    ensures Map(f, r) == Fold((e: E) => Err(e), (s: S) => Ok(f(s)), r)
    ensures MapError(g, r) == Fold((e: E) => Err(g(e)), (s: S) => Ok(s), r)
  {
  }

  /** `withDefault` is the `fold` whose error handler returns the default. */
  lemma WithDefaultIsFold<E, S>(d: S, r: Result<E, S>)
    ensures WithDefault(d, r) == Fold((e: E) => d, (s: S) => s, r)
  {
  }

  /** `map` keeps the identity and composition laws of a functor. */
  lemma MapLaws<E, S, S2, S3>(f: S -> S2, g: S2 -> S3, r: Result<E, S>)
    ensures Map((s: S) => s, r) == r
    ensures Map(g, Map(f, r)) == Map((s: S) => g(f(s)), r)
  {
  }

  /** `andThen` keeps the monad laws, with `Ok` as the unit. */
  lemma AndThenLaws<E, S, S2, S3>(x: S, f: S -> Result<E, S2>, g: S2 -> Result<E, S3>, r: Result<E, S>)
    ensures AndThen(f, Ok(x)) == f(x)
    ensures AndThen((s: S) => Ok(s), r) == r
    ensures AndThen(g, AndThen(f, r)) == AndThen((s: S) => AndThen(g, f(s)), r)
  {
  }

  /** `map` is `andThen` with a function that always succeeds. */
  lemma MapIsAndThen<E, S, S2>(f: S -> S2, r: Result<E, S>)
    ensures Map(f, r) == AndThen((s: S) => Ok(f(s)), r)
  {
  }
}

=== FILE: retry.dfy ===
/**
  `retryIn` and `retryWithExponentialBackoff` of src/Task/Task.ts.

  A retried task is forked again, so a task whose computation behaves
  differently on each run (it reads a counter, as a mocked request does) is
  described by `attempts`: the outcome of its `k`-th fork.
 */
module Retry {
  import opened Outcomes
  import opened Transform

  /** How a task is wrapped: the bare task, or `retryIn(ms, inner)`. */
  datatype Retrying = Base | RetryIn(ms: nat, inner: Retrying)

  /**
    Forking `w` when the base task's next fork is its `k`-th: the outcome and
    the index of the next fork. `retryIn(ms, task)` is
    `task.orElse(() => task.wait(ms))`: the inner task is forked, and forked
    again `ms` after a failure.
   */
  function Run<E, S>(w: Retrying, attempts: nat -> Outcome<E, S>, k: nat): (Outcome<E, S>, nat)
    decreases w
  {
    match w
    case Base => (attempts(k), k + 1)
    case RetryIn(ms, inner) =>
      var (o1, k1) := Run(inner, attempts, k);
      if o1.Rejected() then
        var (o2, k2) := Run(inner, attempts, k1);
        (OrElse((_: E) => Wait(ms, o2), o1), k2)
      else (o1, k1)
  }

  function Pow2(n: nat): (r: nat)
    ensures r >= 1
  {
    if n == 0 then 1 else 2 * Pow2(n - 1)
  }

  /** How many `retryIn` layers wrap the base task. */
  function Depth(w: Retrying): nat {
    match w
    case Base => 0
    case RetryIn(_, inner) => 1 + Depth(inner)
  }

  /**
    `retryWithExponentialBackoff(ms, times, task)` is
    `range(times).reduce((sum, i) => sum.retryIn(ms * 2 ** i), task)`:
    layer `i` (innermost first) waits `ms * 2^i`.
   */
  function Backoff(ms: nat, times: nat): (w: Retrying)
    ensures Depth(w) == times
  {
    if times == 0 then Base else RetryIn(ms * Pow2(times - 1), Backoff(ms, times - 1))
  }

  /** `retryIn`: a success is kept; after a failure at `t` the base task is forked once more at `t + ms`. */
  lemma RetryInOnce<E, S>(ms: nat, attempts: nat -> Outcome<E, S>, k: nat)
    ensures !attempts(k).Rejected() ==> Run(RetryIn(ms, Base), attempts, k) == (attempts(k), k + 1)
    ensures attempts(k).Rejected() ==>
      Run(RetryIn(ms, Base), attempts, k) == (Shift(attempts(k + 1), Plus(attempts(k).time, At(ms))), k + 2)
  {
    if attempts(k).Rejected() {
      ShiftAdds(attempts(k + 1), At(ms), attempts(k).time);
    }
  }

  /** A wrapped task forks the base task at least once and at most `2^depth` times. */
  lemma {:induction false} ForkCountBounded<E, S>(w: Retrying, attempts: nat -> Outcome<E, S>, k: nat)
    ensures k + 1 <= Run(w, attempts, k).1 <= k + Pow2(Depth(w))
    decreases w
  {
    match w
    case Base =>
    case RetryIn(ms, inner) =>
      ForkCountBounded(inner, attempts, k);
      var k1 := Run(inner, attempts, k).1;
      ForkCountBounded(inner, attempts, k1);
  }

  /** When the first fork does not fail, no retry happens, however many layers wrap the base task. */
  lemma {:induction false} NoRetryAfterFirstSuccess<E, S>(w: Retrying, attempts: nat -> Outcome<E, S>, k: nat)
    requires !attempts(k).Rejected()
    ensures Run(w, attempts, k) == (attempts(k), k + 1)
    decreases w
  {
    match w
    case Base =>
    case RetryIn(ms, inner) =>
      NoRetryAfterFirstSuccess(inner, attempts, k);
  }

  /** The timing step of the always-failing backoff: two failures of the inner layer around one wait. */
  lemma BackoffTimeStep(ms: nat, n: nat, t: nat)
    requires 2 * t == n * ms * Pow2(n)
    ensures 2 * (t + ms * Pow2(n) + t) == (n + 1) * ms * Pow2(n + 1)
  {
    var p := Pow2(n);
    assert Pow2(n + 1) == 2 * p;
    calc {
      2 * (t + ms * p + t);
      2 * t + 2 * t + 2 * (ms * p);
      n * ms * p + n * ms * p + 2 * (ms * p);
      { assert n * ms * p + n * ms * p == n * ms * (2 * p); }
      n * ms * (2 * p) + ms * (2 * p);
      (n + 1) * ms * (2 * p);
    }
  }

  /**
    A task that always fails synchronously is forked `2^times` times by
    `retryWithExponentialBackoff(ms, times, task)`, and the wrapped task fails
    at a time `T` with `2T = times * ms * 2^times`.
   */
  lemma {:induction false} BackoffAlwaysFailing<E, S>(ms: nat, times: nat, e: E, k: nat)
    ensures Run(Backoff(ms, times), (_: nat) => Fail<E, S>(e), k).0.Rejected()
    ensures Run(Backoff(ms, times), (_: nat) => Fail<E, S>(e), k).0.sig.error == e
    ensures Run(Backoff(ms, times), (_: nat) => Fail<E, S>(e), k).1 == k + Pow2(times)
    ensures 2 * Millis(Run(Backoff(ms, times), (_: nat) => Fail<E, S>(e), k).0.time) == times * ms * Pow2(times)
    ensures times > 0 <==> Run(Backoff(ms, times), (_: nat) => Fail<E, S>(e), k).0.time.At?
    decreases times
  {
    var attempts := (_: nat) => Fail<E, S>(e);
    if times > 0 {
      var n := times - 1;
      var inner := Backoff(ms, n);
      assert Backoff(ms, times) == RetryIn(ms * Pow2(n), inner);
      BackoffAlwaysFailing<E, S>(ms, n, e, k);
      var (o1, k1) := Run(inner, attempts, k);
      BackoffAlwaysFailing<E, S>(ms, n, e, k1);
      var (o2, k2) := Run(inner, attempts, k1);
      var r := Run(Backoff(ms, times), attempts, k);
      assert r == (Shift(Shift(o2, At(ms * Pow2(n))), o1.time), k2);
      BackoffTimeStep(ms, n, Millis(o1.time));
    }
  }

  /**
    The example of the exponential backoff: `ms = 10`, `times = 4`, a task
    whose first four forks fail synchronously and whose fifth succeeds. It
    succeeds after 10 + 10 + 20 + 40 ms, on its fifth fork.
   */
  lemma BackoffExample()
    ensures Run(Backoff(10, 4), (k: nat) => if k < 4 then Fail<int, int>(0) else Succeed<int, int>(1), 0)
      == (Done(At(80), Res(1)), 5)
  {
    var attempts := (k: nat) => if k < 4 then Fail<int, int>(0) else Succeed<int, int>(1);
    assert Backoff(10, 4) == RetryIn(80, RetryIn(40, RetryIn(20, RetryIn(10, Base))));
    var l1 := RetryIn(10, Base);
    var l2 := RetryIn(20, l1);
    var l3 := RetryIn(40, l2);
    assert attempts(0) == Fail(0) && attempts(1) == Fail(0) && attempts(4) == Succeed(1);
    RetryInOnce(10, attempts, 0);
    RetryInOnce(10, attempts, 2);
    RetryInOnce(10, attempts, 4);
    assert Run(l1, attempts, 0) == (Done(At(10), Rej(0)), 2);
    assert Run(l1, attempts, 2) == (Done(At(10), Rej(0)), 4);
    assert Run(l2, attempts, 0) == (Done(At(40), Rej(0)), 4);
    assert Run(l1, attempts, 4) == (Done(Sync, Res(1)), 5);
    assert Run(l2, attempts, 4) == (Done(Sync, Res(1)), 5);
    assert Run(l3, attempts, 0) == (Done(At(80), Res(1)), 5);
  }
}

=== FILE: schedule.dfy ===
/**
  The order in which the children of a parallel combinator call back.

  All children are forked in input order inside one synchronous loop. A child
  that settles synchronously calls back during that loop, so before any timer
  fires and in input order; timers with equal delays fire in the order they
  were set, which is again input order. The schedule of well-behaved children
  is therefore their events sorted by (`Rank` of the time, input index).
 */
module Schedule {
  import opened Options
  import opened Outcomes

  /** A callback call made by the child at input position `index`. */
  datatype ChildEvent<+E, +S> = ChildEvent(time: Time, index: nat, sig: Signal<E, S>)

  /** `a` is delivered no later than `b`: earlier, or at the same time and not later in the input. */
  predicate Before<E, S>(a: ChildEvent<E, S>, b: ChildEvent<E, S>) {
    Rank(a.time) < Rank(b.time) || (a.time == b.time && a.index <= b.index)
  }

  predicate Sorted<E, S>(s: seq<ChildEvent<E, S>>) {
    forall i, j :: 0 <= i < j < |s| ==> Before(s[i], s[j])
  }

  /** No child appears twice: each child calls back at most once. */
  predicate DistinctIndices<E, S>(s: seq<ChildEvent<E, S>>) {
    forall i, j :: 0 <= i < j < |s| ==> s[i].index != s[j].index
  }

  /** Every event comes from one of the first `n` children. */
  predicate IndicesBelow<E, S>(s: seq<ChildEvent<E, S>>, n: nat) {
    forall i :: 0 <= i < |s| ==> s[i].index < n
  }

  /** Inserts an event into a sorted schedule. */
  function Insert<E, S>(e: ChildEvent<E, S>, s: seq<ChildEvent<E, S>>): (r: seq<ChildEvent<E, S>>)
    requires Sorted(s)
    ensures Sorted(r)
    ensures |r| == |s| + 1
    ensures e in r
    ensures forall i :: 0 <= i < |s| ==> s[i] in r
    ensures forall i :: 0 <= i < |r| ==> r[i] == e || r[i] in s
  {
    if s == [] then [e]
    else if Before(e, s[0]) then [e] + s
    else
      var rest := Insert(e, s[1..]);
      assert forall i :: 0 <= i < |rest| ==> Before(s[0], rest[i]);
      [s[0]] + rest
  }

  lemma TailFacts<E, S>(s: seq<ChildEvent<E, S>>, n: nat)
    requires s != [] && Sorted(s) && DistinctIndices(s) && IndicesBelow(s, n)
    ensures Sorted(s[1..]) && DistinctIndices(s[1..]) && IndicesBelow(s[1..], n)
  {
  }

  /** An event taken from the tail of a schedule has a different child than its head. */
  lemma HeadDiffers<E, S>(s: seq<ChildEvent<E, S>>, x: ChildEvent<E, S>)
    requires s != [] && DistinctIndices(s) && x in s[1..]
    ensures x.index != s[0].index
  {
    var k :| 0 <= k < |s[1..]| && s[1..][k] == x;
    assert s[k + 1] == x;
  }

  /** Inserting the event of a new child keeps the child indices distinct. */
  lemma {:induction false} InsertKeepsDistinct<E, S>(e: ChildEvent<E, S>, s: seq<ChildEvent<E, S>>, n: nat)
    requires Sorted(s) && DistinctIndices(s) && IndicesBelow(s, n) && e.index == n
    ensures DistinctIndices(Insert(e, s)) && IndicesBelow(Insert(e, s), n + 1)
  {
    if s == [] {
    } else if Before(e, s[0]) {
      InsertFront(e, s, n);
    } else {
      TailFacts(s, n);
      InsertKeepsDistinct(e, s[1..], n);
      InsertBehind(e, s, n);
    }
  }

  /** Putting an event of a child not yet present in front keeps the indices distinct. */
  lemma ConsDistinct<E, S>(x: ChildEvent<E, S>, t: seq<ChildEvent<E, S>>)
    requires DistinctIndices(t)
    requires forall k :: 0 <= k < |t| ==> t[k].index != x.index
    ensures DistinctIndices([x] + t)
  {
    var r := [x] + t;
    forall i, j | 0 <= i < j < |r| ensures r[i].index != r[j].index {
      assert r[j] == t[j - 1];
      if i > 0 {
        assert r[i] == t[i - 1];
      }
    }
  }

  lemma InsertFront<E, S>(e: ChildEvent<E, S>, s: seq<ChildEvent<E, S>>, n: nat)
    requires DistinctIndices(s) && IndicesBelow(s, n) && e.index == n
    ensures DistinctIndices([e] + s) && IndicesBelow([e] + s, n + 1)
  {
    ConsDistinct(e, s);
  }

  lemma InsertBehind<E, S>(e: ChildEvent<E, S>, s: seq<ChildEvent<E, S>>, n: nat)
    requires s != [] && Sorted(s) && DistinctIndices(s) && IndicesBelow(s, n) && e.index == n
    requires !Before(e, s[0])
    requires DistinctIndices(Insert(e, s[1..])) && IndicesBelow(Insert(e, s[1..]), n + 1)
    ensures DistinctIndices(Insert(e, s)) && IndicesBelow(Insert(e, s), n + 1)
  {
    var rest := Insert(e, s[1..]);
    assert Insert(e, s) == [s[0]] + rest;
    forall k | 0 <= k < |rest| ensures rest[k].index != s[0].index {
      if rest[k] != e {
        HeadDiffers(s, rest[k]);
      }
    }
    ConsDistinct(s[0], rest);
  }

  /** In a schedule, every synchronous call comes before every timer call. */
  lemma SyncBeforeTimers<E, S>(cs: seq<Outcome<E, S>>, i: nat, j: nat)
    requires i < j < |Build(cs)|
    ensures Build(cs)[i].time.At? ==> Build(cs)[j].time.At?
  {
    assert Before(Build(cs)[i], Build(cs)[j]);
  }

  /** How many of the children settle. */
  function CountDone<E, S>(cs: seq<Outcome<E, S>>): nat {
    if cs == [] then 0 else CountDone(cs[..|cs| - 1]) + (if cs[|cs| - 1].Done? then 1 else 0)
  }

  /** `x` is the settlement event of child `x.index`. */
  ghost predicate IsChildEvent<E, S>(cs: seq<Outcome<E, S>>, x: ChildEvent<E, S>) {
    x.index < |cs| && cs[x.index] == Done(x.time, x.sig)
  }

  /** The event of a child that settles. */
  function EventOf<E, S>(cs: seq<Outcome<E, S>>, i: nat): ChildEvent<E, S>
    requires i < |cs| && cs[i].Done?
  {
    ChildEvent(cs[i].time, i, cs[i].sig)
  }

  /**
    The schedule of well-behaved children: their settlement events, sorted by
    (time, input index).
   */
  function Build<E, S>(cs: seq<Outcome<E, S>>): (r: seq<ChildEvent<E, S>>)
    ensures Sorted(r)
  {
    if cs == [] then []
    else
      var n := |cs| - 1;
      match cs[n]
      case Never => Build(cs[..n])
      case Done(t, sig) => Insert(ChildEvent(t, n, sig), Build(cs[..n]))
  }

  /** The schedule holds exactly one event per settled child, and nothing else. */
  lemma BuildFacts<E, S>(cs: seq<Outcome<E, S>>)
    ensures DistinctIndices(Build(cs)) && IndicesBelow(Build(cs), |cs|)
    ensures |Build(cs)| == CountDone(cs)
    ensures forall i :: 0 <= i < |Build(cs)| ==> IsChildEvent(cs, Build(cs)[i])
    ensures forall i :: 0 <= i < |cs| && cs[i].Done? ==> EventOf(cs, i) in Build(cs)
  {
    BuildDistinct(cs);
    BuildCount(cs);
    BuildFromChildren(cs);
    BuildHasEveryChild(cs);
  }

  lemma {:induction false} BuildDistinct<E, S>(cs: seq<Outcome<E, S>>)
    ensures DistinctIndices(Build(cs)) && IndicesBelow(Build(cs), |cs|)
  {
    if cs != [] {
      var n := |cs| - 1;
      BuildDistinct(cs[..n]);
      match cs[n]
      case Never =>
      case Done(t, sig) =>
        InsertKeepsDistinct(ChildEvent(t, n, sig), Build(cs[..n]), n);
    }
  }

  lemma {:induction false} BuildCount<E, S>(cs: seq<Outcome<E, S>>)
    ensures |Build(cs)| == CountDone(cs)
  {
    if cs != [] {
      BuildCount(cs[..|cs| - 1]);
    }
  }

  lemma {:induction false} BuildFromChildren<E, S>(cs: seq<Outcome<E, S>>)
    ensures forall i :: 0 <= i < |Build(cs)| ==> IsChildEvent(cs, Build(cs)[i])
  {
    if cs != [] {
      var n := |cs| - 1;
      var prev := Build(cs[..n]);
      BuildFromChildren(cs[..n]);
      assert forall i :: 0 <= i < |prev| ==> IsChildEvent(cs, prev[i]) by {
        forall i | 0 <= i < |prev| ensures IsChildEvent(cs, prev[i]) {
          assert IsChildEvent(cs[..n], prev[i]);
          assert cs[..n][prev[i].index] == cs[prev[i].index];
        }
      }
    }
  }

  lemma {:induction false} BuildHasEveryChild<E, S>(cs: seq<Outcome<E, S>>)
    ensures forall i :: 0 <= i < |cs| && cs[i].Done? ==> EventOf(cs, i) in Build(cs)
  {
    if cs != [] {
      var n := |cs| - 1;
      BuildHasEveryChild(cs[..n]);
      assert forall i :: 0 <= i < n && cs[i].Done? ==> EventOf(cs[..n], i) == EventOf(cs, i);
    }
  }

  /** The child at input position `i` has exactly one event in the schedule, at `p`. */
  lemma ScheduledOnce<E, S>(cs: seq<Outcome<E, S>>, i: nat) returns (p: nat)
    requires i < |cs| && cs[i].Done?
    ensures p < |Build(cs)| && Build(cs)[p] == EventOf(cs, i)
    ensures forall q :: 0 <= q < |Build(cs)| && q != p ==> Build(cs)[q].index != i
  {
    var r := Build(cs);
    BuildFacts(cs);
    assert EventOf(cs, i) in r;
    p :| 0 <= p < |r| && r[p] == EventOf(cs, i);
    forall q | 0 <= q < |r| && q != p ensures r[q].index != i {
      if q < p {
        assert r[q].index != r[p].index;
      } else {
        assert r[p].index != r[q].index;
      }
    }
  }

  /** Counting settled children: at most all of them, and all exactly when every child settles. */
  lemma {:induction false} AllDoneIffFull<E, S>(cs: seq<Outcome<E, S>>)
    ensures CountDone(cs) <= |cs|
    ensures CountDone(cs) == |cs| <==> forall i :: 0 <= i < |cs| ==> cs[i].Done?
  {
    if cs != [] {
      var n := |cs| - 1;
      AllDoneIffFull(cs[..n]);
      assert forall i :: 0 <= i < n ==> cs[..n][i] == cs[i];
    }
  }

  /** The first position of the schedule whose callback `want` picks, or `|sched|`. */
  function FirstWhere<E, S>(sched: seq<ChildEvent<E, S>>, want: Signal<E, S> -> bool): (j: nat)
    ensures j <= |sched|
    ensures forall p :: 0 <= p < j ==> !want(sched[p].sig)
    ensures j < |sched| ==> want(sched[j].sig)
  {
    if sched == [] then 0
    else if want(sched[0].sig) then 0
    else 1 + FirstWhere(sched[1..], want)
  }

  function IsRej<E, S>(s: Signal<E, S>): bool { s.Rej? }

  function IsRes<E, S>(s: Signal<E, S>): bool { s.Res? }

  function AnySig<E, S>(s: Signal<E, S>): bool { true }

  /**
    Reference: the child, among those that settle with a callback `want` picks,
    that settles first (a synchronous one before any timer, the shortest timer
    first, then the lowest input index). A plain scan
    over the children, independent of the schedule.
   */
  function Earliest<E, S>(cs: seq<Outcome<E, S>>, want: Signal<E, S> -> bool): (r: Option<nat>)
    ensures r.Some? ==> r.value < |cs| && cs[r.value].Done? && want(cs[r.value].sig)
    ensures r.Some? ==> forall k :: 0 <= k < |cs| && cs[k].Done? && want(cs[k].sig) ==>
      Before(EventOf(cs, r.value), EventOf(cs, k))
    ensures r.None? ==> forall k :: 0 <= k < |cs| && cs[k].Done? ==> !want(cs[k].sig)
  {
    if cs == [] then None
    else
      var n := |cs| - 1;
      var p := Earliest(cs[..n], want);
      assert forall k :: 0 <= k < n ==> cs[..n][k] == cs[k];
      if cs[n].Done? && want(cs[n].sig) && (p.None? || Rank(cs[n].time) < Rank(cs[p.value].time)) then Some(n)
      else p
  }

  /** Reference: a settling child with the latest settlement time, if any child settles. */
  function Latest<E, S>(cs: seq<Outcome<E, S>>): (r: Option<nat>)
    ensures r.Some? ==> r.value < |cs| && cs[r.value].Done?
    ensures r.Some? ==> forall k :: 0 <= k < |cs| && cs[k].Done? ==> Rank(cs[k].time) <= Rank(cs[r.value].time)
    ensures r.None? ==> forall k :: 0 <= k < |cs| ==> cs[k].Never?
  {
    if cs == [] then None
    else
      var n := |cs| - 1;
      var p := Latest(cs[..n]);
      assert forall k :: 0 <= k < n ==> cs[..n][k] == cs[k];
      if cs[n].Done? && (p.None? || Rank(cs[p.value].time) <= Rank(cs[n].time)) then Some(n)
      else p
  }

  /** The time at which the last child settles; `Sync` when none does. */
  function MaxTime<E, S>(cs: seq<Outcome<E, S>>): Time {
    match Latest(cs)
    case None => Sync
    case Some(i) => cs[i].time
  }

  /** Two events of the same child in a sorted, index-distinct schedule are one event. */
  lemma BeforeAntisymmetric<E, S>(cs: seq<Outcome<E, S>>, a: ChildEvent<E, S>, b: ChildEvent<E, S>)
    requires IsChildEvent(cs, a) && IsChildEvent(cs, b) && Before(a, b) && Before(b, a)
    ensures a == b
  {
  }

  /**
    The first event of the schedule that `want` picks is the event of the
    earliest such child; there is one exactly when such a child exists.
   */
  lemma FirstWhereIsEarliest<E, S>(cs: seq<Outcome<E, S>>, want: Signal<E, S> -> bool)
    ensures FirstWhere(Build(cs), want) < |Build(cs)| <==> Earliest(cs, want).Some?
    ensures FirstWhere(Build(cs), want) < |Build(cs)| ==>
      Build(cs)[FirstWhere(Build(cs), want)] == EventOf(cs, Earliest(cs, want).value)
  {
    var sched := Build(cs);
    var j := FirstWhere(sched, want);
    BuildFacts(cs);
    match Earliest(cs, want)
    case None =>
      forall p | 0 <= p < |sched| ensures !want(sched[p].sig) {
        assert IsChildEvent(cs, sched[p]);
      }
    case Some(i) =>
      var p := ScheduledOnce(cs, i);
      assert want(sched[p].sig);
      assert j <= p;
      var k := sched[j].index;
      assert IsChildEvent(cs, sched[j]);
      assert sched[j] == EventOf(cs, k);
      assert Before(EventOf(cs, i), EventOf(cs, k));
      assert Before(sched[j], sched[p]);
      BeforeAntisymmetric(cs, sched[j], sched[p]);
  }

  lemma {:induction false} NoneSettledCount<E, S>(cs: seq<Outcome<E, S>>)
    requires forall k :: 0 <= k < |cs| ==> cs[k].Never?
    ensures CountDone(cs) == 0
  {
    if cs != [] {
      NoneSettledCount(cs[..|cs| - 1]);
    }
  }

  /** When some child settles, the last event of the schedule is at the latest settlement time. */
  lemma LastIsLatest<E, S>(cs: seq<Outcome<E, S>>)
    ensures Build(cs) == [] <==> Latest(cs).None?
    ensures Build(cs) != [] ==> Build(cs)[|Build(cs)| - 1].time == MaxTime(cs)
  {
    var sched := Build(cs);
    BuildFacts(cs);
    match Latest(cs)
    case None =>
      NoneSettledCount(cs);
    case Some(i) =>
      var p := ScheduledOnce(cs, i);
      var last := |sched| - 1;
      assert IsChildEvent(cs, sched[last]);
      if p < last {
        assert Before(sched[p], sched[last]);
      }
  }
}

=== FILE: sequential.dfy ===
/**
  `sequence`, `loop` and `reduce` of src/Task/Task.ts: combinators that fork
  one task after another, each when the previous one has succeeded. The
  delay of a task forked at time `t` is added to `t`.
 */
module Sequential {
  import opened Options
  import opened Outcomes
  import opened Transform

  // ---------------------------------------------------------------- sequence

  /**
    The body of `sequence` for a non-empty input: `tasks.reduce((sum, task) =>
    chain(list => map(result => [...list, result], task), sum), succeed([]))`.
   */
  function SequenceFold<E, S>(cs: seq<Outcome<E, S>>): Outcome<E, seq<S>>
    decreases |cs|
  {
    if cs == [] then Succeed([])
    else
      var last := cs[|cs| - 1];
      Chain((list: seq<S>) => Map((r: S) => list + [r], last), SequenceFold(cs[..|cs| - 1]))
  }

  /** `sequence(tasks)`: an empty input succeeds at once with an empty array. */
  function Sequence<E, S>(cs: seq<Outcome<E, S>>): Outcome<E, seq<S>> {
    if cs == [] then Succeed([]) else SequenceFold(cs)
  }

  /**
    Reference for `sequence`, read from the front: the tasks run one after the
    other; the first failure ends it, a task that never settles stalls it, and
    otherwise the results are collected in order after the sum of the delays.
   */
  function SequenceRef<E, S>(cs: seq<Outcome<E, S>>): Outcome<E, seq<S>>
    decreases |cs|
  {
    if cs == [] then Succeed([])
    else
      match cs[0]
      case Never => Never
      case Done(t, Rej(e)) => Done(t, Rej(e))
      case Done(t, Res(v)) => Shift(Map((vs: seq<S>) => [v] + vs, SequenceRef(cs[1..])), t)
  }

  /** The reference read from the back: appending a task chains it after the rest. */
  lemma {:induction false} SequenceRefSnoc<E, S>(cs: seq<Outcome<E, S>>, c: Outcome<E, S>)
    ensures SequenceRef(cs + [c]) == Chain((list: seq<S>) => Map((r: S) => list + [r], c), SequenceRef(cs))
    decreases |cs|
  {
    var g := (list: seq<S>) => Map((r: S) => list + [r], c);
    if cs == [] {
      assert [] + [c] == [c];
      assert [c][1..] == [];
      match c
      case Never =>
      case Done(t, Rej(e)) =>
      case Done(t, Res(v)) =>
        assert [v] + [] == [] + [v];
    } else {
      var x := cs[0];
      var rest := cs[1..];
      assert (cs + [c])[0] == x;
      assert (cs + [c])[1..] == rest + [c];
      SequenceRefSnoc(rest, c);
      match x
      case Never =>
      case Done(t, Rej(e)) =>
      case Done(t, Res(v)) =>
        var h := (vs: seq<S>) => [v] + vs;
        var o := SequenceRef(rest);
        assert SequenceRef(cs + [c]) == Shift(Map(h, Chain(g, o)), t);
        assert SequenceRef(cs) == Shift(Map(h, o), t);
        ChainShift(g, Map(h, o), t);
        match o
        case Never =>
        case Done(t2, Rej(e2)) =>
        case Done(t2, Res(list)) =>
          match c
          case Never =>
          case Done(t3, Rej(e3)) =>
          case Done(t3, Res(r)) =>
            assert [v] + (list + [r]) == ([v] + list) + [r];
    }
  }

  /** The left fold of `sequence` computes the reference. */
  lemma {:induction false} SequenceFoldMatchesReference<E, S>(cs: seq<Outcome<E, S>>)
    ensures SequenceFold(cs) == SequenceRef(cs)
    decreases |cs|
  {
    if cs != [] {
      var n := |cs| - 1;
      SequenceFoldMatchesReference(cs[..n]);
      assert cs[..n] + [cs[n]] == cs;
      SequenceRefSnoc(cs[..n], cs[n]);
    }
  }

  lemma SequenceMatchesReference<E, S>(cs: seq<Outcome<E, S>>)
    ensures Sequence(cs) == SequenceRef(cs)
  {
    SequenceFoldMatchesReference(cs);
  }

  /** Once a task fails, the tasks after it are never forked: they cannot change the outcome. */
  lemma {:induction false} SequenceStopsAtFailure<E, S>(cs: seq<Outcome<E, S>>, k: nat, later: seq<Outcome<E, S>>)
    requires k < |cs| && cs[k].Rejected()
    ensures SequenceRef(cs[..k + 1] + later) == SequenceRef(cs[..k + 1])
    decreases k
  {
    if k > 0 {
      assert (cs[..k + 1] + later)[1..] == cs[1..][..k] + later;
      assert cs[..k + 1][1..] == cs[1..][..k];
      SequenceStopsAtFailure(cs[1..], k - 1, later);
    }
  }

  /** When every task succeeds, `sequence` succeeds with all results, in order, after the sum of the delays. */
  lemma {:induction false} SequenceAllSucceed<E, S>(cs: seq<Outcome<E, S>>)
    requires AllResolved(cs)
    ensures SequenceRef(cs).Resolved()
    ensures |SequenceRef(cs).sig.value| == |cs|
    ensures forall i :: 0 <= i < |cs| ==> SequenceRef(cs).sig.value[i] == cs[i].sig.value
    ensures SequenceRef(cs).time == TotalTime(cs)
    decreases |cs|
  {
    if cs != [] {
      SequenceAllSucceed(cs[1..]);
      assert forall i :: 1 <= i < |cs| ==> cs[i] == cs[1..][i - 1];
    }
  }

  /** The sum of the delays of settling tasks. */
  function TotalTime<E, S>(cs: seq<Outcome<E, S>>): Time
    decreases |cs|
  {
    if cs == [] then Sync else Plus(if cs[0].Done? then cs[0].time else Sync, TotalTime(cs[1..]))
  }

  // ---------------------------------------------------------------- loop

  /** `LoopBreak(value)` ends the loop with `value`; `LoopContinue(value)` runs another step. */
  datatype LoopStep<S, T> = LoopBreak(result: S) | LoopContinue(next: T)

  /**
    `loop(fn, initialValue)`, run for at most `fuel` steps: `None` when the
    loop is still continuing after `fuel` steps. Each step's task is forked
    when the previous step succeeds; a failure of any step is the loop's failure.
   */
  function Loop<E, S, T>(step: T -> Outcome<E, LoopStep<S, T>>, v: T, fuel: nat): (r: Option<Outcome<E, S>>)
    ensures fuel == 0 ==> r.None?
    decreases fuel
  {
    if fuel == 0 then None
    else
      match step(v)
      case Never => Some(Never)
      case Done(t, Rej(e)) => Some(Done(t, Rej(e)))
      case Done(t, Res(LoopBreak(s))) => Some(Done(t, Res(s)))
      case Done(t, Res(LoopContinue(next))) =>
        match Loop(step, next, fuel - 1)
        case None => None
        case Some(o) => Some(Shift(o, t))
  }

  /** More fuel never changes an outcome already reached: the fuel bound only truncates. */
  lemma {:induction false} LoopFuelMonotone<E, S, T>(step: T -> Outcome<E, LoopStep<S, T>>, v: T, fuel: nat, more: nat)
    requires Loop(step, v, fuel).Some?
    requires fuel <= more
    ensures Loop(step, v, more) == Loop(step, v, fuel)
    decreases fuel
  {
    match step(v)
    case Never =>
    case Done(t, Rej(e)) =>
    case Done(t, Res(LoopBreak(s))) =>
    case Done(t, Res(LoopContinue(next))) =>
      LoopFuelMonotone(step, next, fuel - 1, more - 1);
  }

  /** A step that breaks at once ends the loop with its value. */
  lemma LoopBreakEnds<E, S, T>(step: T -> Outcome<E, LoopStep<S, T>>, v: T, fuel: nat, t: Time, s: S)
    requires fuel > 0 && step(v) == Done(t, Res(LoopBreak(s)))
    ensures Loop(step, v, fuel) == Some(Done(t, Res(s)))
  {
  }

  // ---------------------------------------------------------------- reduce

  /** The loop state of `reduce`: `{ remainingItems, currentResult }`. */
  datatype ReduceState<T, V> = ReduceState(remaining: seq<T>, current: V)

  /**
    The step `reduce` passes to `loop`: no item left breaks with the current
    result; otherwise `fn(acc, head, index, items)` is forked and its result
    continues with the tail, where `index = items.length - tail.length - 1`.
   */
  function ReduceStep<E, T, V>(f: (V, T, nat, seq<T>) -> Outcome<E, V>, items: seq<T>, st: ReduceState<T, V>)
    : Outcome<E, LoopStep<V, ReduceState<T, V>>>
  {
    if st.remaining == [] then Succeed(LoopBreak(st.current))
    else
      var tail := st.remaining[1..];
      var index := if |items| >= |tail| + 1 then |items| - |tail| - 1 else 0;
      Map((next: V) => LoopContinue(ReduceState(tail, next)), f(st.current, st.remaining[0], index, items))
  }

  /** `reduce(fn, initialValue, items)`, with fuel for one step per item plus the final break. */
  function Reduce<E, T, V>(f: (V, T, nat, seq<T>) -> Outcome<E, V>, init: V, items: seq<T>): Option<Outcome<E, V>> {
    Loop((st: ReduceState<T, V>) => ReduceStep(f, items, st), ReduceState(items, init), |items| + 1)
  }

  /** Reference for `reduce`: an asynchronous left fold over `items` from position `i`. */
  function ReduceRef<E, T, V>(f: (V, T, nat, seq<T>) -> Outcome<E, V>, acc: V, items: seq<T>, i: nat): Outcome<E, V>
    requires i <= |items|
    decreases |items| - i
  {
    if i == |items| then Succeed(acc)
    else
      match f(acc, items[i], i, items)
      case Never => Never
      case Done(t, Rej(e)) => Done(t, Rej(e))
      case Done(t, Res(v)) => Shift(ReduceRef(f, v, items, i + 1), t)
  }

  lemma {:induction false} ReduceLoopFromPosition<E, T, V>(
    f: (V, T, nat, seq<T>) -> Outcome<E, V>, items: seq<T>, acc: V, i: nat, fuel: nat)
    requires i <= |items| && fuel >= |items| - i + 1
    ensures Loop((st: ReduceState<T, V>) => ReduceStep(f, items, st), ReduceState(items[i..], acc), fuel)
      == Some(ReduceRef(f, acc, items, i))
    decreases |items| - i
  {
    var step := (st: ReduceState<T, V>) => ReduceStep(f, items, st);
    if i < |items| {
      var tail := items[i..][1..];
      assert tail == items[i + 1..];
      assert items[i..][0] == items[i];
      assert |items| - |tail| - 1 == i;
      ReduceLoopFromPosition(f, items, acc, i + 1, fuel - 1);
      match f(acc, items[i], i, items)
      case Never =>
      case Done(t, Rej(e)) =>
      case Done(t, Res(v)) =>
        ReduceLoopFromPosition(f, items, v, i + 1, fuel - 1);
        assert step(ReduceState(items[i..], acc)) == Done(t, Res(LoopContinue(ReduceState(items[i + 1..], v))));
    }
  }

  /**
    `reduce` always finishes its loop within one step per item plus one, and
    computes the left fold: each item is passed with its own index, in order.
   */
  lemma ReduceMatchesReference<E, T, V>(f: (V, T, nat, seq<T>) -> Outcome<E, V>, init: V, items: seq<T>)
    ensures Reduce(f, init, items) == Some(ReduceRef(f, init, items, 0))
  {
    assert items[0..] == items;
    ReduceLoopFromPosition(f, items, init, 0, |items| + 1);
  }

  /** Reducing nothing succeeds at once with the initial value. */
  lemma ReduceOfNothing<E, T, V>(f: (V, T, nat, seq<T>) -> Outcome<E, V>, init: V)
    ensures Reduce(f, init, []) == Some(Succeed(init))
  {
    ReduceMatchesReference(f, init, []);
  }
}

=== FILE: subscription.dfy ===
/**
  The `Subscription` broadcaster of src/Subscription/Subscription.ts.

  Event subscribers and status listeners are kept in JavaScript `Set`s, which
  hold each function once and iterate in insertion order; they are sequences
  without duplicates here, whose elements stand for the functions' identities.
  A subscription is "active" exactly when it has an event subscriber, and
  status listeners hear about every change of that status.
 */
module Subscriptions {
  import opened Options
  import opened Outcomes
  import Transform
  import Parallel
  import Schedule

  datatype Status = Active | Inactive

  /** `eventSubscribers_`, `status_` and `statusSubscribers_`. */
  datatype Subscription<F, L> = Subscription(subscribers: seq<F>, status: Status, listeners: seq<L>)

  /** A status listener called with a status. */
  datatype Notice<L> = Notice(listener: L, status: Status)

  /** A sequence that holds no element twice, as a `Set`'s iteration order does. */
  ghost predicate NoDup<X>(s: seq<X>) {
    forall i, j :: 0 <= i < j < |s| ==> s[i] != s[j]
  }

  /** `Set.add(x)`: a new element goes last, a present one stays where it is. */
  function Add<X(==, !new)>(s: seq<X>, x: X): (r: seq<X>)
    ensures NoDup(s) ==> NoDup(r)
    ensures forall y :: y in r <==> y in s || y == x
    ensures x in s ==> r == s
    ensures x !in s ==> r == s + [x]
  {
    if x in s then s else s + [x]
  }

  /** `Set.delete(x)`: every other element stays, in order. */
  function Remove<X(==, !new)>(s: seq<X>, x: X): (r: seq<X>)
    ensures forall y :: y in r <==> y in s && y != x
    ensures NoDup(s) ==> NoDup(r)
    ensures x !in s ==> r == s
    ensures |r| <= |s|
    decreases |s|
  {
    if s == [] then []
    else if s[0] == x then Remove(s[1..], x)
    else
      var rest := Remove(s[1..], x);
      assert NoDup(s) ==> s[0] !in s[1..];
      assert NoDup(s) ==> NoDup(s[1..]) by {
        if NoDup(s) {
          forall i, j | 0 <= i < j < |s[1..]| ensures s[1..][i] != s[1..][j] {
            assert s[1..][i] == s[i + 1] && s[1..][j] == s[j + 1];
          }
        }
      }
      [s[0]] + rest
  }

  /** A new subscription: no subscribers, "inactive", no listeners. */
  function Initial<F, L>(): Subscription<F, L> {
    Subscription([], Inactive, [])
  }

  /** The status a set of subscribers calls for. */
  function StatusFor<F>(subscribers: seq<F>): Status {
    if |subscribers| > 0 then Active else Inactive
  }

  /** Every listener, in insertion order, told `status`. */
  function Broadcast<L>(listeners: seq<L>, status: Status): (ns: seq<Notice<L>>)
    ensures |ns| == |listeners|
    ensures forall i :: 0 <= i < |listeners| ==> ns[i] == Notice(listeners[i], status)
  {
    seq(|listeners|, i requires 0 <= i < |listeners| => Notice(listeners[i], status))
  }

  /**
    `checkStatus_()`: recompute the status from the subscribers; when it
    differs from the stored one, store it and tell every listener.
   */
  function CheckStatus<F, L>(sub: Subscription<F, L>): (r: (Subscription<F, L>, seq<Notice<L>>))
    ensures r.0 == sub.(status := StatusFor(sub.subscribers))
    ensures StatusFor(sub.subscribers) == sub.status ==> r.1 == []
    ensures StatusFor(sub.subscribers) != sub.status ==> r.1 == Broadcast(sub.listeners, StatusFor(sub.subscribers))
  {
    var next := StatusFor(sub.subscribers);
    if next == sub.status then (sub, [])
    else (sub.(status := next), Broadcast(sub.listeners, next))
  }

  /** The operations on a subscription; `Unsubscribe(fn)` is calling the function `subscribe(fn)` returned. */
  datatype Op<F, L> = Subscribe(fn: F) | Unsubscribe(fn: F) | Clear | OnStatusChange(listener: L) | StopListening(listener: L)

  /** One operation: the subscription afterwards and the listener calls it made. */
  function Step<F(==, !new), L(==, !new)>(sub: Subscription<F, L>, op: Op<F, L>): (Subscription<F, L>, seq<Notice<L>>) {
    match op
    case Subscribe(fn) => CheckStatus(sub.(subscribers := Add(sub.subscribers, fn)))
    case Unsubscribe(fn) => CheckStatus(sub.(subscribers := Remove(sub.subscribers, fn)))
    case Clear => CheckStatus(sub.(subscribers := []))
    case OnStatusChange(l) => (sub.(listeners := Add(sub.listeners, l)), [])
    case StopListening(l) => (sub.(listeners := Remove(sub.listeners, l)), [])
  }

  function Run<F(==, !new), L(==, !new)>(sub: Subscription<F, L>, ops: seq<Op<F, L>>): (Subscription<F, L>, seq<Notice<L>>)
    decreases |ops|
  {
    if ops == [] then (sub, [])
    else
      var (s1, n1) := Step(sub, ops[0]);
      var (s2, n2) := Run(s1, ops[1..]);
      (s2, n1 + n2)
  }

  /** What every reachable subscription satisfies: the stored status is the one the subscribers call for. */
  ghost predicate Inv<F, L>(sub: Subscription<F, L>) {
    && sub.status == StatusFor(sub.subscribers)
    && NoDup(sub.subscribers)
    && NoDup(sub.listeners)
  }

  /**
    After every operation the status is "active" exactly when there is a
    subscriber; listeners are called, each once with the new status, exactly
    when the status changed, and registering or removing a listener calls
    nobody.
   */
  lemma StepSpec<F(!new), L(!new)>(sub: Subscription<F, L>, op: Op<F, L>)
    requires Inv(sub)
    ensures Inv(Step(sub, op).0)
    ensures Step(sub, op).0.status == (if |Step(sub, op).0.subscribers| > 0 then Active else Inactive)
    ensures Step(sub, op).0.status == sub.status ==> Step(sub, op).1 == []
    ensures Step(sub, op).0.status != sub.status ==>
      Step(sub, op).1 == Broadcast(sub.listeners, Step(sub, op).0.status)
    ensures op.OnStatusChange? || op.StopListening? ==> Step(sub, op).1 == []
  {
  }

  lemma {:induction false} RunKeepsInv<F(!new), L(!new)>(sub: Subscription<F, L>, ops: seq<Op<F, L>>)
    requires Inv(sub)
    ensures Inv(Run(sub, ops).0)
    decreases |ops|
  {
    if ops != [] {
      StepSpec(sub, ops[0]);
      RunKeepsInv(Step(sub, ops[0]).0, ops[1..]);
    }
  }

  /** From a new subscription, any operations leave the status "active" iff there is a subscriber. */
  lemma StatusTracksSubscribers<F(!new), L(!new)>(ops: seq<Op<F, L>>)
    ensures Run(Initial<F, L>(), ops).0.status == Active <==> |Run(Initial<F, L>(), ops).0.subscribers| > 0
  {
    RunKeepsInv(Initial<F, L>(), ops);
  }

  /**
    Set semantics: subscribing a function twice keeps one copy, and its
    unsubscriber removes that function and only it.
   */
  lemma SubscribeIsASet<F(!new), L(!new)>(sub: Subscription<F, L>, fn: F, other: F)
    requires Inv(sub)
    ensures Step(Step(sub, Subscribe(fn)).0, Subscribe(fn)).0.subscribers == Step(sub, Subscribe(fn)).0.subscribers
    ensures fn !in Step(Step(sub, Subscribe(fn)).0, Unsubscribe(fn)).0.subscribers
    ensures other != fn ==>
      (other in Step(Step(sub, Subscribe(fn)).0, Unsubscribe(fn)).0.subscribers <==> other in sub.subscribers)
  {
  }

  /**
    The first subscriber turns the subscription "active" and tells every
    listener; its unsubscriber turns it back to "inactive" and tells them again.
   */
  lemma FirstSubscriberNotifies<F(!new), L(!new)>(listeners: seq<L>, fn: F)
    requires NoDup(listeners)
    ensures Step(Subscription([], Inactive, listeners), Subscribe(fn))
      == (Subscription([fn], Active, listeners), Broadcast(listeners, Active))
    ensures Step(Subscription([fn], Active, listeners), Unsubscribe(fn))
      == (Subscription([], Inactive, listeners), Broadcast(listeners, Inactive))
  {
    var none: seq<F> := [];
    assert Add(none, fn) == [fn];
    var on := Step(Subscription(none, Inactive, listeners), Subscribe(fn));
    assert on.0 == Subscription([fn], Active, listeners);
    assert on.1 == Broadcast(listeners, Active);
    assert Remove([fn], fn) == [];
    var off := Step(Subscription([fn], Active, listeners), Unsubscribe(fn));
    assert off.0 == Subscription(none, Inactive, listeners);
    assert off.1 == Broadcast(listeners, Inactive);
  }

  // ---------------------------------------------------------------- emit

  /**
    What a subscriber returned: nothing (`void`, or any other falsy value), or
    a task, described by the outcome of forking it.
   */
  type Returned<E, S> = Option<Outcome<E, S>>

  /** `sub(value) || Task.empty()`: a returned task, or `empty()` in its place. */
  function OrEmpty<E, S>(r: Returned<E, S>): Outcome<E, Option<S>> {
    match r
    case None => Empty()
    case Some(o) => Transform.Map((s: S) => Some(s), o)
  }

  /** The tasks `emit` passes to `all`, one per subscriber, in insertion order. */
  function Children<F, L, E, S>(sub: Subscription<F, L>, reply: F -> Returned<E, S>): (cs: seq<Outcome<E, Option<S>>>)
    ensures |cs| == |sub.subscribers|
    ensures forall i :: 0 <= i < |cs| ==> cs[i] == OrEmpty(reply(sub.subscribers[i]))
  {
    seq(|sub.subscribers|, i requires 0 <= i < |sub.subscribers| => OrEmpty(reply(sub.subscribers[i])))
  }

  /**
    `emit(value)`: every current subscriber is called with `value`, at once and
    in insertion order (the calls are the subscribers, as listed), and the
    result is `Task.all` over what they returned. `reply(fn)` is what `fn`
    returns when called with this value.

    Each subscriber is called exactly once. The outcome is that of `all`: the
    earliest rejection of a returned task, or, when all of them succeed, the
    results in subscriber order once the last one settles; with no
    subscribers it resolves at once with nothing.
   */
  function Emit<F, L, E, S>(sub: Subscription<F, L>, reply: F -> Returned<E, S>)
    : (r: (seq<F>, Outcome<E, map<nat, Option<S>>>))
    ensures r.0 == sub.subscribers
    ensures Inv(sub) ==> NoDup(r.0)
    ensures r.1 == Parallel.AllRef(Children(sub, reply))
    ensures sub.subscribers == [] ==> r.1 == Succeed(map[])
  {
    Parallel.AllMatchesReference(Children(sub, reply));
    (sub.subscribers, Parallel.All(Children(sub, reply)))
  }

  /**
    Subscribers that return nothing make `emit` resolve synchronously, with
    `undefined` for each of them.
   */
  lemma EmitOfPlainSubscribers<F, L, E, S>(sub: Subscription<F, L>, reply: F -> Returned<E, S>)
    requires forall fn :: fn in sub.subscribers ==> reply(fn).None?
    ensures Emit(sub, reply).1.Resolved() && Emit(sub, reply).1.time == Sync
    ensures forall k: nat :: k in Emit(sub, reply).1.sig.value <==> k < |sub.subscribers|
    ensures forall k :: k in Emit(sub, reply).1.sig.value ==> Emit(sub, reply).1.sig.value[k].None?
  {
    var cs := Children(sub, reply);
    assert forall k :: 0 <= k < |cs| ==> cs[k] == Empty() by {
      forall k | 0 <= k < |cs| ensures cs[k] == Empty() {
        assert sub.subscribers[k] in sub.subscribers;
      }
    }
    assert AllResolved(cs);
    if cs != [] {
      assert Schedule.MaxTime(cs) == Sync;
    }
  }

  /** After `clear()`, `emit` calls no subscriber and resolves with nothing. */
  lemma ClearSilencesEmit<F(!new), L(!new), E, S>(sub: Subscription<F, L>, reply: F -> Returned<E, S>)
    ensures Emit(Step(sub, Clear).0, reply).0 == []
    ensures Emit(Step(sub, Clear).0, reply).1 == Succeed(map[])
  {
  }
}

=== FILE: transform.dfy ===
/**
  The single-input combinators of src/Task/Task.ts as functions on outcomes.
  Each one forks its input once; a task it forks afterwards (`chain`,
  `orElse`) is described by its own outcome measured from its own fork, and is
  shifted by the time at which it is forked.
 */
module Transform {
  import opened Options
  import opened Outcomes

  /** `map(fn, task)`: `fn` is applied to a success; a failure passes through. */
  function Map<E, S, S2>(f: S -> S2, o: Outcome<E, S>): (r: Outcome<E, S2>)
    ensures ChannelOf(r) == ChannelOf(o)
    ensures o.Done? ==> r.time == o.time
    ensures o.Rejected() ==> r.sig == Rej(o.sig.error)
    ensures o.Resolved() ==> r.sig == Res(f(o.sig.value))
  {
    match o
    case Never => Never
    case Done(t, Rej(e)) => Done(t, Rej(e))
    case Done(t, Res(s)) => Done(t, Res(f(s)))
  }

  /** `mapError(fn, task)`: `fn` is applied to a failure; a success passes through. */
  function MapError<E, S, E2>(f: E -> E2, o: Outcome<E, S>): (r: Outcome<E2, S>)
    ensures ChannelOf(r) == ChannelOf(o)
    ensures o.Done? ==> r.time == o.time
    ensures o.Resolved() ==> r.sig == Res(o.sig.value)
    ensures o.Rejected() ==> r.sig == Rej(f(o.sig.error))
  {
    match o
    case Never => Never
    case Done(t, Rej(e)) => Done(t, Rej(f(e)))
    case Done(t, Res(s)) => Done(t, Res(s))
  }

  /** `mapBoth(handleError, handleSuccess, task)` is `mapError(handleError, map(handleSuccess, task))`. */
  function MapBoth<E, S, E2, S2>(he: E -> E2, hs: S -> S2, o: Outcome<E, S>): Outcome<E2, S2> {
    MapError(he, Map(hs, o))
  }

  /** `fold(handleError, handleSuccess, task)`: both channels end in `resolve`. */
  function Fold<E, S, E2, R>(he: E -> R, hs: S -> R, o: Outcome<E, S>): (r: Outcome<E2, R>)
    ensures o.Never? <==> r.Never?
    ensures o.Done? ==> r.Resolved() && r.time == o.time
    ensures o.Rejected() ==> r.sig.value == he(o.sig.error)
    ensures o.Resolved() ==> r.sig.value == hs(o.sig.value)
  {
    match o
    case Never => Never
    case Done(t, Rej(e)) => Done(t, Res(he(e)))
    case Done(t, Res(s)) => Done(t, Res(hs(s)))
  }

  /** `swap(task)`: a success becomes a failure and the other way round. */
  function Swap<E, S>(o: Outcome<E, S>): (r: Outcome<S, E>)
    ensures o.Never? <==> r.Never?
    ensures o.Done? ==> r.time == o.time
    ensures o.Resolved() <==> r.Rejected()
    ensures o.Rejected() <==> r.Resolved()
  {
    match o
    case Never => Never
    case Done(t, Rej(e)) => Done(t, Res(e))
    case Done(t, Res(s)) => Done(t, Rej(s))
  }

  /**
    `chain(fn, task)`: on success at time `t`, `fn(s)` is forked at `t`;
    a failure of the first task is delivered unchanged and `fn` is not called.
   */
  function Chain<E, S, S2>(f: S -> Outcome<E, S2>, o: Outcome<E, S>): (r: Outcome<E, S2>)
    ensures o.Never? ==> r.Never?
    ensures o.Rejected() ==> r == Done(o.time, Rej(o.sig.error))
    ensures o.Resolved() ==> r == Shift(f(o.sig.value), o.time)
  {
    match o
    case Never => Never
    case Done(t, Rej(e)) => Done(t, Rej(e))
    case Done(t, Res(s)) => Shift(f(s), t)
  }

  /**
    `orElse(fn, task)`: on failure at time `t` the recovery task `fn(e)` is
    forked at `t`; a success is delivered unchanged and `fn` is not called.
   */
  function OrElse<E, S>(f: E -> Outcome<E, S>, o: Outcome<E, S>): (r: Outcome<E, S>)
    ensures o.Never? ==> r.Never?
    ensures o.Resolved() ==> r == o
    ensures o.Rejected() ==> r == Shift(f(o.sig.error), o.time)
  {
    match o
    case Never => Never
    case Done(t, Res(s)) => Done(t, Res(s))
    case Done(t, Rej(e)) => Shift(f(e), t)
  }

  /** `tap(fn, task)`: `fn` runs on success for its effect only; the value is kept. */
  function Tap<E, S>(o: Outcome<E, S>): Outcome<E, S> {
    Map(x => x, o)
  }

  /** `task.forward(v)`: a success is replaced by `v`. */
  function Forward<E, S, S2>(v: S2, o: Outcome<E, S>): Outcome<E, S2> {
    Map(_ => v, o)
  }

  /** `task.append(...items)`: a success `a` becomes `[a, ...items]`. */
  function Append<E, S>(items: seq<S>, o: Outcome<E, S>): Outcome<E, seq<S>> {
    Map(a => [a] + items, o)
  }

  /** `task.prepend(...items)`: a success `a` becomes `[...items, a]`. */
  function Prepend<E, S>(items: seq<S>, o: Outcome<E, S>): Outcome<E, seq<S>> {
    Map(a => items + [a], o)
  }

  /**
    `tapChain(fn, task)`: on success `s` the side task `fn(s)` is forked; its
    failure propagates, its value is discarded and `s` is forwarded.
   */
  function TapChain<E, S, S2>(f: S -> Outcome<E, S2>, o: Outcome<E, S>): Outcome<E, S> {
    Chain(s => Forward(s, f(s)), o)
  }

  /** `flatten(task)`: a task resolving to a task runs the inner one (`chain(identity)`). */
  function Flatten<E, S>(o: Outcome<E, Outcome<E, S>>): Outcome<E, S> {
    Chain(x => x, o)
  }

  /** `wait(ms, task)`: `task` is forked when a timer of `ms` fires. */
  function Wait<E, S>(ms: nat, o: Outcome<E, S>): Outcome<E, S> {
    Shift(o, At(ms))
  }

  /**
    `succeedIf(fn, task)`: `check` is what `fn()` returned (`None` for
    `undefined`) and `truthy` is JavaScript truthiness on values. Only a truthy
    check result short-circuits; a falsy one (0, "", false, ...) runs `task`.
   */
  function SucceedIf<E, S>(check: Option<S>, truthy: S -> bool, o: Outcome<E, S>): (r: Outcome<E, S>)
    ensures check.Some? && truthy(check.value) ==> r == Succeed(check.value)
    ensures check.None? || !truthy(check.value) ==> r == o
  {
    if check.Some? && truthy(check.value) then Succeed(check.value) else o
  }

  // ---------------------------------------------------------------------
  // Laws relating the combinators.

  /** `map` with the identity changes nothing; so `tap` never changes an outcome. */
  lemma TapIsIdentity<E, S>(o: Outcome<E, S>)
    ensures Tap(o) == o
  {
  }

  /** `map` composes: mapping `f` then `g` is mapping `g ∘ f`. */
  lemma MapComposes<E, A, B, C>(f: A -> B, g: B -> C, o: Outcome<E, A>)
    ensures Map(g, Map(f, o)) == Map(x => g(f(x)), o)
  {
  }

  /** The two halves of `mapBoth` are independent: they commute. */
  lemma MapBothCommutes<E, S, E2, S2>(he: E -> E2, hs: S -> S2, o: Outcome<E, S>)
    ensures MapBoth(he, hs, o) == Map(hs, MapError(he, o))
  {
  }

  /** `swap` is an involution. */
  lemma SwapInvolution<E, S>(o: Outcome<E, S>)
    ensures Swap(Swap(o)) == o
  {
  }

  /** `swap` exchanges `map` and `mapError`. */
  lemma SwapExchangesMaps<E, S, S2>(f: S -> S2, o: Outcome<E, S>)
    ensures Swap(Map(f, o)) == MapError(f, Swap(o))
  {
  }

  /** `orElse` is `chain` on the swapped channels. */
  lemma OrElseIsSwappedChain<E, S>(f: E -> Outcome<E, S>, o: Outcome<E, S>)
    ensures OrElse(f, o) == Swap(Chain((e: E) => Swap(f(e)), Swap(o)))
  {
    match o
    case Never =>
    case Done(t, Res(s)) =>
    case Done(t, Rej(e)) =>
      var g := (e: E) => Swap(f(e));
      assert Chain(g, Swap(o)) == Shift(g(e), t);
      SwapInvolution(f(e));
  }

  /** `fold` is `map` followed by recovery into a success. */
  lemma FoldIsMapThenRecover<E, S, R>(he: E -> R, hs: S -> R, o: Outcome<E, S>)
    ensures Fold<E, S, E, R>(he, hs, o) == OrElse((e: E) => Succeed(he(e)), Map(hs, o))
  {
  }

  /** Left identity: chaining onto `succeed(x)` is forking `fn(x)`. */
  lemma ChainLeftIdentity<E, S, S2>(f: S -> Outcome<E, S2>, x: S)
    ensures Chain(f, Succeed(x)) == f(x)
  {
    match f(x)
    case Never =>
    case Done(t, s) =>
  }

  /** Right identity: chaining `succeed` changes nothing. */
  lemma ChainRightIdentity<E, S>(o: Outcome<E, S>)
    ensures Chain((x: S) => Succeed(x), o) == o
  {
  }

  lemma ChainShift<E, S, S2>(f: S -> Outcome<E, S2>, o: Outcome<E, S>, d: Time)
    ensures Chain(f, Shift(o, d)) == Shift(Chain(f, o), d)
  {
    match o
    case Never =>
    case Done(t, Rej(e)) =>
    case Done(t, Res(s)) => ShiftAdds(f(s), t, d);
  }

  /** Associativity: nesting of `chain` does not matter. */
  lemma ChainAssociative<E, A, B, C>(f: A -> Outcome<E, B>, g: B -> Outcome<E, C>, o: Outcome<E, A>)
    ensures Chain(g, Chain(f, o)) == Chain((x: A) => Chain(g, f(x)), o)
  {
    match o
    case Never =>
    case Done(t, Rej(e)) =>
    case Done(t, Res(s)) => ChainShift(g, f(s), t);
  }

  /** `map` is `chain` into a synchronous success. */
  lemma MapIsChain<E, S, S2>(f: S -> S2, o: Outcome<E, S>)
    ensures Map(f, o) == Chain((x: S) => Succeed(f(x)), o)
  {
  }

  /** `flatten(map(fn, task))` is `chain(fn, task)`. */
  lemma FlattenMapIsChain<E, S, S2>(f: S -> Outcome<E, S2>, o: Outcome<E, S>)
    ensures Flatten(Map(f, o)) == Chain(f, o)
  {
  }

  /** `tapChain` keeps the original value but takes the side task's time and failure. */
  lemma TapChainForwardsOriginal<E, S, S2>(f: S -> Outcome<E, S2>, o: Outcome<E, S>)
    ensures o.Resolved() && f(o.sig.value).Resolved() ==>
              TapChain(f, o) == Done(Plus(o.time, f(o.sig.value).time), Res(o.sig.value))
    ensures o.Resolved() && f(o.sig.value).Rejected() ==>
              TapChain(f, o) == Done(Plus(o.time, f(o.sig.value).time), Rej(f(o.sig.value).sig.error))
    ensures o.Rejected() ==> TapChain(f, o) == o
  {
  }

  /**
    `wait` delays settlement by exactly `ms` and changes nothing else; even
    `wait(0, task)` settles in a timer callback, after every synchronous one.
   */
  lemma WaitDelays<E, S>(ms: nat, o: Outcome<E, S>)
    ensures ChannelOf(Wait(ms, o)) == ChannelOf(o)
    ensures o.Done? ==> Wait(ms, o).time.At? && Wait(ms, o).sig == o.sig
    ensures o.Done? ==> Millis(Wait(ms, o).time) == ms + Millis(o.time)
  {
  }

  /**
    `forward`, `append` and `prepend` change only a success: the channel, the
    time and a failure's error are kept, and a success's value is replaced.
   */
  lemma SuccessOnlyCombinators<E, S, S2>(v: S2, items: seq<S>, o: Outcome<E, S>)
    ensures ChannelOf(Forward(v, o)) == ChannelOf(o) && ChannelOf(Append(items, o)) == ChannelOf(o)
    ensures ChannelOf(Prepend(items, o)) == ChannelOf(o)
    ensures o.Rejected() ==> Forward(v, o) == Done(o.time, Rej(o.sig.error))
    ensures o.Rejected() ==> Append(items, o) == Done(o.time, Rej(o.sig.error)) == Prepend(items, o)
    ensures o.Resolved() ==> Forward(v, o) == Done(o.time, Res(v))
    ensures o.Resolved() ==> Append(items, o) == Done(o.time, Res([o.sig.value] + items))
    ensures o.Resolved() ==> Prepend(items, o) == Done(o.time, Res(items + [o.sig.value]))
  {
  }

  /** A check that returns a falsy, defined value still runs the wrapped task. */
  lemma SucceedIfFalsyRunsTask<E>(o: Outcome<E, int>)
    ensures SucceedIf(Some(0), (n: int) => n != 0, o) == o
  {
  }
}

=== FILE: util.dfy ===
/**
  The array helpers of src/util.ts.

  JavaScript numbers are modelled as integers; a count that is not finite
  (`Infinity`, `-Infinity` or `NaN`) is the `NonFinite` count. Objects used as
  string-keyed dictionaries are maps.
 */
module Util {
  import opened Options

  // ---------------------------------------------------------------- range

  /**
    `range(end, start = 0)`: `Array(end - start)` filled with `start + i`.
    `Array(n)` throws a RangeError for a negative length; that is `None`.
   */
  function Range(end: int, start: int): (r: Option<seq<int>>)
    ensures r.Some? <==> start <= end
    ensures r.Some? ==> |r.value| == end - start
    ensures r.Some? ==> forall i :: 0 <= i < |r.value| ==> r.value[i] == start + i
  {
    if end - start < 0 then None else Some(seq(end - start, i => start + i))
  }

  /** The ranges step by one: splitting a range at any point gives two ranges. */
  lemma RangeSplits(start: int, mid: int, end: int)
    requires start <= mid <= end
    ensures Range(end, start).value == Range(mid, start).value + Range(end, mid).value
  {
    var whole := Range(end, start).value;
    var parts := Range(mid, start).value + Range(end, mid).value;
    assert |whole| == |parts|;
    forall i | 0 <= i < |whole|
      ensures whole[i] == parts[i]
    {
      if i >= mid - start {
        assert parts[i] == Range(end, mid).value[i - (mid - start)];
      }
    }
  }

  // ---------------------------------------------------------------- to

  /**
    `to(fn)`, a reducer `(sum, _item, index, all)`: the running sum passes
    through until the last index, where the result is `fn(all)`.
   */
  function To<A, T>(fn: seq<A> -> T, sum: T, item: A, index: int, all: seq<A>): T {
    if index != |all| - 1 then sum else fn(all)
  }

  /** `all.reduce(reducer, initial)` from position `i` on, with the sum reached so far. */
  function ReduceFrom<A, T>(f: (T, A, int, seq<A>) -> T, sum: T, all: seq<A>, i: nat): T
    requires i <= |all|
    decreases |all| - i
  {
    if i == |all| then sum else ReduceFrom(f, f(sum, all[i], i, all), all, i + 1)
  }

  /**
    Passed to `reduce` with an initial value, `to(fn)` yields `fn(all)` for a
    non-empty array and the initial value for an empty one; started at any
    position, whatever the sum, it still ends in `fn(all)`.
   */
  lemma {:induction false} ReduceToWraps<A, T>(fn: seq<A> -> T, sum: T, all: seq<A>, i: nat)
    requires i <= |all|
    ensures ReduceFrom((s: T, x: A, k: int, xs: seq<A>) => To(fn, s, x, k, xs), sum, all, i)
      == if i == |all| then sum else fn(all)
    decreases |all| - i
  {
    if i < |all| {
      var f := (s: T, x: A, k: int, xs: seq<A>) => To(fn, s, x, k, xs);
      ReduceToWraps(fn, f(sum, all[i], i, all), all, i + 1);
    }
  }

  /**
    `all.reduce(to(fn))` with no initial value starts from `all[0]` at index 1:
    an array of one element gives that element back without calling `fn`. On
    an empty array `reduce` throws a TypeError; that case is outside this lemma.
   */
  lemma ReduceToWithoutInitial<T>(fn: seq<T> -> T, all: seq<T>)
    ensures |all| >= 2 ==> ReduceFrom((s: T, x: T, k: int, xs: seq<T>) => To(fn, s, x, k, xs), all[0], all, 1) == fn(all)
    ensures |all| == 1 ==> ReduceFrom((s: T, x: T, k: int, xs: seq<T>) => To(fn, s, x, k, xs), all[0], all, 1) == all[0]
  {
    if |all| >= 1 {
      ReduceToWraps(fn, all[0], all, 1);
    }
  }

  // ---------------------------------------------------------------- indexed objects

  /** `toIndexedObject(fn)`: a reducer storing `fn(item, index)`'s value under its key. */
  function ToIndexedObject<T, V>(fn: (T, int) -> (string, V), sum: map<string, V>, item: T, index: int): map<string, V> {
    var (key, value) := fn(item, index);
    sum[key := value]
  }

  /** `items.reduce(toIndexedObject(fn), initial)` over the items from position `i` on. */
  function IndexFrom<T, V>(fn: (T, int) -> (string, V), items: seq<T>, sum: map<string, V>, i: nat): map<string, V>
    requires i <= |items|
    decreases |items| - i
  {
    if i == |items| then sum else IndexFrom(fn, items, ToIndexedObject(fn, sum, items[i], i), i + 1)
  }

  /** `mapToIndexedObject(fn, items, initial)`. */
  function MapToIndexedObject<T, V>(fn: (T, int) -> (string, V), items: seq<T>, initial: map<string, V>): map<string, V> {
    IndexFrom(fn, items, initial, 0)
  }

  /** The last position from `i` on whose produced key is `key`, if any. */
  function LastWithKey<T, V>(fn: (T, int) -> (string, V), items: seq<T>, key: string, i: nat): (r: Option<nat>)
    requires i <= |items|
    ensures r.Some? ==> i <= r.value < |items| && fn(items[r.value], r.value).0 == key
    ensures r.Some? ==> forall j :: r.value < j < |items| ==> fn(items[j], j).0 != key
    ensures r.None? ==> forall j :: i <= j < |items| ==> fn(items[j], j).0 != key
    decreases |items| - i
  {
    if i == |items| then None
    else
      match LastWithKey(fn, items, key, i + 1)
      case Some(j) => Some(j)
      case None => if fn(items[i], i).0 == key then Some(i) else None
  }

  /**
    `mapToIndexedObject` keeps every key of `initial` and adds every produced
    key; a key maps to the value produced by the last item producing it, and
    otherwise keeps its initial value.
   */
  lemma {:induction false} IndexFromSpec<T, V>(fn: (T, int) -> (string, V), items: seq<T>, sum: map<string, V>, i: nat)
    requires i <= |items|
    ensures forall key :: key in IndexFrom(fn, items, sum, i) <==> key in sum || LastWithKey(fn, items, key, i).Some?
    ensures forall key :: key in IndexFrom(fn, items, sum, i) ==>
      IndexFrom(fn, items, sum, i)[key] ==
        match LastWithKey(fn, items, key, i)
        case Some(j) => fn(items[j], j).1
        case None => sum[key]
    decreases |items| - i
  {
    if i < |items| {
      IndexFromSpec(fn, items, ToIndexedObject(fn, sum, items[i], i), i + 1);
    }
  }

  lemma MapToIndexedObjectSpec<T, V>(fn: (T, int) -> (string, V), items: seq<T>, initial: map<string, V>)
    ensures forall key :: key in MapToIndexedObject(fn, items, initial) <==> key in initial || LastWithKey(fn, items, key, 0).Some?
    ensures forall key :: key in MapToIndexedObject(fn, items, initial) ==>
      MapToIndexedObject(fn, items, initial)[key] ==
        match LastWithKey(fn, items, key, 0)
        case Some(j) => fn(items[j], j).1
        case None => initial[key]
  {
    IndexFromSpec(fn, items, initial, 0);
  }

  /** `pairsToIndexedObject(sum, [key, value])`: a reducer storing a pair. */
  function PairsToIndexedObject<V>(sum: map<string, V>, pair: (string, V)): (r: map<string, V>)
    ensures r.Keys == sum.Keys + {pair.0}
    ensures r[pair.0] == pair.1
    ensures forall k :: k in sum && k != pair.0 ==> r[k] == sum[k]
  {
    sum[pair.0 := pair.1]
  }

  /** Reducing pairs from position `i` on. */
  function PairsFrom<V>(pairs: seq<(string, V)>, sum: map<string, V>, i: nat): map<string, V>
    requires i <= |pairs|
    decreases |pairs| - i
  {
    if i == |pairs| then sum else PairsFrom(pairs, PairsToIndexedObject(sum, pairs[i]), i + 1)
  }

  /** Reducing pairs with `pairsToIndexedObject` is `mapToIndexedObject` with the pair as the producer. */
  lemma {:induction false} PairsAreIndexed<V>(pairs: seq<(string, V)>, sum: map<string, V>, i: nat)
    requires i <= |pairs|
    ensures PairsFrom(pairs, sum, i) == IndexFrom((p: (string, V), k: int) => p, pairs, sum, i)
    decreases |pairs| - i
  {
    if i < |pairs| {
      PairsAreIndexed(pairs, PairsToIndexedObject(sum, pairs[i]), i + 1);
    }
  }

  // ---------------------------------------------------------------- validation

  /** `Validation<E, S>`: `{success: true, value}` or `{success: false, error}`. */
  datatype Validation<+E, +S> = Valid(value: S) | Invalid(error: E) {
    predicate Success() { Valid? }
  }

  function SuccessfulValidation<E, S>(value: S): (v: Validation<E, S>)
    ensures v.Success() && v.value == value
  {
    Valid(value)
  }

  function FailedValidation<E, S>(error: E): (v: Validation<E, S>)
    ensures !v.Success() && v.error == error
  {
    Invalid(error)
  }

  // ---------------------------------------------------------------- take, drop

  /** A count: a finite integer, or `Infinity`, `-Infinity` or `NaN`. */
  datatype Count = Finite(n: int) | NonFinite

  /** Where a relative index `n` lands in an array of `len` elements: negative counts from the end. */
  function Clamp(n: int, len: nat): (k: nat)
    ensures k <= len
    ensures 0 <= n ==> k == if n <= len then n else len
    ensures n < 0 ==> k == if len + n >= 0 then len + n else 0
  {
    if n < 0 then (if len + n < 0 then 0 else len + n)
    else if n > len then len else n
  }

  /** `take(count, arr)`: a copy of `arr` when the count is not finite, else `arr.slice(0, count)`. */
  function Take<T>(count: Count, arr: seq<T>): (r: seq<T>)
    ensures count.NonFinite? ==> r == arr
    ensures count.Finite? ==> r == arr[..Clamp(count.n, |arr|)]
  {
    match count
    case NonFinite => arr
    case Finite(n) => arr[..Clamp(n, |arr|)]
  }

  /**
    `drop(count, arr)`: `[]` when the count is not finite; else `arr.splice(count)`,
    which returns the elements from the count on and truncates `arr` in place
    to those before it. Returns the result and `arr` afterwards.
   */
  function Drop<T>(count: Count, arr: seq<T>): (r: (seq<T>, seq<T>))
    ensures count.NonFinite? ==> r == ([], arr)
    ensures count.Finite? ==> r.1 + r.0 == arr && |r.1| == Clamp(count.n, |arr|)
  {
    match count
    case NonFinite => ([], arr)
    case Finite(n) =>
      var k := Clamp(n, |arr|);
      assert arr[..k] + arr[k..] == arr;
      (arr[k..], arr[..k])
  }

  /**
    For every count, what `take` returns followed by what `drop` returns is the
    array; a finite `drop` leaves behind exactly what `take` returns.
   */
  lemma TakeDropSplit<T>(count: Count, arr: seq<T>)
    ensures Take(count, arr) + Drop(count, arr).0 == arr
    ensures count.Finite? ==> Drop(count, arr).1 == Take(count, arr)
  {
    if count.Finite? {
      var k := Clamp(count.n, |arr|);
      assert arr[..k] + arr[k..] == arr;
    }
  }

  /** With a count at least the length, `take` copies everything and `drop` returns nothing. */
  lemma TakeDropBeyondLength<T>(n: int, arr: seq<T>)
    requires n >= |arr|
    ensures Take(Finite(n), arr) == arr
    ensures Drop(Finite(n), arr) == ([], arr)
  {
  }
}
